=== FILE: README.md ===
# Recruitment workflow engine in Dafny

This project models the core of UniqueRecruitmentBackend, the back end of a student team's recruitment pipeline:

- Candidates submit, edit and abandon **applications** to a **recruitment**. A recruitment has a beginning, a submission deadline and an end.
- Members of the team's **groups** move each application along a fixed sequence of **steps**: sign-up, written test, group time selection, group interview, stress test, team time selection, team interview, pass. The two interviews also have online variants. Members can also reject an application.
- Members publish **interview slots** per recruitment and group. The name `"unique"` stands for the team-wide interview.
- Candidates **select** slots (a many-to-many table). Members **allocate** one group slot and one team slot per application.
- A slot that is selected or allocated is **locked**: it can be neither rescheduled nor deleted.
- The pipeline notifies candidates by **SMS** through numbered templates.

The database is an abstract `Store`: three maps from uid to record plus a set of selection rows. Instants are `int` seconds, and the clock is a `now` parameter. Everything that happens per request is a pure function returning `Result`/`Outcome`, with the errors as a datatype. Best-effort loops are folds that collect one error per failed item.

Modules:

| module | file | what it holds |
|---|---|---|
| `Wrappers`, `Errors` | wrappers.dfy | `Option`, `Result`, `Outcome`; the error values |
| `Strings` | strings.dfy | Go byte length and byte slicing of UTF-8 strings, ASCII lower-casing |
| `Constants` | constants.dfy | steps, rank table, Chinese labels, group table, SMS templates, interview kinds |
| `Roles` | roles.dfy | `CheckRoles`, `CheckInGroups`, `GetMaxRole` |
| `TimeUtil` | timeutil.dfy | hour truncation, civil calendar, `GetTimeByString` |
| `RecruitmentName` | recname.dfy | `ConvertRecruitmentName`, `CheckNameValid` |
| `Model` | model.dfy | the records, the store, uniqueness keys, references, `Recruitment.GetInterviews` |
| `Options` | options.dfy | the request validators of the options types |
| `Windows` | windows.dfy | the time windows, status, step and group guards |
| `ApplicationStore` | app_store.dfy | the application model layer |
| `InterviewStore` | interview_store.dfy | the interview model layer and the lock set |
| `SelectionDiff` | diff.dfy | `getAddAndDelInterviews` |
| `Reconcile` | reconcile.dfy | the `SetRecruitmentInterviews` reconciliation |
| `InterviewHandlers` | interview_api.dfy | listing, creating and deleting slots |
| `ApplicationFlow` | app_flow.dfy | the application handlers and file keys |
| `RecruitmentFlow` | recruitment_flow.dfy | recruitment creation, visibility, recruitment files |
| `Sms` | sms.dfy | `ApplySMSTemplate` and the `SendSMS` batch |

Where the code and its written description disagree, the model follows the code:

- `UpdateApplication` and `SetApplicationStep` check no time window.
- `GetRecruitmentById` does not fail on an unknown id. GORM's `Find` yields the zero record, so an unknown recruitment reads as one that ended at Go's zero time.
- Uploading an answer file clears the referrer.
- The handlers call the store update as Go writes it, with its zero-skipping write. The corrected update of the findings below is used only by `ApplicationFlow.UpdateApplicationHandlerIntended`.

## Model

| member | source | states |
|---|---|---|
| Constants.ParseStepKey | pkg/constants.go:85-96 | every step's key is a key of the rank table and parses back to that step |
| Constants.ParseStep | pkg/constants.go:85-96 | a string parses to a step only when it is that step's key |
| Constants.Rank | pkg/constants.go:85-96 | every step has a rank in 1..8 |
| Constants.RanksFollowMainLine | pkg/constants.go:85-96 | ranks strictly increase along sign-up, written test, group time selection, group interview, stress test, team time selection, team interview, pass |
| Constants.OnlineSharesRank | pkg/constants.go:89-94 | the two online interviews share the rank of their in-person counterparts, and no other two steps share a rank |
| Constants.ZhRoundTrip | pkg/constants.go:99-121 | translating a step to Chinese and back gives the step, for every step but the team interview, whose label is not a key of the reverse table |
| Constants.ZhToEnInjectiveAndOnto | pkg/constants.go:110-121 | the reverse table maps distinct labels to distinct steps and reaches all ten steps |
| Constants.KeysAreNotLabels | pkg/constants.go:99-121 | no English step key is a Chinese label, so translation leaves English keys alone |
| Constants.GroupTable | pkg/constants.go:18-29 | the group table holds exactly ten names, "unique" among them |
| Constants.TemplateIdsDistinct | pkg/constants.go:165-173 | distinct SMS templates have distinct ids |
| Constants.ParseKind | pkg/constants.go:126-127 | only "group" and "team" name an interview kind |
| Roles.CheckRoles | internal/utils/role.go:7-16 | true exactly when the user's roles and the requested roles share an element |
| Roles.CheckInGroups | internal/utils/role.go:17-24 | true exactly when some element equals the group |
| Roles.Scan | internal/utils/role.go:27-31 | the scan for one role finds it exactly when it is in the list |
| Roles.GetMaxRole | internal/utils/role.go:26-43 | admin if present, else member if present, else candidate if present, else ""; the result is one of the input roles or "" |
| Strings.SplitAtByteOfConcat | internal/utils/recruitment.go:18-19 | slicing a string at the byte length of its prefix gives back the prefix and the rest, as Go's `s[:4]`, `s[4:]` do |
| Strings.SplitAtByte | internal/utils/recruitment.go:18-19 | a split at byte n, when it exists, gives a prefix of n bytes and the rest, which concatenate to the input; it exists whenever the input has n bytes |
| Strings.ToLowerIsLower | internal/controllers/interview.go:78 | lower-casing is idempotent and changes nothing but letter case |
| Strings.ToLower | internal/controllers/interview.go:78 | keeps the length and lower-cases each character on its own |
| Strings.ToLowerKeepsLower | internal/controllers/interview.go:78 | a name already in lower case is unchanged |
| TimeUtil.ComPareTimeHour | internal/utils/time.go:23-27 | true exactly when both instants truncate to the same hour; such instants are less than an hour apart |
| TimeUtil.SameHourIsEquivalence | internal/utils/time.go:23-27 | the same-hour comparison is reflexive, symmetric and transitive |
| TimeUtil.CalendarAnchors | internal/utils/time.go:51 | the calendar conversion puts 1970-01-01 at 0 and 0001-01-01 at Go's zero time |
| TimeUtil.SeasonMonth | internal/utils/time.go:41-47 | month 9 exactly for "C", 12 exactly for "A", 6 for anything else |
| TimeUtil.SeasonStartsOrdered | internal/utils/time.go:41-47 | within a year, the June season starts before September, which starts before December |
| TimeUtil.GetTimeByString | internal/utils/time.go:39-53 | the result is day 1 of a valid month; month 1 only for the fallback 2050-01-01; otherwise the year is the number in the first four bytes and the month the season's |
| TimeUtil.Atoi | internal/utils/time.go:48 | a number is read exactly from a non-empty digit string with at most one leading sign, with its decimal value and sign |
| TimeUtil.JoinTimesOfYears | internal/utils/time.go:39-53 | every reading of a join time as a four-digit year plus a season yields that season's first day |
| TimeUtil.JoinTimeOfYear | internal/utils/time.go:39-53 | a four-digit year followed by a season parses to the first day of that season's month in that year |
| TimeUtil.NonNumericYearFallsBack | internal/utils/time.go:48-49 | a join time whose first character is neither a digit nor a sign gives 2050-01-01 |
| RecruitmentName.SeasonKeysPairwise | internal/utils/recruitment.go:8-15 | "S"/"春", "C"/"夏" and "A"/"秋" have the same labels pairwise |
| RecruitmentName.ConvertRecruitmentName | internal/utils/recruitment.go:17-24 | the result is the title, or the title's four-byte year followed by the label of its season key |
| RecruitmentName.ConvertKnownSeason | internal/utils/recruitment.go:17-24 | year + known key converts to year + label |
| RecruitmentName.ConvertUnknownSeason | internal/utils/recruitment.go:20-22 | year + anything that is not a key is returned unchanged |
| RecruitmentName.CheckNameValid | internal/utils/recruitment.go:26-35 | a name is accepted exactly when it is five bytes long; the format is never enforced |
| RecruitmentName.NameCheckExamples | internal/utils/recruitment.go:26-35 | "2023A" and "hello" are both accepted, and "2023秋" is refused for its byte length |
| Model.GetInterviews | pkg/type.go:57-65 | exactly the slots with that name, in their original order |
| Model.LookupRecruitment | internal/models/recruitment.go:44-53 | a stored recruitment, or the zero record with an empty name and zero instants for an unknown id |
| Options.ValidateCreateRec | pkg/type.go:74-79 | accepted exactly when beginning ≤ deadline ≤ end, equality allowed |
| Options.ValidateRid | pkg/type.go:89-112 | the update and stress-test options need only a recruitment id |
| Options.ValidateUploadRecFile | pkg/type.go:121-132 | accepted exactly for the written-test type, a known group and a file; type, then group, then file |
| Options.ValidateDownloadRecFile | pkg/type.go:140-148 | accepted exactly for the written-test type and a known group; type first |
| Options.DownloadIsUploadWithFile | pkg/type.go:121-148 | the download check is the upload check with a file supplied |
| Options.ValidateCreateApp | pkg/type.go:196-201 | any group of the table, "unique" included |
| Options.ValidateUpdateApp | pkg/type.go:219-229 | accepted exactly when the group is empty or known and an aid is given; the group is checked first |
| Options.UpdateAcceptsWhatCreateAccepts | pkg/type.go:196-229 | an update also accepts an empty group, refuses an unknown non-empty one, and needs an aid |
| Options.ValidateSetAppStep | pkg/type.go:238-253 | from must be ranked, then to, then an aid is needed; the result is the two steps |
| Options.SetAppStepRoundTrip | pkg/type.go:238-253 | the keys of any two steps with an aid are accepted as exactly those steps |
| Options.ValidateKindAndAid | pkg/type.go:263-271 | type group or team and a non-empty aid, for allocation and for slot selection; the kind returned is the parsed type |
| Options.ValidateKind | pkg/type.go:326-332 | listing slots needs only the type |
| Options.ValidateUploadAnswer | pkg/type.go:279-287 | only the written-test type with a file is accepted |
| Options.ValidateDownloadAnswer | pkg/type.go:294-299 | only the written-test type is accepted |
| Options.ValidateCreateComment | pkg/type.go:410-415 | refused exactly when the evaluation is not 1, 2 or 3 and the content is empty |
| Options.Translate | pkg/type.go:441-450 | a Chinese step label becomes its English key; anything else is kept |
| Options.ValidateSendSms | pkg/type.go:428-457 | type Accept or Reject; an empty next step defaults to the current one; labels are translated; aids non-empty; on success both steps are known and the other fields are kept |
| Options.SendSmsAcceptsLabels | pkg/type.go:428-457 | naming the steps by Chinese label or by English key gives the same options, for every step but the team interview |
| Options.SendSmsDefaultsNext | pkg/type.go:436-438 | an omitted next step is the current step |
| Options.SendSmsRefusesTeamLabel | pkg/type.go:441-450 | the team interview's Chinese label is refused as a next step |
| Windows.CheckInBtoD | internal/controllers/application.go:817-827 | not started before the beginning, else deadline passed after the deadline, else ended after the end; succeeds exactly when beginning ≤ now ≤ deadline and now ≤ end |
| Windows.EndedUnreachable | internal/controllers/application.go:817-827 | for an ordered recruitment the "ended" answer never comes, and the check succeeds exactly on [beginning, deadline] |
| Windows.EndedNeedsEndBeforeDeadline | internal/controllers/application.go:821-824 | "ended" is answered only when the end lies before the deadline |
| Windows.CheckInBtoE | internal/controllers/application.go:831-839 | succeeds exactly when beginning ≤ now ≤ end; the deadline plays no part |
| Windows.SubmissionInsideRunning | internal/controllers/application.go:817-839 | for an ordered recruitment an open submission window implies a running recruitment, and the running check ignores the deadline |
| Windows.CheckApplyStatus | internal/controllers/application.go:843-851 | succeeds exactly when neither flag is set; "rejected" is reported before "abandoned" |
| Windows.CheckStepInSelection | internal/controllers/application.go:854-862 | group slots only at group time selection, team slots only at team time selection |
| Windows.SelectionStepsExclusive | internal/controllers/application.go:854-862 | no step admits both kinds of selection |
| Windows.CheckMemberGroup | internal/controllers/application.go:865-882 | succeeds exactly when the application exists and its group is one of the caller's |
| ApplicationStore.NewApplication | internal/models/application.go:17-32 | a new application is at sign-up, neither abandoned nor rejected, without allocations, with the given resume path |
| ApplicationStore.CreateApplication | internal/models/application.go:15-51 | stored exactly when the uid and the (candidate, recruitment) key are free, the recruitment exists and the upload, if any, succeeded; a taken key is a duplicate; other records are untouched and (candidate, recruitment) stays unique |
| ApplicationStore.Keep | internal/models/application.go:92-109 | an empty new value keeps the stored one |
| ApplicationStore.Merge | internal/models/application.go:92-121 | the text fields change only to non-empty values, isQuick only when given, the paths only with a file, the referrer always, the bookkeeping never |
| ApplicationStore.MergeIdempotent | internal/models/application.go:92-121 | applying the same edit twice equals applying it once |
| ApplicationStore.EmptyEditOnlyTouchesReferrer | internal/models/application.go:114 | an edit naming no field still overwrites the referrer, with "" if none is given |
| ApplicationStore.ZeroSkipWrite | internal/models/application.go:124-130 | the struct update writes, for each of the fourteen value columns, a given non-zero value and keeps the stored value when the given one is zero (empty string, false, no slot); key columns come from the given record |
| ApplicationStore.UpdateApplicationAsWritten | internal/models/application.go:82-151 | as written: the stored isQuick is the old one or-ed with the request's |
| ApplicationStore.UpdateApplication | internal/models/application.go:82-151 | as intended: the merged record is stored; only the edited application changes; fails on an unknown aid or a failed upload |
| ApplicationStore.AsWrittenDiffersOnlyInIsQuick | internal/models/application.go:110-124 | the as-written update stores the intended record except possibly isQuick |
| ApplicationStore.MergeThroughZeroSkip | internal/models/application.go:110-130 | for one record, the zero-skipping write plus the referrer write store the merged record with isQuick or-ed with the stored flag |
| ApplicationStore.IsQuickCannotBeCleared | internal/models/application.go:110-124 | as written, asking a quick-track application to leave the quick track leaves it on the quick track |
| ApplicationStore.AbandonApplication | internal/models/application.go:158-166 | sets only the abandoned flag |
| ApplicationStore.RejectApplication | internal/models/application.go:168-176 | sets only the rejected flag |
| ApplicationStore.TerminationIdempotent | internal/models/application.go:158-176 | abandoning or rejecting twice equals doing it once |
| ApplicationStore.SetApplicationStep | internal/models/application.go:187-206 | step mismatch is reported first, then a terminated application is refused; on success only the step changes, to `to`, with no ordering enforced |
| ApplicationStore.SetStepRoundTrip | internal/models/application.go:187-206 | moving from a to b and back from b to a restores the store |
| ApplicationStore.NewApplicationCanAdvance | internal/models/application.go:15-32 | a freshly created application can be moved from sign-up to any step |
| ApplicationStore.SetApplicationInterviewTime | internal/models/application.go:208-230 | fails for an unknown slot; the group kind writes only the group column, the team kind only the team column; the slot's name is not compared |
| ApplicationStore.AllocationReferencesSlot | internal/models/application.go:208-230 | an allocated slot is referenced afterwards, hence locked |
| ApplicationStore.UpdateInterviewSelection | internal/models/application.go:232-269 | afterwards the application's selections are exactly the given slots; other applications' selections and the other tables are unchanged |
| ApplicationStore.SelectionIdempotent | internal/models/application.go:232-269 | writing the same selection again changes nothing |
| InterviewStore.LockSet | internal/models/interview.go:98-139 | exactly the listed ids that have a selection row, a group allocation or a team allocation; a subset of the input; empty for empty input |
| InterviewStore.LockSetGrowsWithSelections | internal/models/interview.go:98-139 | adding a selection row never unlocks a slot |
| InterviewStore.DeleteOne | internal/models/interview.go:165-204 | a selected slot is refused as selected, an allocated one as allocated; otherwise only a slot of the same recruitment and group is deleted, anything else is a silent no-op |
| InterviewStore.DeleteInterviews | internal/models/interview.go:163-207 | exactly the listed, unreferenced slots of the recruitment and group are deleted; one error per referenced listed slot; later items still run |
| InterviewStore.CountReferencedFrame | internal/models/interview.go:170-193 | whether a slot is referenced depends only on the selection and application tables |
| InterviewStore.InsertSlot | pkg/type.go:340-345 | an insert is refused when the uid, the unique key (date, period, name, start, recruitment) or the recruitment is missing or taken |
| InterviewStore.CreateInterviews | internal/models/interview.go:141-161 | each slot is inserted on its own under the path's name and recruitment, with a fresh uid; every error is a duplicate or the missing recruitment; existing slots are untouched; nothing changes for an unknown recruitment |
| InterviewStore.CreateInterviewsCounts | internal/models/interview.go:141-161 | each requested slot is either stored or reported by exactly one error, and slot keys stay unique |
| InterviewStore.UpdateInterview | internal/models/interview.go:67-81 | rewrites exactly date, period, start, end and name; uid and recruitment are kept |
| InterviewStore.UpdateWithSameValues | internal/models/interview.go:67-81 | rewriting a slot with its own values changes nothing |
| InterviewStore.InsertAll | internal/models/interview.go:85-88 | the batch insert stores all slots or none |
| InterviewStore.InsertAllStep | internal/models/interview.go:85-88 | inserting the head and then the tail equals inserting the whole batch |
| InterviewStore.RemoveSlots | internal/models/interview.go:89-93 | the batch delete removes all given slots or, when one is still referenced, none |
| InterviewStore.AddAndDeleteInterviews | internal/models/interview.go:83-96 | at most one error; a failed insert leaves the store as it was; other tables are untouched; a slot disappears only when listed for deletion, and surviving old slots keep their values |
| InterviewStore.AddAndDeleteContents | internal/models/interview.go:83-96 | after a successful batch the slots are the old ones plus the new ones minus the deleted ones, and each new slot not deleted is stored as given |
| InterviewStore.AddAndDeleteSucceeds | internal/models/interview.go:83-96 | the batch reports no error when the insert succeeds and no slot to delete is referenced |
| InterviewStore.AddAndDeleteKeepsUnique | internal/models/interview.go:83-96 | a successful batch keeps slot keys unique |
| InterviewStore.GetInterviewsByIdsAndName | internal/models/interview.go:56-65 | exactly the listed stored slots with that name; unknown ids are dropped; the recruitment is not compared |
| SelectionDiff.Without | internal/controllers/application.go:884-911 | reference definition: the uids of the first list, in order, whose slot is absent from the second |
| SelectionDiff.WithoutAppend | internal/controllers/application.go:884-911 | the reference definition extends one element at a time |
| SelectionDiff.Contains | internal/controllers/application.go:884-911 | the inner loop finds a uid exactly when some slot has it |
| SelectionDiff.Missing | internal/controllers/application.go:884-911 | an outer loop computes the reference definition |
| SelectionDiff.AddAndDel | internal/controllers/application.go:884-911 | toAdd is the chosen uids not held, in chosen order; toDel the held uids not chosen, in held order |
| SelectionDiff.DiffAgreesWithSelectionWrite | internal/controllers/application.go:884-911 | the selection write and the diff agree: the held uids minus toDel plus toAdd are the chosen ones |
| SelectionDiff.DiffSetEquation | internal/controllers/application.go:884-911 | toAdd and toDel are disjoint, and (held − toDel) ∪ toAdd = chosen |
| SelectionDiff.NoChangeNoDiff | internal/controllers/application.go:884-911 | choosing the slots already held yields nothing to add |
| Reconcile.CheckInterviewGroupName | internal/controllers/interview.go:294-302 | "unique" is always allowed; any other group only to its members |
| Reconcile.CheckUpdateInterviewAsWritten | internal/controllers/interview.go:305-319 | as written: true exactly when date and period agree and the stored slot's start and end both equal its date; the request's start and end are never read |
| Reconcile.AsWrittenIgnoresRequestTimes | internal/controllers/interview.go:305-319 | changing the request's start and end never changes the as-written check's answer |
| Reconcile.SameTimes | internal/controllers/interview.go:305-319 | as intended: true exactly when date, start, end and period all agree |
| Reconcile.IdenticalRequestRefused | internal/controllers/interview.go:305-319 | the as-written check refuses a request identical to the stored slot whenever its start differs from its date |
| Reconcile.AsWrittenAcceptsMovedSlot | internal/controllers/interview.go:305-319 | the as-written check accepts a request that moves a locked slot to other start and end times |
| Reconcile.KeepsTimesOnlyIntended | internal/controllers/interview.go:305-319 | the intended check implies unchanged times, and the as-written one does not |
| Reconcile.UpdatesOf | internal/controllers/interview.go:214-242 | requests with a uid go to the update map, the last one per uid winning |
| Reconcile.CreatesOf | internal/controllers/interview.go:214-242 | requests without a uid go to the create list, in order |
| Reconcile.StampAll | internal/controllers/interview.go:214-242 | every new slot is stamped with the path's name and recruitment |
| Reconcile.Applied | internal/controllers/interview.go:261-270 | an update keeps uid and recruitment and changes nothing when times and name agree |
| Reconcile.Visit | internal/controllers/interview.go:258-280 | one current slot: updated when requested and unlocked or unmoved; SlotLocked when locked and not allowed; deleted when unrequested and unlocked |
| Reconcile.Loop | internal/controllers/interview.go:256-280 | after the loop: other tables unchanged, every row handled as Visit says, exactly the unrequested unlocked rows queued for deletion, every error explained |
| Reconcile.ReferencedKept | internal/controllers/interview.go:258-280 | after the loop, a referenced slot is still stored and never queued for deletion, and is unchanged under a check that keeps times |
| Reconcile.Reconciled | internal/controllers/interview.go:214-289 | the whole reconciliation: frame, other groups' slots kept, referenced slots kept (and unchanged under a check that keeps times), locked slots reported, requested slots updated, only unrequested unreferenced slots of the group removed, every error explained |
| Reconcile.ReconcileLoop | internal/controllers/interview.go:214-280 | the loop stage in terms of the request list: exactly the group's unrequested, unreferenced slots are queued for deletion; locked slots reported; requested slots updated |
| Reconcile.ReconciledBatchOk | internal/controllers/interview.go:281-289 | a reconciliation without a batch failure comes from a batch that reported no error |
| Reconcile.ReconciledDeletes | internal/controllers/interview.go:281-289 | when the batch succeeds, every unrequested unreferenced slot of the group is gone |
| Reconcile.ReconciledCreates | internal/controllers/interview.go:243-289 | when the batch succeeds, every new slot is stored under its fresh uid with the path's name and recruitment |
| Reconcile.CheckSetInterviews | internal/controllers/interview.go:177-210 | missing rid, then unknown group, then ended (an unknown recruitment counts as ended), then group membership |
| Reconcile.SetRecruitmentInterviews | internal/controllers/interview.go:167-291 | as written: the guards, then the reconciliation with the as-written update check |
| Reconcile.SetRecruitmentInterviewsIntended | internal/controllers/interview.go:167-291 | as intended: the same with the corrected check; referenced slots are never changed |
| Reconcile.ResubmitKeepsSlots | internal/controllers/interview.go:258-280 | resubmitting the stored slots unchanged keeps them all and reports no lock error, with the corrected check |
| Reconcile.AsWrittenRefusesResubmit | internal/controllers/interview.go:258-280 | with the as-written check, resubmitting the stored slots unchanged reports every referenced slot whose start differs from its date |
| InterviewHandlers.GetRecruitmentInterviews | internal/controllers/interview.go:30-48 | an unknown group is refused; otherwise exactly the slots of the recruitment and group |
| InterviewHandlers.ValidateGetInterviews | pkg/type.go:361-367 | accepted exactly for a known group, with the same verdict and error as the group check on application creation |
| InterviewHandlers.CheckSlotWrite | internal/controllers/interview.go:77-98 | missing rid, then unknown group, then membership ("unique" always allowed) |
| InterviewHandlers.CreateRecruitmentInterviews | internal/controllers/interview.go:63-101 | the name is lower-cased before the guards; new slots carry the lower-cased name and the rid; existing slots are untouched |
| InterviewHandlers.DeleteRecruitmentInterviews | internal/controllers/interview.go:116-152 | the name is checked as given; referenced slots are kept; only listed slots of the recruitment and group disappear |
| InterviewHandlers.NameCaseHandling | internal/controllers/interview.go:77-87 | "Web" creates like "web", while deleting under "Web" is refused as an unknown group |
| InterviewHandlers.CreateIgnoresCase | internal/controllers/interview.go:77-78 | creating under any spelling equals creating under its lower-case form |
| ApplicationFlow.FileKey | internal/controllers/application.go:63 | the key is as long as its four parts plus three separators; `FileKeyInjective` shows the parts can be recovered from it |
| ApplicationFlow.SlashJoinInjective | internal/controllers/application.go:63 | a slash-free head and the rest are recovered from "head/rest" |
| ApplicationFlow.FileKeyInjective | internal/controllers/application.go:63 | keys of slash-free recruitment, group and candidate are equal only for equal parts |
| ApplicationFlow.PathOf | internal/controllers/application.go:60-64 | "" exactly when no file was sent, else the object key |
| ApplicationFlow.CreateApplicationHandler | internal/controllers/application.go:32-69 | unknown group, then the submission window of the recruitment, then the insert with the resume under the applied group; an unknown recruitment is never accepted |
| ApplicationFlow.UpdateGuard | internal/controllers/application.go:144-169 | the option check, then NotFound, then terminated, then ownership, and success exactly when all four pass; no window is checked |
| ApplicationFlow.UpdateApplicationHandler | internal/controllers/application.go:132-178 | after the guards, the Go store update: it succeeds unless a file upload fails, writes the referrer, and stores isQuick as the request's value or-ed with the stored flag, so a quick-track flag cannot be cleared |
| ApplicationFlow.UpdateApplicationHandlerIntended | internal/controllers/application.go:132-178 | the same guards with the corrected store update: isQuick becomes exactly the requested value |
| ApplicationFlow.UpdateHandlersDifferOnlyInIsQuick | internal/models/application.go:110-130 | both handlers accept the same requests; without an answer file their stores differ at most in the updated application's isQuick |
| ApplicationFlow.UpdateKeepsStoredAnswer | internal/controllers/application.go:176 | an answer file sent with an update gets the empty path, so the Go handler keeps the stored answer while the corrected update would clear it |
| ApplicationFlow.UpdatedResumeKeyUsesRequestGroup | internal/controllers/application.go:172-174 | a resume sent without a group is stored under an empty group segment |
| ApplicationFlow.AbandonHandler | internal/controllers/application.go:230-256 | succeeds exactly for a given, existing aid owned by the caller, and sets the abandoned flag |
| ApplicationFlow.RejectHandler | internal/controllers/application.go:404-425 | succeeds exactly for a given aid whose group is the caller's, and sets the rejected flag |
| ApplicationFlow.UploadAnswerHandler | internal/controllers/application.go:269-316 | options, lookup, terminated, owner; the answer key uses the stored group |
| ApplicationFlow.UploadAnswerClearsReferrer | internal/controllers/application.go:306-314 | uploading an answer changes the answer path and erases the referrer, nothing else |
| ApplicationFlow.DownloadAnswerHandler | internal/controllers/application.go:329-391 | allowed exactly to the group's members and the owner, and yields the stored answer key |
| ApplicationFlow.UploadThenDownload | internal/controllers/application.go:269-391 | after an upload the owner and the group's members download the key just written |
| ApplicationFlow.SetStepHandler | internal/controllers/application.go:540-565 | options, then the caller's group, then the step move; no window |
| ApplicationFlow.SetInterviewTimeHandler | internal/controllers/application.go:580-625 | options, lookup, status, group, running window, then the allocation write |
| ApplicationFlow.AllocationIgnoresSlotGroup | internal/controllers/application.go:580-625 | a slot of another group is allocated as a group interview all the same |
| ApplicationFlow.GetInterviewsSlots | internal/controllers/application.go:639-679 | exactly the recruitment's slots named after the application's group (group) or "unique" (team) |
| ApplicationFlow.SelectSlotsHandler | internal/controllers/application.go:745-813 | succeeds exactly when the options pass, the caller owns the application, it is neither rejected nor abandoned, the recruitment is running and the step is the kind's selection step; the selection becomes the listed stored slots of the matching name, nothing else changes |
| ApplicationFlow.TeamSelectionClearsGroupSelection | internal/controllers/application.go:790-810 | after a team selection the application holds only "unique" slots: its group selections are gone |
| ApplicationFlow.SelectionIgnoresRecruitment | internal/controllers/application.go:790-810 | any listed stored slot of the right name is selected, whatever its recruitment |
| RecruitmentFlow.CheckJoinTime | internal/controllers/recruitment.go:328-331 | a join time written as a four-digit year and a season passes exactly when that season's first day lies before the recruitment's beginning |
| RecruitmentFlow.JoinedBeforeBeginning | internal/controllers/recruitment.go:328-331 | a member who joined in a given season of a four-digit year passes exactly when that season's first day lies before the recruitment's beginning |
| RecruitmentFlow.EarlierSeasonSeesMore | internal/controllers/recruitment.go:328-331 | within a year, a spring member sees every recruitment a summer member sees, who sees every one an autumn member sees |
| RecruitmentFlow.GetRecruitmentView | internal/controllers/recruitment.go:121-144 | the full record exactly for a member who joined before the beginning |
| RecruitmentFlow.VisibilityNeedsMembership | internal/controllers/recruitment.go:121-144 | non-members and members who joined after the beginning see the basic record |
| RecruitmentFlow.CreateRecruitment | internal/controllers/recruitment.go:31-61 | time order, then name length, then uniqueness; the stored recruitment is ordered and nothing else changes |
| RecruitmentFlow.CreateKeepsNamesUnique | internal/models/recruitment.go:11-27 | creation keeps recruitment names unique |
| RecruitmentFlow.CreatedNeverEndsEarly | internal/controllers/recruitment.go:43-45 | a created recruitment never answers "ended" to the submission check |
| RecruitmentFlow.RecFileKey | internal/controllers/recruitment.go:276 | the key is as long as its parts plus two separators and the suffix, and ends in ".pdf" |
| RecruitmentFlow.UploadRecruitmentFile | internal/controllers/recruitment.go:250-278 | options, then the upload under the key of the looked-up name |
| RecruitmentFlow.DownloadRecruitmentFile | internal/controllers/recruitment.go:291-326 | options, then the key of the looked-up name |
| RecruitmentFlow.UploadThenDownloadSameKey | internal/controllers/recruitment.go:276-314 | upload and download use the same key |
| RecruitmentFlow.MissingRecruitmentsShareKey | internal/controllers/recruitment.go:270-314 | two unknown recruitments share their files, under a key that starts with "/" |
| Sms.Closing | internal/controllers/sms.go:259-265 | the request's text replaces the default when given, and the suffix always ends the closing |
| Sms.InPerson | internal/controllers/sms.go:160-190 | place first, then a non-zero allocated start; the Interviews template with name, time, place and the step's label |
| Sms.Online | internal/controllers/sms.go:192-227 | allocation first, then the meeting id; the online template of the kind with name, recruitment, group, time, meeting |
| Sms.AllocStart | internal/controllers/sms.go:174-176 | an application without an allocation of the kind reads as Go's zero time |
| Sms.Passed | internal/controllers/sms.go:245-270 | the pass template with name, recruitment, group, current step label and the closing |
| Sms.Test | internal/controllers/sms.go:229-242 | place, then time; the pass template with the test closing |
| Sms.ApplySmsTemplate | internal/controllers/sms.go:142-293 | succeeds exactly when the reference table of needs is met; the template follows the kind and next step; the parameter count and order follow the template; accept fails on a rejected application, reject on one not rejected |
| Sms.AcceptMessage | internal/controllers/sms.go:157-256 | for a non-rejected application: succeeds exactly when the next step is announceable and its needs are met; the template follows the next step; a pass names the converted recruitment, the group and the current step |
| Sms.DefaultClosings | internal/controllers/sms.go:241-253 | the default closings for pass, time selection and the tests |
| Sms.RestOnlyChangesClosing | internal/controllers/sms.go:259-289 | a different rest text changes only the last parameter |
| Sms.CandidateSms | internal/controllers/sms.go:73-118 | lookup, identity, same group, not abandoned, slots scheduled for an accepted interview, then the message to the candidate's phone |
| Sms.Collect | internal/controllers/sms.go:73-119 | every failure is collected and the loop goes on; with no failure the messages are in aid order |
| Sms.SendBatch | internal/controllers/sms.go:121-124 | messages exactly when every candidate passed, else one batch error listing every failure |
| Sms.SendSms | internal/controllers/sms.go:30-124 | options, the first aid's application, every applicant of its recruitment resolved in the identity service (else the identity error), the end of the recruitment (unknown: ended), then the batch |
| Sms.UnresolvedApplicantBlocksRequest | internal/models/recruitment.go:55-78 | an unresolvable applicant of the recruitment fails the request even when the request does not name that applicant |
| Sms.OneFailureSendsNothing | internal/controllers/sms.go:121-124 | one failing candidate stops every message and is listed in the error |
| Sms.BatchNamesFirstRecruitment | internal/controllers/sms.go:49-62 | every pass or rejection names the first candidate's recruitment |

## Left out

- HTTP plumbing is not modelled: binding, response envelopes, sessions, middleware and the router. Callers' identities come in as `uid` and group lists.
- The identity service is not modelled. It appears as the caller's group list and, in `Sms.SendSms`, as a `users` map. A failed identity lookup reads as a user missing from the map. Loading the recruitment resolves every applicant of that recruitment, so one unresolved applicant fails the whole request with `IdentityLookupFailed`, which stands for the identity service's error.
- Object storage is not modelled. Each upload's outcome is a boolean parameter. Downloads return the object key instead of the object.
- Sending an SMS is not modelled, so the partial failures after the batch gate are left out. `Sms.SendSms` returns the messages that would be sent.
- Formatting an instant in the Asia/Shanghai zone is the parameter `format`, and its error path is left out.
- Uids the database generates come from an `ids` parameter.
- The order in which the database returns the slots of a recruitment and group is the `rows` parameter of the reconciliation.
- Transactions, concurrency and races between a lock check and a write are not modelled. Every store operation is atomic.
- Database errors other than uniqueness, foreign keys and missing rows are not modelled.
- `UpdateRecruitment`, `SetStressTestTime`, `GetAllRecruitment`, `GetPendingRecruitment`, statistics, comments and users are thin query wrappers and are left out. Their option check is `Options.ValidateRid`.
- Reconcile.Reconciled: the model assumes the lock query `GetInterviewsCannotBeUpdate` succeeds. In Go a failed query leaves the lock map empty, so no slot counts as locked: selected and allocated slots are then rewritten or queued for deletion without the guard. The handler still returns the query's error unless per-slot or batch errors replace it (internal/controllers/interview.go:253 and 282-290).
- InterviewStore.RemoveSlots: refusing the delete of a slot that is only selected is an assumption. The selection join table declares an on-delete cascade, and whether the slot side of that key cascades depends on the schema migration. The reconciliation never queues a referenced slot, so it does not depend on this choice.
- Strings.ToLower: lower-casing covers the ASCII letters only. Go's Unicode case mapping of other letters is not modelled.
- TimeUtil.GetTimeByString: Go panics on join times shorter than four bytes; the model requires at least four bytes instead.
- RecruitmentFlow.CheckJoinTime: requires a join time of at least four bytes, for the same panic.
- RecruitmentName.ConvertRecruitmentName: Go panics on recruitment names shorter than four bytes; the model requires at least four bytes instead.
- Sms.SendSms: requires every stored recruitment name to be at least four bytes long, as creation makes them five. It also requires `now` to lie after Go's zero time.
- ApplicationFlow.CreateApplicationHandler: for an unknown recruitment the model states only that the call fails. In the Go code it fails either at the closed window of the zero record or at the foreign key.

## Findings

| source | as written | input that shows it | evidently intended | confidence | as-written member | corrected member |
|---|---|---|---|---|---|---|
| internal/models/application.go:110-124 | the merged record is written with `Updates(&a)`, which skips zero-valued columns, so `IsQuick = false` is never written | a stored application with isQuick = true, edited with isQuick = Some(false) | the stored isQuick becomes false, as the returned record claims | medium, not executed | ApplicationStore.IsQuickCannotBeCleared | ApplicationStore.UpdateApplication, used by ApplicationFlow.UpdateApplicationHandlerIntended |
| internal/controllers/interview.go:305-319 | the update check compares the old Start and End with the new Date | a locked slot with date 0 and start 0, resubmitted with start 1 and the same date and period | a locked slot may only be updated when date, start, end and period are unchanged | high, not executed | Reconcile.AsWrittenAcceptsMovedSlot | Reconcile.SetRecruitmentInterviewsIntended |

=== FILE: app_flow.dfy ===
/** The application handlers: the order in which each one runs its guards,
    the object keys of uploaded files, and the store operation it ends in.
    `uid` is the caller, `memberGroups` the caller's groups as the identity
    service reports them, `now` the clock; `uploadOk` says whether the object
    store accepted the file. */
module ApplicationFlow {
  import opened Wrappers
  import opened Errors
  import opened Constants
  import opened Model
  import opened ApplicationStore
  import opened InterviewStore
  import opened Windows
  import Options

  /** The object key of a candidate's file:
      recruitment name / group / candidate / file name. */
  function FileKey(recName: string, group: string, candidate: string, fileName: string): (k: string)
    ensures |k| == |recName| + |group| + |candidate| + |fileName| + 3
  {
    recName + "/" + group + "/" + candidate + "/" + fileName
  }

  predicate NoSlash(s: string) {
    '/' !in s
  }

  /** In `a + "/" + x` with a slash-free `a`, the first slash sits just
      after `a`. */
  lemma FirstSlash(a: string, x: string)
    requires NoSlash(a)
    ensures var s := a + "/" + x;
      |a| < |s| && s[|a|] == '/' && forall i :: 0 <= i < |a| ==> s[i] != '/'
  {
    var s := a + "/" + x;
    forall i | 0 <= i < |a|
      ensures s[i] != '/'
    {
      assert s[i] == a[i];
    }
  }

  /** Splitting at the first separator: a slash-free head is recovered. */
  lemma {:induction false} SlashJoinInjective(a: string, x: string, b: string, y: string)
    requires NoSlash(a) && NoSlash(b)
    requires a + "/" + x == b + "/" + y
    ensures a == b && x == y
  {
    var s := a + "/" + x;
    FirstSlash(a, x);
    FirstSlash(b, y);
    assert |a| == |b|;
    assert a == s[..|a|] == b;
    assert x == s[|a| + 1..] == y;
  }

  /** File keys of slash-free parts are equal only for equal parts: distinct
      candidates, groups or recruitments never share an object. */
  lemma FileKeyInjective(n: string, g: string, c: string, f: string, n': string, g': string, c': string, f': string)
    requires NoSlash(n) && NoSlash(g) && NoSlash(c) && NoSlash(n') && NoSlash(g') && NoSlash(c')
    requires FileKey(n, g, c, f) == FileKey(n', g', c', f')
    ensures n == n' && g == g' && c == c' && f == f'
  {
    assert FileKey(n, g, c, f) == n + "/" + (g + "/" + c + "/" + f);
    assert FileKey(n', g', c', f') == n' + "/" + (g' + "/" + c' + "/" + f');
    SlashJoinInjective(n, g + "/" + c + "/" + f, n', g' + "/" + c' + "/" + f');
    assert g + "/" + c + "/" + f == g + "/" + (c + "/" + f);
    assert g' + "/" + c' + "/" + f' == g' + "/" + (c' + "/" + f');
    SlashJoinInjective(g, c + "/" + f, g', c' + "/" + f');
    SlashJoinInjective(c, f, c', f');
  }

  /** The path of an optional upload, or "" when no file was sent. */
  function PathOf(recName: string, group: string, candidate: string, file: Option<string>): (p: string)
    ensures file.None? <==> p == ""
    ensures file.Some? ==> p == FileKey(recName, group, candidate, file.value)
  {
    match file
    case None => ""
    case Some(f) => FileKey(recName, group, candidate, f)
  }

  /** CreateApplication: group check, recruitment lookup, submission window,
      then the insert with the resume stored under the applied group. An
      unknown recruitment reads as the empty record, whose window is long
      closed; the insert itself needs the recruitment to exist. */
  function CreateApplicationHandler(st: Store, opts: CreateAppOpts, aid: string, uid: string, now: int,
                                    uploadOk: bool): (r: Result<Store, Error>)
    ensures opts.group !in Groups ==> r == Err(BadGroup)
    ensures opts.rid !in st.recruitments ==> r.Err?
    ensures r.Ok? ==>
      opts.group in Groups && opts.rid in st.recruitments &&
      CheckInBtoD(st.recruitments[opts.rid], now).Success? &&
      aid in r.value.applications && Untouched(r.value.applications[aid]) &&
      r.value.applications[aid].candidate == uid &&
      r.value.applications[aid].resume == PathOf(st.recruitments[opts.rid].name, opts.group, uid, opts.resume)
    ensures opts.group in Groups && opts.rid in st.recruitments ==>
      (r.Ok? <==> CheckInBtoD(st.recruitments[opts.rid], now).Success? &&
                  CreateApplication(st, opts, aid, uid, PathOf(st.recruitments[opts.rid].name, opts.group, uid, opts.resume), uploadOk).Ok?)
  {
    match Options.ValidateCreateApp(opts.group)
    case Failure(e) => Err(e)
    case Success =>
      var rec := LookupRecruitment(st, opts.rid);
      match CheckInBtoD(rec, now)
      case Failure(e) => Err(e)
      case Success => CreateApplication(st, opts, aid, uid, PathOf(rec.name, opts.group, uid, opts.resume), uploadOk)
  }

  /** The guards of UpdateApplication before any write: option check,
      lookup, status, ownership. No time window is checked. */
  function UpdateGuard(st: Store, opts: UpdateAppOpts, uid: string): (r: Outcome<Error>)
    ensures Options.ValidateUpdateApp(opts.group, opts.aid).Failure? ==>
      r == Failure(Options.ValidateUpdateApp(opts.group, opts.aid).error)
    ensures r.Success? <==>
      Options.ValidateUpdateApp(opts.group, opts.aid).Success? && opts.aid in st.applications &&
      !Terminated(st.applications[opts.aid]) && st.applications[opts.aid].candidate == uid
    ensures (Options.ValidateUpdateApp(opts.group, opts.aid).Success? && opts.aid !in st.applications) ==>
      r == Failure(NotFound(opts.aid))
    ensures (Options.ValidateUpdateApp(opts.group, opts.aid).Success? && opts.aid in st.applications &&
             Terminated(st.applications[opts.aid])) ==> r == Failure(AppTerminated)
    ensures (Options.ValidateUpdateApp(opts.group, opts.aid).Success? && opts.aid in st.applications &&
             !Terminated(st.applications[opts.aid]) && st.applications[opts.aid].candidate != uid) ==>
      r == Failure(NotOwner)
  {
    match Options.ValidateUpdateApp(opts.group, opts.aid)
    case Failure(e) => Failure(e)
    case Success =>
      if opts.aid !in st.applications then Failure(NotFound(opts.aid))
      else
        var app := st.applications[opts.aid];
        if app.abandoned || app.rejected then Failure(AppTerminated)
        else if app.candidate != uid then Failure(NotOwner)
        else Success
  }

  /** Where an updated resume is stored: under the recruitment's name and the
      group of the request, which may be empty. */
  function ResumePath(st: Store, opts: UpdateAppOpts, uid: string): (p: string)
    requires opts.aid in st.applications
    ensures p == "" <==> opts.resume.None?
    ensures opts.resume.Some? ==>
      p == FileKey(LookupRecruitment(st, st.applications[opts.aid].rid).name, opts.group, uid, opts.resume.value)
  {
    PathOf(LookupRecruitment(st, st.applications[opts.aid].rid).name, opts.group, uid, opts.resume)
  }

  /** UpdateApplication: the guards, then the store update as the Go code
      writes it, whose zero-skipping write never clears isQuick. */
  function UpdateApplicationHandler(st: Store, opts: UpdateAppOpts, uid: string, uploadOk: bool): (r: Result<Store, Error>)
    ensures UpdateGuard(st, opts, uid).Failure? ==> r == Err(UpdateGuard(st, opts, uid).error)
    ensures r.Ok? <==> UpdateGuard(st, opts, uid).Success? && (uploadOk || (opts.resume.None? && opts.answer.None?))
    ensures r.Ok? ==>
      opts.aid in st.applications && opts.aid in r.value.applications &&
      r.value.applications[opts.aid].referrer == opts.referrer &&
      r.value.applications[opts.aid].isQuick ==
        (opts.isQuick.GetOr(st.applications[opts.aid].isQuick) || st.applications[opts.aid].isQuick)
    ensures r.Ok? ==> r == UpdateApplicationAsWritten(st, opts, ResumePath(st, opts, uid), "", uploadOk)
  {
    match UpdateGuard(st, opts, uid)
    case Failure(e) => Err(e)
    case Success => UpdateApplicationAsWritten(st, opts, ResumePath(st, opts, uid), "", uploadOk)
  }

  /** UpdateApplication with the corrected store update, which stores the
      merged record as it is. */
  function UpdateApplicationHandlerIntended(st: Store, opts: UpdateAppOpts, uid: string, uploadOk: bool):
    (r: Result<Store, Error>)
    ensures UpdateGuard(st, opts, uid).Failure? ==> r == Err(UpdateGuard(st, opts, uid).error)
    ensures r.Ok? <==> UpdateGuard(st, opts, uid).Success? && (uploadOk || (opts.resume.None? && opts.answer.None?))
    ensures r.Ok? ==>
      opts.aid in st.applications && opts.aid in r.value.applications &&
      r.value.applications[opts.aid].referrer == opts.referrer &&
      r.value.applications[opts.aid].isQuick == opts.isQuick.GetOr(st.applications[opts.aid].isQuick)
    ensures r.Ok? ==> r == UpdateApplication(st, opts, ResumePath(st, opts, uid), "", uploadOk)
  {
    match UpdateGuard(st, opts, uid)
    case Failure(e) => Err(e)
    case Success => UpdateApplication(st, opts, ResumePath(st, opts, uid), "", uploadOk)
  }

  /** The handler as written and the corrected one accept the same requests.
      Without an answer file their stores differ at most in the updated
      application's isQuick, which the written one or-s with the stored flag. */
  lemma UpdateHandlersDifferOnlyInIsQuick(st: Store, opts: UpdateAppOpts, uid: string, uploadOk: bool)
    ensures UpdateApplicationHandler(st, opts, uid, uploadOk).Ok? ==
            UpdateApplicationHandlerIntended(st, opts, uid, uploadOk).Ok?
    ensures opts.answer.None? && UpdateApplicationHandlerIntended(st, opts, uid, uploadOk).Ok? ==>
      var w := UpdateApplicationHandler(st, opts, uid, uploadOk).value;
      var c := UpdateApplicationHandlerIntended(st, opts, uid, uploadOk).value;
      w == c.(applications := c.applications[opts.aid := c.applications[opts.aid].(
        isQuick := c.applications[opts.aid].isQuick || st.applications[opts.aid].isQuick)])
  {
    if UpdateGuard(st, opts, uid).Success? && opts.answer.None? {
      AsWrittenDiffersOnlyInIsQuick(st, opts, ResumePath(st, opts, uid), "", uploadOk);
    }
  }

  /** An answer file sent with an update gets the empty path. As written,
      the zero-skipping write then keeps the stored answer; the corrected
      update would clear it. */
  lemma UpdateKeepsStoredAnswer(st: Store, opts: UpdateAppOpts, uid: string, uploadOk: bool)
    requires opts.answer.Some?
    ensures UpdateApplicationHandler(st, opts, uid, uploadOk).Ok? ==>
      UpdateApplicationHandler(st, opts, uid, uploadOk).value.applications[opts.aid].answer ==
      st.applications[opts.aid].answer
    ensures UpdateApplicationHandlerIntended(st, opts, uid, uploadOk).Ok? ==>
      UpdateApplicationHandlerIntended(st, opts, uid, uploadOk).value.applications[opts.aid].answer == ""
  {
  }

  /** A resume re-uploaded without naming the group lands under an empty
      group segment, not under the stored group. */
  lemma UpdatedResumeKeyUsesRequestGroup(st: Store, opts: UpdateAppOpts, uid: string, uploadOk: bool)
    requires UpdateApplicationHandler(st, opts, uid, uploadOk).Ok?
    requires opts.group == "" && opts.resume.Some?
    ensures var a := st.applications[opts.aid];
      UpdateApplicationHandler(st, opts, uid, uploadOk).value.applications[opts.aid].resume ==
      FileKey(LookupRecruitment(st, a.rid).name, "", uid, opts.resume.value)
  {
  }

  /** AbandonApplication: id given, application found, caller owns it. */
  function AbandonHandler(st: Store, aid: string, uid: string): (r: Result<Store, Error>)
    ensures aid == "" ==> r == Err(MissingAid)
    ensures r.Ok? <==> aid != "" && aid in st.applications && st.applications[aid].candidate == uid
    ensures r.Ok? ==> aid in r.value.applications && r.value.applications[aid].abandoned &&
                      r.value.applications[aid] == st.applications[aid].(abandoned := true)
  {
    if aid == "" then Err(MissingAid)
    else if aid !in st.applications then Err(NotFound(aid))
    else if st.applications[aid].candidate != uid then Err(NotOwner)
    else AbandonApplication(st, aid)
  }

  /** RejectApplication: id given, then the caller must be in the
      application's group. */
  function RejectHandler(st: Store, aid: string, memberGroups: seq<string>): (r: Result<Store, Error>)
    ensures aid == "" ==> r == Err(MissingAid)
    ensures r.Ok? <==> aid != "" && CheckMemberGroup(st, aid, memberGroups).Success?
    ensures r.Ok? ==> aid in r.value.applications &&
                      r.value.applications[aid] == st.applications[aid].(rejected := true)
  {
    if aid == "" then Err(MissingAid)
    else
      match CheckMemberGroup(st, aid, memberGroups)
      case Failure(e) => Err(e)
      case Success => RejectApplication(st, aid)
  }

  /** UploadAnswerFile: option check, lookup, status, recruitment lookup,
      ownership, then an update whose only file is the answer, stored under
      the application's own group. The update carries an empty referrer. */
  function UploadAnswerHandler(st: Store, aid: string, typ: string, file: Option<string>, uid: string,
                               uploadOk: bool): (r: Result<Store, Error>)
    ensures Options.ValidateUploadAnswer(typ, file.Some?).Failure? ==>
      r == Err(Options.ValidateUploadAnswer(typ, file.Some?).error)
    ensures r.Ok? ==>
      aid in st.applications && !Terminated(st.applications[aid]) && st.applications[aid].candidate == uid &&
      file.Some? && uploadOk && aid in r.value.applications &&
      r.value.applications[aid].answer ==
        FileKey(LookupRecruitment(st, st.applications[aid].rid).name, st.applications[aid].group, uid, file.value)
  {
    match Options.ValidateUploadAnswer(typ, file.Some?)
    case Failure(e) => Err(e)
    case Success =>
      if aid !in st.applications then Err(NotFound(aid))
      else
        var app := st.applications[aid];
        if app.abandoned || app.rejected then Err(AppTerminated)
        else if app.candidate != uid then Err(NotOwner)
        else
          var path := FileKey(LookupRecruitment(st, app.rid).name, app.group, app.candidate, file.value);
          var opts := UpdateAppOpts(aid, "", "", "", "", "", "", "", None, None, Some(file.value));
          UpdateApplicationAsWritten(st, opts, "", path, uploadOk)
  }

  /** Uploading an answer erases the referrer the candidate gave, and
      changes nothing else but the answer path. */
  lemma UploadAnswerClearsReferrer(st: Store, aid: string, typ: string, file: Option<string>, uid: string,
                                   uploadOk: bool)
    requires UploadAnswerHandler(st, aid, typ, file, uid, uploadOk).Ok?
    ensures var a := st.applications[aid];
      var b := UploadAnswerHandler(st, aid, typ, file, uid, uploadOk).value.applications[aid];
      b.referrer == "" && b == a.(referrer := "", answer := b.answer)
  {
  }

  /** DownloadAnswerFile: option check, lookup, then the caller must be in
      the application's group or own it; the result is the stored answer key. */
  function DownloadAnswerHandler(st: Store, aid: string, typ: string, uid: string, memberGroups: seq<string>):
    (r: Result<string, Error>)
    ensures r.Ok? <==>
      typ == StepKey(WrittenTest) && aid in st.applications &&
      (st.applications[aid].group in memberGroups || st.applications[aid].candidate == uid)
    ensures r.Ok? ==> r.value == st.applications[aid].answer
  {
    match Options.ValidateDownloadAnswer(typ)
    case Failure(e) => Err(e)
    case Success =>
      if aid !in st.applications then Err(NotFound(aid))
      else
        var app := st.applications[aid];
        if app.group in memberGroups || app.candidate == uid then Ok(app.answer)
        else Err(NotOwner)
  }

  /** What a candidate uploads is what the candidate, and every member of the
      group, downloads next. */
  lemma UploadThenDownload(st: Store, aid: string, file: Option<string>, uid: string, uploadOk: bool,
                           memberGroups: seq<string>)
    requires UploadAnswerHandler(st, aid, StepKey(WrittenTest), file, uid, uploadOk).Ok?
    ensures var st' := UploadAnswerHandler(st, aid, StepKey(WrittenTest), file, uid, uploadOk).value;
      var a := st.applications[aid];
      DownloadAnswerHandler(st', aid, StepKey(WrittenTest), uid, memberGroups) ==
        Ok(FileKey(LookupRecruitment(st, a.rid).name, a.group, uid, file.value)) &&
      (a.group in memberGroups ==>
         DownloadAnswerHandler(st', aid, StepKey(WrittenTest), "", memberGroups) ==
           Ok(FileKey(LookupRecruitment(st, a.rid).name, a.group, uid, file.value)))
  {
    var st' := UploadAnswerHandler(st, aid, StepKey(WrittenTest), file, uid, uploadOk).value;
    assert st'.applications[aid].group == st.applications[aid].group;
    assert st'.applications[aid].candidate == uid;
  }

  /** SetApplicationStep: option check, then the caller's group, then the
      move. No time window is checked. */
  function SetStepHandler(st: Store, aid: string, from: string, to: string, memberGroups: seq<string>):
    (r: Result<Store, Error>)
    ensures Options.ValidateSetAppStep(from, to, aid).Err? ==> r == Err(Options.ValidateSetAppStep(from, to, aid).error)
    ensures r.Ok? <==>
      Options.ValidateSetAppStep(from, to, aid).Ok? && CheckMemberGroup(st, aid, memberGroups).Success? &&
      StepKey(st.applications[aid].step) == from && !Terminated(st.applications[aid])
    ensures r.Ok? ==> aid in r.value.applications && StepKey(r.value.applications[aid].step) == to
  {
    match Options.ValidateSetAppStep(from, to, aid)
    case Err(e) => Err(e)
    case Ok(steps) =>
      match CheckMemberGroup(st, aid, memberGroups)
      case Failure(e) => Err(e)
      case Success => SetApplicationStep(st, aid, steps.0, steps.1)
  }

  /** SetApplicationInterviewTime: option check, lookup, status, the
      caller's group, recruitment lookup, running window, then the write of
      one allocation column. */
  function SetInterviewTimeHandler(st: Store, aid: string, typ: string, iid: string, memberGroups: seq<string>,
                                   now: int): (r: Result<Store, Error>)
    ensures Options.ValidateKindAndAid(typ, aid).Err? ==> r == Err(Options.ValidateKindAndAid(typ, aid).error)
    ensures r.Ok? <==>
      Options.ValidateKindAndAid(typ, aid).Ok? && aid in st.applications &&
      CheckApplyStatus(st.applications[aid]).Success? && st.applications[aid].group in memberGroups &&
      CheckInBtoE(LookupRecruitment(st, st.applications[aid].rid), now).Success? && iid in st.interviews
    ensures r.Ok? ==>
      r == SetApplicationInterviewTime(st, aid, Options.ValidateKindAndAid(typ, aid).value, iid)
  {
    match Options.ValidateKindAndAid(typ, aid)
    case Err(e) => Err(e)
    case Ok(kind) =>
      if aid !in st.applications then Err(NotFound(aid))
      else
        var app := st.applications[aid];
        match CheckApplyStatus(app)
        case Failure(e) => Err(e)
        case Success =>
          match CheckMemberGroup(st, aid, memberGroups)
          case Failure(e) => Err(e)
          case Success =>
            match CheckInBtoE(LookupRecruitment(st, app.rid), now)
            case Failure(e) => Err(e)
            case Success => SetApplicationInterviewTime(st, aid, kind, iid)
  }

  /** The slot allocated need not belong to the application's group, nor to
      its recruitment: only its existence is checked. */
  lemma AllocationIgnoresSlotGroup(st: Store, aid: string, iid: string, memberGroups: seq<string>, now: int)
    requires aid != "" && aid in st.applications && iid in st.interviews
    requires CheckApplyStatus(st.applications[aid]).Success? && st.applications[aid].group in memberGroups
    requires CheckInBtoE(LookupRecruitment(st, st.applications[aid].rid), now).Success?
    requires st.interviews[iid].name != st.applications[aid].group
    ensures SetInterviewTimeHandler(st, aid, "group", iid, memberGroups, now).Ok?
    ensures SetInterviewTimeHandler(st, aid, "group", iid, memberGroups, now).value.applications[aid].allocGroup == Some(iid)
  {
  }

  /** The name of the slots a kind of interview uses: the application's own
      group for the group interview, "unique" for the team interview. */
  function SlotName(kind: Kind, a: Application): (n: string)
    ensures n == Unique <==> kind == InTeam || a.group == Unique
    ensures kind == InGroup ==> n == a.group
  {
    match kind
    case InGroup => a.group
    case InTeam => Unique
  }

  /** GetInterviewsSlots: option check, lookup, recruitment lookup, then the
      recruitment's slots of the matching name. An unknown recruitment reads
      as the empty record, which has no slots. */
  function GetInterviewsSlots(st: Store, aid: string, typ: string): (r: Result<set<string>, Error>)
    ensures r.Ok? <==> (typ == "group" || typ == "team") && aid in st.applications
    ensures r.Ok? ==>
      var a := st.applications[aid];
      forall u :: u in r.value <==>
        a.rid in st.recruitments && u in st.interviews && st.interviews[u].rid == a.rid &&
        st.interviews[u].name == (if typ == "group" then a.group else Unique)
  {
    match Options.ValidateKind(typ)
    case Err(e) => Err(e)
    case Ok(kind) =>
      if aid !in st.applications then Err(NotFound(aid))
      else
        var app := st.applications[aid];
        if app.rid !in st.recruitments then Ok({})
        else
          var name := SlotName(kind, app);
          Ok(set u | u in st.interviews && st.interviews[u].rid == app.rid && st.interviews[u].name == name)
  }

  /** SelectInterviewSlots: option check, lookup, recruitment lookup,
      ownership, status, running window, step; then the application's
      selections are replaced by the listed slots of the matching name. */
  function SelectSlotsHandler(st: Store, aid: string, typ: string, iids: seq<string>, uid: string, now: int):
    (r: Result<Store, Error>)
    ensures Options.ValidateKindAndAid(typ, aid).Err? ==> r == Err(Options.ValidateKindAndAid(typ, aid).error)
    ensures r.Ok? <==>
      Options.ValidateKindAndAid(typ, aid).Ok? && aid in st.applications &&
      st.applications[aid].candidate == uid && CheckApplyStatus(st.applications[aid]).Success? &&
      CheckInBtoE(LookupRecruitment(st, st.applications[aid].rid), now).Success? &&
      CheckStepInSelection(Options.ValidateKindAndAid(typ, aid).value, st.applications[aid]).Success?
    ensures r.Ok? ==>
      var name := SlotName(Options.ValidateKindAndAid(typ, aid).value, st.applications[aid]);
      SelectedBy(r.value, aid) == GetInterviewsByIdsAndName(st, iids, name) &&
      (forall other :: other != aid ==> SelectedBy(r.value, other) == SelectedBy(st, other)) &&
      r.value.applications == st.applications && r.value.interviews == st.interviews
  {
    match Options.ValidateKindAndAid(typ, aid)
    case Err(e) => Err(e)
    case Ok(kind) =>
      if aid !in st.applications then Err(NotFound(aid))
      else
        var app := st.applications[aid];
        if app.candidate != uid then Err(NotOwner)
        else
          match CheckApplyStatus(app)
          case Failure(e) => Err(e)
          case Success =>
            match CheckInBtoE(LookupRecruitment(st, app.rid), now)
            case Failure(e) => Err(e)
            case Success =>
              match CheckStepInSelection(kind, app)
              case Failure(e) => Err(e)
              case Success =>
                Ok(UpdateInterviewSelection(st, aid, GetInterviewsByIdsAndName(st, iids, SlotName(kind, app))))
  }

  /** Picking team slots drops the group slots picked before: afterwards the
      application holds only slots named "unique". */
  lemma TeamSelectionClearsGroupSelection(st: Store, aid: string, iids: seq<string>, uid: string, now: int)
    requires SelectSlotsHandler(st, aid, "team", iids, uid, now).Ok?
    ensures forall i :: i in SelectedBy(SelectSlotsHandler(st, aid, "team", iids, uid, now).value, aid) ==>
      i in st.interviews && st.interviews[i].name == Unique
  {
  }

  /** The slots a candidate may pick need not belong to the application's
      recruitment: any listed stored slot of the right name is taken. */
  lemma SelectionIgnoresRecruitment(st: Store, aid: string, iids: seq<string>, uid: string, now: int, iid: string)
    requires SelectSlotsHandler(st, aid, "team", iids, uid, now).Ok?
    requires iid in iids && iid in st.interviews && st.interviews[iid].name == Unique
    ensures iid in SelectedBy(SelectSlotsHandler(st, aid, "team", iids, uid, now).value, aid)
  {
  }
}

=== FILE: app_store.dfy ===
/** Storage operations on applications. Each returns the new store, or the
    error that stopped it; an error leaves the store as it was (the
    operations run inside one database transaction). */
module ApplicationStore {
  import opened Wrappers
  import opened Errors
  import opened Constants
  import opened Model

  /** A submission. `resume` is the uploaded file's name when a file was sent. */
  datatype CreateAppOpts = CreateAppOpts(
    grade: string,
    institute: string,
    major: string,
    rank: string,
    group: string,
    intro: string,
    rid: string,
    referrer: string,
    isQuick: bool,
    resume: Option<string>)

  /** A freshly submitted application: at the first step, neither abandoned
      nor rejected, holding no interview slot. */
  predicate Untouched(a: Application) {
    a.step == SignUp && !a.abandoned && !a.rejected && a.allocGroup == None && a.allocTeam == None
  }

  function NewApplication(opts: CreateAppOpts, aid: string, candidate: string, filePath: string): (a: Application)
    ensures Untouched(a)
    ensures a.uid == aid && a.candidate == candidate && a.rid == opts.rid && a.group == opts.group
    ensures a.resume == filePath && a.answer == ""
  {
    Application(aid, opts.grade, opts.institute, opts.major, opts.rank, opts.group, opts.intro,
                opts.isQuick, opts.referrer, filePath, "", false, false, SignUp, candidate, opts.rid,
                None, None)
  }

  /** models.CreateApplication: insert the row, then upload the resume (when
      a path was computed); a failed upload rolls the insert back. The insert
      fails on a taken uid, on a second application of the same candidate to
      the same recruitment, and on an unknown recruitment. */
  function CreateApplication(st: Store, opts: CreateAppOpts, aid: string, candidate: string,
                             filePath: string, uploadOk: bool): (r: Result<Store, Error>)
    ensures r.Ok? <==>
      aid !in st.applications && opts.rid in st.recruitments &&
      !AppKeyTaken(st.applications, (candidate, opts.rid)) && (filePath == "" || uploadOk)
    ensures (aid !in st.applications && opts.rid in st.recruitments &&
             !AppKeyTaken(st.applications, (candidate, opts.rid)) && filePath != "" && !uploadOk)
            ==> r == Err(UploadFailed)
    ensures AppKeyTaken(st.applications, (candidate, opts.rid)) ==> r == Err(Duplicate)
    ensures r.Ok? ==>
      aid in r.value.applications && Untouched(r.value.applications[aid]) &&
      r.value.applications[aid].candidate == candidate && r.value.applications[aid].rid == opts.rid &&
      r.value.applications[aid].resume == filePath
    ensures r.Ok? ==>
      (forall u :: u != aid ==> (u in r.value.applications <==> u in st.applications)) &&
      (forall u :: u in st.applications ==> r.value.applications[u] == st.applications[u])
    ensures r.Ok? ==>
      r.value.recruitments == st.recruitments && r.value.interviews == st.interviews &&
      r.value.selections == st.selections
    ensures r.Ok? && UniqueApplications(st.applications) ==> UniqueApplications(r.value.applications)
  {
    if aid in st.applications || AppKeyTaken(st.applications, (candidate, opts.rid)) then Err(Duplicate)
    else if opts.rid !in st.recruitments then Err(NotFound(opts.rid))
    else if filePath != "" && !uploadOk then Err(UploadFailed)
    else Ok(st.(applications := st.applications[aid := NewApplication(opts, aid, candidate, filePath)]))
  }

  /** An edit of an application. Empty strings and `None` mean "leave as is",
      except for `referrer`, which is always written. */
  datatype UpdateAppOpts = UpdateAppOpts(
    aid: string,
    grade: string,
    institute: string,
    major: string,
    rank: string,
    group: string,
    intro: string,
    referrer: string,
    isQuick: Option<bool>,
    resume: Option<string>,
    answer: Option<string>)

  /** The fields of an application a candidate may edit; everything else is
      equal between `a` and `b`. */
  predicate SameBookkeeping(a: Application, b: Application) {
    a.uid == b.uid && a.step == b.step && a.abandoned == b.abandoned && a.rejected == b.rejected &&
    a.candidate == b.candidate && a.rid == b.rid && a.allocGroup == b.allocGroup && a.allocTeam == b.allocTeam
  }

  /** The new value of a field, or the old one when the new one is empty. */
  function Keep(given: string, stored: string): (r: string)
    ensures r == given || (given == "" && r == stored)
    ensures r == "" ==> given == "" && stored == ""
  {
    if given != "" then given else stored
  }

  /** The in-memory merge of models.UpdateApplication. */
  function Merge(a: Application, opts: UpdateAppOpts, resumePath: string, answerPath: string): (m: Application)
    ensures SameBookkeeping(a, m)
    ensures m.referrer == opts.referrer
    ensures m.grade == opts.grade || (opts.grade == "" && m.grade == a.grade)
    ensures m.institute == opts.institute || (opts.institute == "" && m.institute == a.institute)
    ensures m.major == opts.major || (opts.major == "" && m.major == a.major)
    ensures m.rank == opts.rank || (opts.rank == "" && m.rank == a.rank)
    ensures m.group == opts.group || (opts.group == "" && m.group == a.group)
    ensures m.intro == opts.intro || (opts.intro == "" && m.intro == a.intro)
    ensures m.isQuick == opts.isQuick.GetOr(a.isQuick)
    ensures m.resume == (if opts.resume.Some? then resumePath else a.resume)
    ensures m.answer == (if opts.answer.Some? then answerPath else a.answer)
  {
    a.(grade := Keep(opts.grade, a.grade),
       institute := Keep(opts.institute, a.institute),
       major := Keep(opts.major, a.major),
       rank := Keep(opts.rank, a.rank),
       group := Keep(opts.group, a.group),
       intro := Keep(opts.intro, a.intro),
       isQuick := opts.isQuick.GetOr(a.isQuick),
       referrer := opts.referrer,
       resume := if opts.resume.Some? then resumePath else a.resume,
       answer := if opts.answer.Some? then answerPath else a.answer)
  }

  /** Submitting the same edit twice has the effect of submitting it once. */
  lemma MergeIdempotent(a: Application, opts: UpdateAppOpts, resumePath: string, answerPath: string)
    ensures Merge(Merge(a, opts, resumePath, answerPath), opts, resumePath, answerPath)
         == Merge(a, opts, resumePath, answerPath)
  {
  }

  /** An edit that names no field and sends no file still overwrites the
      referrer: omitting it clears it. */
  lemma EmptyEditOnlyTouchesReferrer(a: Application, aid: string, referrer: string, rp: string, ap: string)
    ensures Merge(a, UpdateAppOpts(aid, "", "", "", "", "", "", referrer, None, None, None), rp, ap)
         == a.(referrer := referrer)
  {
  }

  /** A column written by a zero-skipping update: a given value other than
      the zero value `zero` is written, the zero value keeps the stored one. */
  predicate SkipsZero<T(==)>(stored: T, given: T, written: T, zero: T) {
    (given != zero ==> written == given) && (given == zero ==> written == stored)
  }

  /** What `Updates(&a)` with a struct writes: a column whose new value is the
      zero value of its type ("" or false or NULL) keeps its stored value. */
  function ZeroSkipWrite(stored: Application, m: Application): (w: Application)
    ensures SkipsZero(stored.grade, m.grade, w.grade, "")
    ensures SkipsZero(stored.institute, m.institute, w.institute, "")
    ensures SkipsZero(stored.major, m.major, w.major, "")
    ensures SkipsZero(stored.rank, m.rank, w.rank, "")
    ensures SkipsZero(stored.group, m.group, w.group, "")
    ensures SkipsZero(stored.intro, m.intro, w.intro, "")
    ensures SkipsZero(stored.referrer, m.referrer, w.referrer, "")
    ensures SkipsZero(stored.resume, m.resume, w.resume, "")
    ensures SkipsZero(stored.answer, m.answer, w.answer, "")
    ensures SkipsZero(stored.isQuick, m.isQuick, w.isQuick, false)
    ensures SkipsZero(stored.abandoned, m.abandoned, w.abandoned, false)
    ensures SkipsZero(stored.rejected, m.rejected, w.rejected, false)
    ensures SkipsZero(stored.allocGroup, m.allocGroup, w.allocGroup, None)
    ensures SkipsZero(stored.allocTeam, m.allocTeam, w.allocTeam, None)
    ensures w.uid == m.uid && w.step == m.step && w.candidate == m.candidate && w.rid == m.rid
  {
    m.(grade := Keep(m.grade, stored.grade),
       institute := Keep(m.institute, stored.institute),
       major := Keep(m.major, stored.major),
       rank := Keep(m.rank, stored.rank),
       group := Keep(m.group, stored.group),
       intro := Keep(m.intro, stored.intro),
       isQuick := m.isQuick || stored.isQuick,
       referrer := Keep(m.referrer, stored.referrer),
       resume := Keep(m.resume, stored.resume),
       answer := Keep(m.answer, stored.answer),
       abandoned := m.abandoned || stored.abandoned,
       rejected := m.rejected || stored.rejected,
       allocGroup := if m.allocGroup.None? then stored.allocGroup else m.allocGroup,
       allocTeam := if m.allocTeam.None? then stored.allocTeam else m.allocTeam)
  }

  /** models.UpdateApplication as written: the merged record goes through the
      zero-skipping struct update, then the referrer column is written on its
      own; uploads follow inside the same transaction. */
  function UpdateApplicationAsWritten(st: Store, opts: UpdateAppOpts, resumePath: string, answerPath: string,
                                      uploadsOk: bool): (r: Result<Store, Error>)
    ensures r.Ok? <==> opts.aid in st.applications && (uploadsOk || (opts.resume.None? && opts.answer.None?))
    ensures r.Ok? ==>
      opts.aid in r.value.applications &&
      r.value.applications[opts.aid].referrer == opts.referrer &&
      r.value.applications[opts.aid].isQuick ==
        (opts.isQuick.GetOr(st.applications[opts.aid].isQuick) || st.applications[opts.aid].isQuick)
  {
    if opts.aid !in st.applications then Err(NotFound(opts.aid))
    else if (opts.resume.Some? || opts.answer.Some?) && !uploadsOk then Err(UploadFailed)
    else
      var a := st.applications[opts.aid];
      var m := Merge(a, opts, resumePath, answerPath);
      Ok(st.(applications := st.applications[opts.aid := ZeroSkipWrite(a, m).(referrer := m.referrer)]))
  }

  /** models.UpdateApplication as intended: the merged record is what is stored. */
  function UpdateApplication(st: Store, opts: UpdateAppOpts, resumePath: string, answerPath: string,
                             uploadsOk: bool): (r: Result<Store, Error>)
    ensures r.Ok? <==> opts.aid in st.applications && (uploadsOk || (opts.resume.None? && opts.answer.None?))
    ensures r.Err? && opts.aid !in st.applications ==> r.error == NotFound(opts.aid)
    ensures r.Ok? ==>
      opts.aid in r.value.applications &&
      SameBookkeeping(st.applications[opts.aid], r.value.applications[opts.aid]) &&
      r.value.applications[opts.aid].isQuick == opts.isQuick.GetOr(st.applications[opts.aid].isQuick) &&
      r.value.applications[opts.aid].referrer == opts.referrer
    ensures r.Ok? ==>
      (forall u :: u in r.value.applications <==> u in st.applications) &&
      (forall u :: u in st.applications && u != opts.aid ==> r.value.applications[u] == st.applications[u]) &&
      r.value.recruitments == st.recruitments && r.value.interviews == st.interviews &&
      r.value.selections == st.selections
  {
    if opts.aid !in st.applications then Err(NotFound(opts.aid))
    else if (opts.resume.Some? || opts.answer.Some?) && !uploadsOk then Err(UploadFailed)
    else
      var a := st.applications[opts.aid];
      Ok(st.(applications := st.applications[opts.aid := Merge(a, opts, resumePath, answerPath)]))
  }

  /** The struct update stores the intended record except for one column:
      `isQuick` can be raised but never lowered. File paths are never empty
      when a file is sent (they carry at least the separators). */
  lemma AsWrittenDiffersOnlyInIsQuick(st: Store, opts: UpdateAppOpts, resumePath: string, answerPath: string,
                                      uploadsOk: bool)
    requires opts.aid in st.applications
    requires opts.resume.Some? ==> resumePath != ""
    requires opts.answer.Some? ==> answerPath != ""
    ensures UpdateApplicationAsWritten(st, opts, resumePath, answerPath, uploadsOk).Ok? ==
            UpdateApplication(st, opts, resumePath, answerPath, uploadsOk).Ok?
    ensures UpdateApplication(st, opts, resumePath, answerPath, uploadsOk).Ok? ==>
      var w := UpdateApplicationAsWritten(st, opts, resumePath, answerPath, uploadsOk).value;
      var c := UpdateApplication(st, opts, resumePath, answerPath, uploadsOk).value;
      w == c.(applications := c.applications[opts.aid := c.applications[opts.aid].(
        isQuick := c.applications[opts.aid].isQuick || st.applications[opts.aid].isQuick)])
  {
    MergeThroughZeroSkip(st.applications[opts.aid], opts, resumePath, answerPath);
  }

  /** One record: the zero-skipping write of a merged record, followed by
      the referrer write, stores the merged record with `isQuick` or-ed. */
  lemma MergeThroughZeroSkip(a: Application, opts: UpdateAppOpts, resumePath: string, answerPath: string)
    requires opts.resume.Some? ==> resumePath != ""
    requires opts.answer.Some? ==> answerPath != ""
    ensures var m := Merge(a, opts, resumePath, answerPath);
      ZeroSkipWrite(a, m).(referrer := m.referrer) == m.(isQuick := m.isQuick || a.isQuick)
  {
  }

  /** The discrepancy: a quick-track application asked to leave the quick
      track stays on it as written, and leaves it as intended. */
  lemma IsQuickCannotBeCleared(st: Store, opts: UpdateAppOpts, resumePath: string, answerPath: string,
                               uploadsOk: bool)
    requires opts.aid in st.applications && st.applications[opts.aid].isQuick
    requires opts.isQuick == Some(false) && opts.resume.None? && opts.answer.None?
    ensures UpdateApplicationAsWritten(st, opts, resumePath, answerPath, uploadsOk).Ok?
    ensures UpdateApplicationAsWritten(st, opts, resumePath, answerPath, uploadsOk).value.applications[opts.aid].isQuick
    ensures !UpdateApplication(st, opts, resumePath, answerPath, uploadsOk).value.applications[opts.aid].isQuick
  {
  }

  /** models.AbandonApplication. */
  function AbandonApplication(st: Store, aid: string): (r: Result<Store, Error>)
    ensures r.Err? <==> aid !in st.applications
    ensures r.Err? ==> r.error == NotFound(aid)
    ensures r.Ok? ==>
      aid in r.value.applications && r.value.applications[aid].abandoned &&
      r.value.applications[aid].(abandoned := false) == st.applications[aid].(abandoned := false)
    ensures r.Ok? ==>
      r.value.applications.Keys == st.applications.Keys &&
      (forall u :: u in st.applications && u != aid ==> r.value.applications[u] == st.applications[u])
  {
    if aid !in st.applications then Err(NotFound(aid))
    else Ok(st.(applications := st.applications[aid := st.applications[aid].(abandoned := true)]))
  }

  /** models.RejectApplication. */
  function RejectApplication(st: Store, aid: string): (r: Result<Store, Error>)
    ensures r.Err? <==> aid !in st.applications
    ensures r.Err? ==> r.error == NotFound(aid)
    ensures r.Ok? ==>
      aid in r.value.applications && r.value.applications[aid].rejected &&
      r.value.applications[aid].(rejected := false) == st.applications[aid].(rejected := false)
    ensures r.Ok? ==>
      r.value.applications.Keys == st.applications.Keys &&
      (forall u :: u in st.applications && u != aid ==> r.value.applications[u] == st.applications[u])
  {
    if aid !in st.applications then Err(NotFound(aid))
    else Ok(st.(applications := st.applications[aid := st.applications[aid].(rejected := true)]))
  }

  /** Abandoning or rejecting twice is the same as doing it once. */
  lemma TerminationIdempotent(st: Store, aid: string)
    requires aid in st.applications
    ensures AbandonApplication(AbandonApplication(st, aid).value, aid) == AbandonApplication(st, aid)
    ensures RejectApplication(RejectApplication(st, aid).value, aid) == RejectApplication(st, aid)
  {
    var a := st.applications[aid];
    assert a.(abandoned := true).(abandoned := true) == a.(abandoned := true);
    assert st.applications[aid := a.(abandoned := true)][aid := a.(abandoned := true)]
        == st.applications[aid := a.(abandoned := true)];
    assert a.(rejected := true).(rejected := true) == a.(rejected := true);
    assert st.applications[aid := a.(rejected := true)][aid := a.(rejected := true)]
        == st.applications[aid := a.(rejected := true)];
  }

  /** An application that is abandoned or rejected. */
  predicate Terminated(a: Application) {
    a.abandoned || a.rejected
  }

  /** models.SetApplicationStepById: the stored step must equal `from`
      (checked first), and the application must not be terminated. */
  function SetApplicationStep(st: Store, aid: string, from: Step, to: Step): (r: Result<Store, Error>)
    ensures r.Ok? <==> aid in st.applications && st.applications[aid].step == from &&
                       !Terminated(st.applications[aid])
    ensures aid in st.applications && st.applications[aid].step != from ==> r == Err(StepMismatch)
    ensures aid !in st.applications ==> r == Err(NotFound(aid))
    ensures r.Ok? ==>
      aid in r.value.applications && r.value.applications[aid].step == to &&
      r.value.applications[aid].(step := from) == st.applications[aid]
    ensures r.Ok? ==>
      r.value.applications.Keys == st.applications.Keys &&
      (forall u :: u in st.applications && u != aid ==> r.value.applications[u] == st.applications[u])
  {
    if aid !in st.applications then Err(NotFound(aid))
    else if st.applications[aid].step != from then Err(StepMismatch)
    else if Terminated(st.applications[aid]) then Err(AppTerminated)
    else Ok(st.(applications := st.applications[aid := st.applications[aid].(step := to)]))
  }

  /** Moving an application forward and then back restores the store. */
  lemma SetStepRoundTrip(st: Store, aid: string, from: Step, to: Step)
    requires SetApplicationStep(st, aid, from, to).Ok?
    ensures SetApplicationStep(SetApplicationStep(st, aid, from, to).value, aid, to, from) == Ok(st)
  {
    var a := st.applications[aid];
    var st' := SetApplicationStep(st, aid, from, to).value;
    assert st'.applications[aid] == a.(step := to);
    assert a.(step := to).(step := from) == a;
    assert st.applications[aid := a.(step := to)][aid := a] == st.applications;
  }

  /** A new application can be moved on from its first step. */
  lemma NewApplicationCanAdvance(st: Store, opts: CreateAppOpts, aid: string, candidate: string,
                                 filePath: string, uploadOk: bool, to: Step)
    requires CreateApplication(st, opts, aid, candidate, filePath, uploadOk).Ok?
    ensures SetApplicationStep(CreateApplication(st, opts, aid, candidate, filePath, uploadOk).value,
                               aid, SignUp, to).Ok?
  {
  }

  /** models.SetApplicationInterviewTime: both the slot and the application
      must exist; only the column of the given kind is written. The slot's
      group and recruitment are not compared with the application's. */
  function SetApplicationInterviewTime(st: Store, aid: string, kind: Kind, iid: string): (r: Result<Store, Error>)
    ensures r.Ok? <==> iid in st.interviews && aid in st.applications
    ensures iid !in st.interviews ==> r == Err(NotFound(iid))
    ensures iid in st.interviews && aid !in st.applications ==> r == Err(NotFound(aid))
    ensures r.Ok? ==>
      aid in r.value.applications &&
      var a := st.applications[aid];
      var b := r.value.applications[aid];
      (kind == InGroup ==> b == a.(allocGroup := Some(iid))) &&
      (kind == InTeam ==> b == a.(allocTeam := Some(iid)))
    ensures r.Ok? ==>
      r.value.applications.Keys == st.applications.Keys &&
      (forall u :: u in st.applications && u != aid ==> r.value.applications[u] == st.applications[u]) &&
      r.value.interviews == st.interviews && r.value.selections == st.selections
  {
    if iid !in st.interviews then Err(NotFound(iid))
    else if aid !in st.applications then Err(NotFound(aid))
    else
      var a := st.applications[aid];
      var b := match kind
        case InGroup => a.(allocGroup := Some(iid))
        case InTeam => a.(allocTeam := Some(iid));
      Ok(st.(applications := st.applications[aid := b]))
  }

  /** An allocated slot is referenced, so it can no longer be rescheduled or
      deleted. */
  lemma AllocationReferencesSlot(st: Store, aid: string, kind: Kind, iid: string)
    requires SetApplicationInterviewTime(st, aid, kind, iid).Ok?
    ensures Referenced(SetApplicationInterviewTime(st, aid, kind, iid).value, iid)
  {
    var st' := SetApplicationInterviewTime(st, aid, kind, iid).value;
    assert aid in st'.applications;
  }

  /** models.UpdateInterviewSelection: clear the application's selections and
      append the given slots, in one transaction. */
  function UpdateInterviewSelection(st: Store, aid: string, iids: set<string>): (r: Store)
    ensures SelectedBy(r, aid) == iids
    ensures forall other :: other != aid ==> SelectedBy(r, other) == SelectedBy(st, other)
    ensures r.recruitments == st.recruitments && r.applications == st.applications &&
            r.interviews == st.interviews
  {
    var kept := set s | s in st.selections && s.aid != aid;
    var added := set i | i in iids :: Selection(aid, i);
    var r := st.(selections := kept + added);
    assert forall i :: i in iids ==> Selection(aid, i) in r.selections;
    r
  }

  /** Selecting the same slots again changes nothing. */
  lemma SelectionIdempotent(st: Store, aid: string, iids: set<string>)
    ensures UpdateInterviewSelection(UpdateInterviewSelection(st, aid, iids), aid, iids)
         == UpdateInterviewSelection(st, aid, iids)
  {
  }
}

=== FILE: constants.dfy ===
/** The fixed tables of the recruitment pipeline: steps with their ranks and
    Chinese labels, the interest groups, the SMS templates, roles and the
    group/team interview kinds. */
module Constants {
  import opened Wrappers

  /** The ten steps of an application. */
  datatype Step =
    | SignUp | WrittenTest | GroupTimeSelection | GroupInterview
    | OnlineGroupInterview | StressTest | TeamTimeSelection
    | TeamInterview | OnlineTeamInterview | Pass

  /** The English key of a step, as stored and as sent over the wire. */
  function StepKey(s: Step): string {
    match s
    case SignUp => "SignUp"
    case WrittenTest => "WrittenTest"
    case GroupTimeSelection => "GroupTimeSelection"
    case GroupInterview => "GroupInterview"
    case OnlineGroupInterview => "OnlineGroupInterview"
    case StressTest => "StressTest"
    case TeamTimeSelection => "TeamTimeSelection"
    case TeamInterview => "TeamInterview"
    case OnlineTeamInterview => "OnlineTeamInterview"
    case Pass => "Pass"
  }

  /** Lookup of a string among the keys of the rank table. */
  function ParseStep(k: string): (r: Option<Step>)
    ensures r.Some? ==> StepKey(r.value) == k
  {
    match k
    case "SignUp" => Some(SignUp)
    case "WrittenTest" => Some(WrittenTest)
    case "GroupTimeSelection" => Some(GroupTimeSelection)
    case "GroupInterview" => Some(GroupInterview)
    case "OnlineGroupInterview" => Some(OnlineGroupInterview)
    case "StressTest" => Some(StressTest)
    case "TeamTimeSelection" => Some(TeamTimeSelection)
    case "TeamInterview" => Some(TeamInterview)
    case "OnlineTeamInterview" => Some(OnlineTeamInterview)
    case "Pass" => Some(Pass)
    case _ => None
  }

  /** Every step's key parses back to that step: the rank table has an entry
      for each of the ten steps. */
  lemma ParseStepKey(s: Step)
    ensures ParseStep(StepKey(s)) == Some(s)
  {
  }

  /** The position of a step in the pipeline. */
  function Rank(s: Step): (r: int)
    ensures 1 <= r <= 8
  {
    match s
    case SignUp => 1
    case WrittenTest => 2
    case GroupTimeSelection => 3
    case GroupInterview => 4
    case OnlineGroupInterview => 4
    case StressTest => 5
    case TeamTimeSelection => 6
    case TeamInterview => 7
    case OnlineTeamInterview => 7
    case Pass => 8
  }

  /** The in-person pipeline, in order. */
  const MainLine: seq<Step> :=
    [SignUp, WrittenTest, GroupTimeSelection, GroupInterview, StressTest,
     TeamTimeSelection, TeamInterview, Pass]

  lemma RanksFollowMainLine()
    ensures forall i, j :: 0 <= i < j < |MainLine| ==> Rank(MainLine[i]) < Rank(MainLine[j])
    ensures forall i :: 0 <= i < |MainLine| ==> Rank(MainLine[i]) == i + 1
  {
  }

  /** The online interviews sit at the rank of their in-person counterparts,
      and no other two steps share a rank. */
  lemma OnlineSharesRank(a: Step, b: Step)
    ensures Rank(OnlineGroupInterview) == Rank(GroupInterview)
    ensures Rank(OnlineTeamInterview) == Rank(TeamInterview)
    ensures a != b && Rank(a) == Rank(b) ==>
      {a, b} == {GroupInterview, OnlineGroupInterview} || {a, b} == {TeamInterview, OnlineTeamInterview}
  {
  }

  /** The Chinese label of a step, used in SMS texts. */
  function EnToZh(s: Step): string {
    match s
    case SignUp => "报名"
    case WrittenTest => "笔试"
    case GroupTimeSelection => "组面时间选择"
    case GroupInterview => "组面"
    case OnlineGroupInterview => "在线组面"
    case StressTest => "熬测"
    case TeamTimeSelection => "群面时间选择"
    case TeamInterview => "团体面试"
    case OnlineTeamInterview => "在线群面"
    case Pass => "通过"
  }

  /** Lookup in the Chinese-to-English table. Note the team interview is
      keyed "群面" here although its label above is "团体面试". */
  function ZhToEn(z: string): Option<Step> {
    match z
    case "报名" => Some(SignUp)
    case "笔试" => Some(WrittenTest)
    case "组面时间选择" => Some(GroupTimeSelection)
    case "组面" => Some(GroupInterview)
    case "在线组面" => Some(OnlineGroupInterview)
    case "熬测" => Some(StressTest)
    case "群面时间选择" => Some(TeamTimeSelection)
    case "群面" => Some(TeamInterview)
    case "在线群面" => Some(OnlineTeamInterview)
    case "通过" => Some(Pass)
    case _ => None
  }

  /** Translating a step to Chinese and back gives the step again, except
      for the team interview whose label is not a key of the reverse table. */
  lemma ZhRoundTrip(s: Step)
    ensures s != TeamInterview ==> ZhToEn(EnToZh(s)) == Some(s)
    ensures ZhToEn(EnToZh(TeamInterview)) == None
  {
  }

  /** The reverse table is injective and reaches every step. */
  lemma ZhToEnInjectiveAndOnto(z1: string, z2: string, s: Step)
    ensures ZhToEn(z1).Some? && ZhToEn(z1) == ZhToEn(z2) ==> z1 == z2
    ensures exists z :: ZhToEn(z) == Some(s)
  {
    if s == TeamInterview {
      assert ZhToEn("群面") == Some(s);
    } else {
      assert ZhToEn(EnToZh(s)) == Some(s);
    }
  }

  /** No English step key is also a Chinese key. */
  lemma KeysAreNotLabels(s: Step)
    ensures ZhToEn(StepKey(s)) == None
  {
  }

  const Unique: string := "unique"

  /** The group table; "unique" stands for the team-wide interview. */
  const Groups: set<string> :=
    {"web", "lab", "ai", "game", "mobile", "android", "ios", "design", "pm", Unique}

  lemma GroupTable()
    ensures |Groups| == 10
    ensures Unique in Groups
  {
  }

  /** The SMS templates of the messaging provider. */
  datatype Template =
    | StateChange | VerificationCode | Interviews | PassSms | Delay
    | OnlineGroupInterviewSms | OnlineTeamInterviewSms

  function TemplateId(t: Template): nat {
    match t
    case StateChange => 1092770
    case VerificationCode => 963866
    case Interviews => 1113517
    case PassSms => 1092767
    case Delay => 1092765
    case OnlineGroupInterviewSms => 1533304
    case OnlineTeamInterviewSms => 1533302
  }

  lemma TemplateIdsDistinct(a: Template, b: Template)
    ensures TemplateId(a) == TemplateId(b) ==> a == b
  {
  }

  const Admin: string := "admin"
  const Member: string := "member"
  const Candidate: string := "candidate"

  /** The two kinds of interview a slot can be selected or allocated for. */
  datatype Kind = InGroup | InTeam

  function ParseKind(s: string): (r: Option<Kind>)
    ensures r == Some(InGroup) <==> s == "group"
    ensures r == Some(InTeam) <==> s == "team"
  {
    if s == "group" then Some(InGroup)
    else if s == "team" then Some(InTeam)
    else None
  }
}

=== FILE: diff.dfy ===
/** The selection diff a candidate's new choice of slots produces. */
module SelectionDiff {
  import opened Wrappers
  import opened Model
  import opened InterviewStore
  import opened ApplicationStore

  /** Reference definition: the uids of `a`, in order, whose slot does not
      occur (by uid) in `b`. */
  function Without(a: seq<Interview>, b: seq<Interview>): (r: seq<string>)
    ensures forall u :: u in r <==> u in Uids(a) && u !in Uids(b)
    ensures r == [] <==> Uids(a) <= Uids(b)
    ensures |r| <= |a|
  {
    if |a| == 0 then []
    else
      var rest := Without(a[1..], b);
      assert forall x :: x in a <==> x == a[0] || x in a[1..];
      if a[0].uid in Uids(b) then rest else [a[0].uid] + rest
  }

  lemma {:induction false} WithoutAppend(a: seq<Interview>, x: Interview, b: seq<Interview>)
    ensures Without(a + [x], b) == Without(a, b) + (if x.uid in Uids(b) then [] else [x.uid])
  {
    if |a| == 0 {
      assert a + [x] == [x];
      assert [x][1..] == [];
    } else {
      var ax := a + [x];
      assert ax[0] == a[0] && ax[1..] == a[1..] + [x];
      WithoutAppend(a[1..], x, b);
    }
  }

  /** Extending the prefix of `a` by one slot extends the reference
      definition by at most that slot's uid. */
  lemma WithoutPrefixStep(a: seq<Interview>, i: int, b: seq<Interview>)
    requires 0 <= i < |a|
    ensures Without(a[..i + 1], b) == Without(a[..i], b) + (if a[i].uid in Uids(b) then [] else [a[i].uid])
  {
    assert a[..i + 1] == a[..i] + [a[i]];
    WithoutAppend(a[..i], a[i], b);
  }

  /** Does some slot of `b` have uid `u`? The inner loop of the Go code. */
  method Contains(b: seq<Interview>, u: string) returns (found: bool)
    ensures found <==> u in Uids(b)
  {
    found := false;
    var j := 0;
    while j < |b|
      invariant 0 <= j <= |b|
      invariant forall k :: 0 <= k < j ==> b[k].uid != u
    {
      if b[j].uid == u {
        assert b[j] in b;
        return true;
      }
      j := j + 1;
    }
    assert forall x :: x in b ==> x.uid != u;
  }

  /** One of the two outer loops of the Go code: the uids of `a` that
      `b` lacks, in order. */
  method Missing(a: seq<Interview>, b: seq<Interview>) returns (r: seq<string>)
    ensures r == Without(a, b)
  {
    r := [];
    var i := 0;
    while i < |a|
      invariant 0 <= i <= |a|
      invariant r == Without(a[..i], b)
    {
      var ok := Contains(b, a[i].uid);
      WithoutPrefixStep(a, i, b);
      if !ok {
        r := r + [a[i].uid];
      }
      i := i + 1;
    }
    assert a[..i] == a;
  }

  /** getAddAndDelInterviews: the uids to drop (previously selected, no
      longer chosen) and to add (chosen, not previously selected), each in the
      order of its source list. */
  method AddAndDel(origin: seq<Interview>, chosen: seq<Interview>) returns (toAdd: seq<string>, toDel: seq<string>)
    ensures toDel == Without(origin, chosen)
    ensures toAdd == Without(chosen, origin)
    ensures (Uids(origin) - Elems(toDel)) + Elems(toAdd) == Uids(chosen)
    ensures Elems(toAdd) !! Elems(toDel)
  {
    toDel := Missing(origin, chosen);
    toAdd := Missing(chosen, origin);
    DiffSetEquation(origin, chosen);
  }

  /** Choosing the slots one already holds produces an empty diff. */
  lemma NoChangeNoDiff(s: seq<Interview>)
    ensures Without(s, s) == []
  {

  }

  /** The diff agrees with the selection write: after replacing the
      selections of `aid` by the chosen slots, what the application holds is
      what it held, minus the dropped uids, plus the added ones. */
  lemma DiffAgreesWithSelectionWrite(st: Store, aid: string, origin: seq<Interview>, chosen: seq<Interview>)
    requires SelectedBy(st, aid) == Uids(origin)
    ensures SelectedBy(UpdateInterviewSelection(st, aid, Uids(chosen)), aid)
         == (SelectedBy(st, aid) - Elems(Without(origin, chosen))) + Elems(Without(chosen, origin))
  {
    DiffSetEquation(origin, chosen);
  }

  /** Dropping the removed uids and adding the new ones turns the old
      selection into the new one, and no uid is both added and dropped. */
  lemma DiffSetEquation(origin: seq<Interview>, chosen: seq<Interview>)
    ensures (Uids(origin) - Elems(Without(origin, chosen))) + Elems(Without(chosen, origin)) == Uids(chosen)
    ensures Elems(Without(chosen, origin)) !! Elems(Without(origin, chosen))
  {
  }
}

=== FILE: interview_api.dfy ===
/** The interview-slot handlers besides the reconciliation: listing,
    creating and deleting the slots of one recruitment and group. */
module InterviewHandlers {
  import opened Wrappers
  import opened Errors
  import opened Constants
  import opened Model
  import opened InterviewStore
  import Strings
  import Reconcile
  import Options

  /** GetInterviewsOpts.Validate: the group must be known; the verdict is
      the one the application-creation options give the same group. */
  function ValidateGetInterviews(name: string): (r: Outcome<Error>)
    ensures r.Success? <==> name in Groups
    ensures r == Options.ValidateCreateApp(name)
  {
    if name !in Groups then Failure(BadGroup) else Success
  }

  /** GetRecruitmentInterviews: the uids of the stored slots of recruitment
      `rid` and group `name`. */
  function GetRecruitmentInterviews(st: Store, rid: string, name: string): (r: Result<set<string>, Error>)
    ensures r.Err? <==> name !in Groups
    ensures r.Err? ==> r.error == BadGroup
    ensures r.Ok? ==> forall u :: u in r.value <==> u in st.interviews && Reconcile.InGroup(st, u, rid, name)
  {
    match ValidateGetInterviews(name)
    case Failure(e) => Err(e)
    case Success => Ok(set u | u in st.interviews && st.interviews[u].rid == rid && st.interviews[u].name == name)
  }

  /** The guards shared by Create and Delete, in the handlers' order: the
      recruitment id, the group, the caller's membership. */
  function CheckSlotWrite(rid: string, name: string, userGroups: seq<string>): (r: Outcome<Error>)
    ensures r.Success? <==> rid != "" && name in Groups && (name == Unique || name in userGroups)
    ensures rid == "" ==> r == Failure(MissingRid)
    ensures rid != "" && name !in Groups ==> r == Failure(BadGroup)
    ensures r.Failure? ==> r.error in {MissingRid, BadGroup, OtherGroupSlot}
  {
    if rid == "" then Failure(MissingRid)
    else if name !in Groups then Failure(BadGroup)
    else Reconcile.CheckInterviewGroupName(userGroups, name)
  }

  /** CreateRecruitmentInterviews: the group name is lower-cased first, then
      the guards run and each slot is inserted on its own. */
  function CreateRecruitmentInterviews(st: Store, rid: string, rawName: string, userGroups: seq<string>,
                                       opts: seq<SlotTimes>, ids: seq<string>): (r: Result<Report, Error>)
    requires |ids| >= |opts|
    ensures r.Ok? <==> CheckSlotWrite(rid, Strings.ToLower(rawName), userGroups).Success?
    ensures r.Err? ==> r.error == CheckSlotWrite(rid, Strings.ToLower(rawName), userGroups).error
    ensures r.Ok? ==>
      r.value.store.recruitments == st.recruitments && r.value.store.applications == st.applications &&
      r.value.store.selections == st.selections &&
      (forall u :: u in st.interviews ==> u in r.value.store.interviews && r.value.store.interviews[u] == st.interviews[u]) &&
      (forall u :: u in r.value.store.interviews && u !in st.interviews ==>
         r.value.store.interviews[u].name == Strings.ToLower(rawName) && r.value.store.interviews[u].rid == rid)
  {
    var name := Strings.ToLower(rawName);
    match CheckSlotWrite(rid, name, userGroups)
    case Failure(e) => Err(e)
    case Success => Ok(CreateInterviews(st, opts, name, rid, ids))
  }

  /** DeleteRecruitmentInterviews: the guards, on the name exactly as given,
      then the one-by-one deletion. */
  function DeleteRecruitmentInterviews(st: Store, rid: string, name: string, userGroups: seq<string>,
                                       iids: seq<string>): (r: Result<Report, Error>)
    ensures r.Ok? <==> CheckSlotWrite(rid, name, userGroups).Success?
    ensures r.Err? ==> r.error == CheckSlotWrite(rid, name, userGroups).error
    ensures r.Ok? ==>
      r.value.store.selections == st.selections && r.value.store.applications == st.applications &&
      (forall u :: u in st.interviews && Referenced(st, u) ==>
         u in r.value.store.interviews && r.value.store.interviews[u] == st.interviews[u]) &&
      (forall u :: u in st.interviews && u !in r.value.store.interviews ==>
         u in iids && Reconcile.InGroup(st, u, rid, name))
  {
    match CheckSlotWrite(rid, name, userGroups)
    case Failure(e) => Err(e)
    case Success => Ok(DeleteInterviews(st, iids, name, rid))
  }

  /** Creation ignores the case of the group name; deletion does not: an
      upper-case spelling of a group is refused there. */
  lemma NameCaseHandling(st: Store, rid: string, userGroups: seq<string>, opts: seq<SlotTimes>, ids: seq<string>,
                         iids: seq<string>)
    requires |ids| >= |opts|
    ensures CreateRecruitmentInterviews(st, rid, "Web", userGroups, opts, ids) ==
            CreateRecruitmentInterviews(st, rid, "web", userGroups, opts, ids)
    ensures rid != "" ==> DeleteRecruitmentInterviews(st, rid, "Web", userGroups, iids) == Err(BadGroup)
  {
    assert Strings.ToLower("Web") == "web";
    assert Strings.ToLower("web") == "web";
    assert "Web" !in Groups;
  }

  /** For any spelling, creating under a name and under its lower-case form
      are the same request. */
  lemma CreateIgnoresCase(st: Store, rid: string, rawName: string, userGroups: seq<string>,
                          opts: seq<SlotTimes>, ids: seq<string>)
    requires |ids| >= |opts|
    ensures CreateRecruitmentInterviews(st, rid, rawName, userGroups, opts, ids) ==
            CreateRecruitmentInterviews(st, rid, Strings.ToLower(rawName), userGroups, opts, ids)
  {
    Strings.ToLowerIsLower(rawName);
  }
}

=== FILE: interview_store.dfy ===
/** Storage operations on interview slots. */
module InterviewStore {
  import opened Wrappers
  import opened Errors
  import opened Model

  /** The outcome of a best-effort batch: what was committed, and one error
      per item that failed. The call as a whole fails iff `errors` is non-empty. */
  datatype Report = Report(store: Store, errors: seq<Error>)

  /** The uids of a list of slots. */
  function Uids(ivs: seq<Interview>): set<string> {
    set i | i in ivs :: i.uid
  }

  /** GetInterviewsCannotBeUpdate: the listed slots that some application has
      selected or been allocated. An empty list short-circuits to the empty set. */
  function LockSet(st: Store, iids: seq<string>): (r: set<string>)
    ensures forall id :: id in r <==> id in iids && Referenced(st, id)
  {
    if |iids| == 0 then {}
    else
      var selected := set s | s in st.selections && s.iid in iids :: s.iid;
      var inGroup := set aid | aid in st.applications && st.applications[aid].allocGroup.Some? &&
                               st.applications[aid].allocGroup.value in iids
                             :: st.applications[aid].allocGroup.value;
      var inTeam := set aid | aid in st.applications && st.applications[aid].allocTeam.Some? &&
                              st.applications[aid].allocTeam.value in iids
                            :: st.applications[aid].allocTeam.value;
      var r := selected + inGroup + inTeam;
      assert forall id :: id in iids && Referenced(st, id) ==> id in r by {
        forall id | id in iids && Referenced(st, id)
          ensures id in r
        {
          if Selected(st, id) {
            var s :| s in st.selections && s.iid == id;
            assert id in selected;
          } else {
            var aid :| aid in st.applications &&
              (st.applications[aid].allocGroup == Some(id) || st.applications[aid].allocTeam == Some(id));
            if st.applications[aid].allocGroup == Some(id) {
              assert id in inGroup;
            } else {
              assert id in inTeam;
            }
          }
        }
      }
      r
  }

  /** Adding a selection or an allocation can only grow the lock set. */
  lemma LockSetGrowsWithSelections(st: Store, s: Selection, iids: seq<string>)
    ensures LockSet(st, iids) <= LockSet(st.(selections := st.selections + {s}), iids)
    ensures s.iid in iids ==> s.iid in LockSet(st.(selections := st.selections + {s}), iids)
  {
    var st' := st.(selections := st.selections + {s});
    forall id | id in LockSet(st, iids)
      ensures id in LockSet(st', iids)
    {
      if Selected(st, id) {
        var t :| t in st.selections && t.iid == id;
        assert t in st'.selections;
      } else {
        assert Allocated(st', id);
      }
    }
    if s.iid in iids {
      assert s in st'.selections;
    }
  }

  /** One iteration of models.DeleteInterviews: a selected slot is refused
      first, an allocated one second; otherwise the slot is deleted only if it
      belongs to the given recruitment and group (an unknown uid is a silent
      no-op). */
  function DeleteOne(st: Store, iid: string, name: string, rid: string): (r: Result<Store, Error>)
    ensures Selected(st, iid) ==> r == Err(SlotSelected(iid))
    ensures !Selected(st, iid) && Allocated(st, iid) ==> r == Err(SlotAllocated(iid))
    ensures r.Ok? <==> !Referenced(st, iid)
    ensures r.Ok? ==>
      r.value.recruitments == st.recruitments && r.value.applications == st.applications &&
      r.value.selections == st.selections &&
      (forall u :: u in r.value.interviews <==>
         u in st.interviews && !(u == iid && st.interviews[u].rid == rid && st.interviews[u].name == name)) &&
      (forall u :: u in r.value.interviews ==> r.value.interviews[u] == st.interviews[u])
  {
    if Selected(st, iid) then Err(SlotSelected(iid))
    else if Allocated(st, iid) then Err(SlotAllocated(iid))
    else if iid in st.interviews && st.interviews[iid].rid == rid && st.interviews[iid].name == name then
      Ok(st.(interviews := st.interviews - {iid}))
    else Ok(st)
  }

  /** The number of listed ids that are referenced. */
  function CountReferenced(st: Store, iids: seq<string>): nat {
    if |iids| == 0 then 0
    else (if Referenced(st, iids[0]) then 1 else 0) + CountReferenced(st, iids[1..])
  }

  /** Slots are deleted or refused one by one, in order. */
  predicate Deletable(st: Store, u: string, iids: seq<string>, name: string, rid: string)
    requires u in st.interviews
  {
    u in iids && !Referenced(st, u) && st.interviews[u].rid == rid && st.interviews[u].name == name
  }

  /** models.DeleteInterviews: exactly the listed, unreferenced slots of the
      given recruitment and group disappear; every referenced listed slot
      yields one error; nothing else changes. */
  function DeleteInterviews(st: Store, iids: seq<string>, name: string, rid: string): (r: Report)
    ensures r.store.recruitments == st.recruitments && r.store.applications == st.applications &&
            r.store.selections == st.selections
    ensures forall u :: u in r.store.interviews <==> u in st.interviews && !Deletable(st, u, iids, name, rid)
    ensures forall u :: u in r.store.interviews ==> r.store.interviews[u] == st.interviews[u]
    ensures |r.errors| == CountReferenced(st, iids)
    ensures forall e :: e in r.errors ==>
      (e.SlotSelected? || e.SlotAllocated?) && e.iid in iids && Referenced(st, e.iid)
    decreases |iids|
  {
    if |iids| == 0 then Report(st, [])
    else
      match DeleteOne(st, iids[0], name, rid)
      case Err(e) =>
        var rest := DeleteInterviews(st, iids[1..], name, rid);
        Report(rest.store, [e] + rest.errors)
      case Ok(st') =>
        assert forall id :: Referenced(st', id) == Referenced(st, id);
        assert CountReferenced(st', iids[1..]) == CountReferenced(st, iids[1..]) by {
          CountReferencedFrame(st, st', iids[1..]);
        }
        var rest := DeleteInterviews(st', iids[1..], name, rid);
        Report(rest.store, rest.errors)
  }

  /** The count depends only on the selection and application tables. */
  lemma {:induction false} CountReferencedFrame(st: Store, st': Store, iids: seq<string>)
    requires st'.selections == st.selections && st'.applications == st.applications
    ensures CountReferenced(st', iids) == CountReferenced(st, iids)
    decreases |iids|
  {
    if |iids| > 0 {
      assert Referenced(st', iids[0]) == Referenced(st, iids[0]);
      CountReferencedFrame(st, st', iids[1..]);
    }
  }

  /** The fields of a slot creation request. */
  datatype SlotTimes = SlotTimes(date: int, period: string, start: int, end: int)

  function Stamp(t: SlotTimes, uid: string, name: string, rid: string): Interview {
    Interview(uid, t.date, t.period, name, t.start, t.end, rid)
  }

  /** Insert one slot; refused on a taken uid, a taken unique key or an
      unknown recruitment. */
  function InsertSlot(st: Store, iv: Interview): (r: Result<Store, Error>)
    ensures r.Ok? <==>
      iv.uid !in st.interviews && !KeyTaken(st.interviews, SlotKeyOf(iv), iv.uid) && iv.rid in st.recruitments
    ensures r.Ok? ==> r.value == st.(interviews := st.interviews[iv.uid := iv])
    ensures r.Ok? && UniqueSlots(st.interviews) ==> UniqueSlots(r.value.interviews)
  {
    if iv.uid in st.interviews || KeyTaken(st.interviews, SlotKeyOf(iv), iv.uid) then Err(Duplicate)
    else if iv.rid !in st.recruitments then Err(NotFound(iv.rid))
    else Ok(st.(interviews := st.interviews[iv.uid := iv]))
  }

  /** models.CreateInterviews: each slot is inserted on its own (with the next
      fresh uid from `ids`); failures are collected and the others kept. */
  function CreateInterviews(st: Store, opts: seq<SlotTimes>, name: string, rid: string, ids: seq<string>): (r: Report)
    requires |ids| >= |opts|
    ensures r.store.recruitments == st.recruitments && r.store.applications == st.applications &&
            r.store.selections == st.selections
    ensures forall u :: u in st.interviews ==> u in r.store.interviews && r.store.interviews[u] == st.interviews[u]
    ensures forall u :: u in r.store.interviews && u !in st.interviews ==>
      u in ids[..|opts|] && r.store.interviews[u].name == name && r.store.interviews[u].rid == rid
    ensures forall e :: e in r.errors ==> e == Duplicate || e == NotFound(rid)
    ensures rid !in st.recruitments ==> r.store == st
    decreases |opts|
  {
    if |opts| == 0 then Report(st, [])
    else
      match InsertSlot(st, Stamp(opts[0], ids[0], name, rid))
      case Err(e) =>
        var rest := CreateInterviews(st, opts[1..], name, rid, ids[1..]);
        assert ids[1..][..|opts[1..]|] == ids[1..|opts|];
        Report(rest.store, [e] + rest.errors)
      case Ok(st') =>
        var rest := CreateInterviews(st', opts[1..], name, rid, ids[1..]);
        assert ids[1..][..|opts[1..]|] == ids[1..|opts|];
        Report(rest.store, rest.errors)
  }

  /** Every requested slot is either stored or reported, one error each, and
      the uniqueness of slot keys is kept. */
  lemma {:induction false} CreateInterviewsCounts(st: Store, opts: seq<SlotTimes>, name: string, rid: string, ids: seq<string>)
    requires |ids| >= |opts|
    ensures var r := CreateInterviews(st, opts, name, rid, ids);
      |r.store.interviews| + |r.errors| == |st.interviews| + |opts|
    ensures UniqueSlots(st.interviews) ==> UniqueSlots(CreateInterviews(st, opts, name, rid, ids).store.interviews)
    decreases |opts|
  {
    if |opts| > 0 {
      match InsertSlot(st, Stamp(opts[0], ids[0], name, rid))
      case Err(e) =>
        CreateInterviewsCounts(st, opts[1..], name, rid, ids[1..]);
      case Ok(st') =>
        assert |st'.interviews| == |st.interviews| + 1;
        CreateInterviewsCounts(st', opts[1..], name, rid, ids[1..]);
    }
  }

  /** models.UpdateInterview: rewrite date, period, start, end and group of an
      existing slot; its uid and recruitment stay. An unknown uid matches no
      row and succeeds; a rewrite onto another slot's key is refused. */
  function UpdateInterview(st: Store, iv: Interview): (r: Result<Store, Error>)
    ensures r.Err? ==> iv.uid in st.interviews && r.error == Duplicate
    ensures r.Ok? ==>
      r.value.recruitments == st.recruitments && r.value.applications == st.applications &&
      r.value.selections == st.selections && r.value.interviews.Keys == st.interviews.Keys &&
      (forall u :: u in st.interviews && u != iv.uid ==> r.value.interviews[u] == st.interviews[u])
    ensures r.Ok? && iv.uid in st.interviews ==>
      var n := r.value.interviews[iv.uid];
      n.uid == st.interviews[iv.uid].uid && n.rid == st.interviews[iv.uid].rid &&
      n.date == iv.date && n.period == iv.period && n.start == iv.start && n.end == iv.end && n.name == iv.name
    ensures r.Ok? && UniqueSlots(st.interviews) ==> UniqueSlots(r.value.interviews)
  {
    if iv.uid !in st.interviews then Ok(st)
    else
      var prior := st.interviews[iv.uid];
      var n := prior.(date := iv.date, period := iv.period, start := iv.start, end := iv.end, name := iv.name);
      if KeyTaken(st.interviews, SlotKeyOf(n), iv.uid) then Err(Duplicate)
      else Ok(st.(interviews := st.interviews[iv.uid := n]))
  }

  /** Rewriting a slot with the values it already has changes nothing. */
  lemma UpdateWithSameValues(st: Store, iv: Interview)
    requires UniqueSlots(st.interviews)
    requires iv.uid in st.interviews
    requires var p := st.interviews[iv.uid];
      p.date == iv.date && p.period == iv.period && p.start == iv.start && p.end == iv.end && p.name == iv.name
    ensures UpdateInterview(st, iv) == Ok(st)
  {
    var p := st.interviews[iv.uid];
    assert p.(date := iv.date, period := iv.period, start := iv.start, end := iv.end, name := iv.name) == p;
    assert st.interviews[iv.uid := p] == st.interviews;
  }

  /** Insert a list of slots as one statement: all of them or none. */
  function InsertAll(st: Store, ivs: seq<Interview>): (r: Result<Store, Error>)
    ensures r.Ok? ==>
      r.value.recruitments == st.recruitments && r.value.applications == st.applications &&
      r.value.selections == st.selections &&
      r.value.interviews.Keys == st.interviews.Keys + Uids(ivs) &&
      (forall u :: u in st.interviews ==> r.value.interviews[u] == st.interviews[u]) &&
      (forall i :: 0 <= i < |ivs| ==> r.value.interviews[ivs[i].uid] == ivs[i])
    ensures r.Ok? ==> forall i :: 0 <= i < |ivs| ==> ivs[i].uid !in st.interviews
    ensures r.Ok? && UniqueSlots(st.interviews) ==> UniqueSlots(r.value.interviews)
    decreases |ivs|
  {
    if |ivs| == 0 then Ok(st)
    else
      match InsertSlot(st, ivs[0])
      case Err(e) => Err(e)
      case Ok(st') =>
        var rest := InsertAll(st', ivs[1..]);
        if rest.Err? then rest
        else
          InsertAllStep(st, st', ivs, rest.value);
          rest
  }

  /** The inductive step of InsertAll: the first slot went in, the rest went
      in after it. */
  lemma InsertAllStep(st: Store, st': Store, ivs: seq<Interview>, fin: Store)
    requires |ivs| > 0 && InsertSlot(st, ivs[0]) == Ok(st')
    requires fin.recruitments == st'.recruitments && fin.applications == st'.applications &&
             fin.selections == st'.selections
    requires fin.interviews.Keys == st'.interviews.Keys + Uids(ivs[1..])
    requires forall u :: u in st'.interviews ==> fin.interviews[u] == st'.interviews[u]
    requires forall i :: 0 <= i < |ivs[1..]| ==> fin.interviews[ivs[1..][i].uid] == ivs[1..][i]
    requires forall i :: 0 <= i < |ivs[1..]| ==> ivs[1..][i].uid !in st'.interviews
    ensures fin.interviews.Keys == st.interviews.Keys + Uids(ivs)
    ensures forall u :: u in st.interviews ==> fin.interviews[u] == st.interviews[u]
    ensures forall i :: 0 <= i < |ivs| ==> fin.interviews[ivs[i].uid] == ivs[i]
    ensures forall i :: 0 <= i < |ivs| ==> ivs[i].uid !in st.interviews
  {
    assert Uids(ivs) == {ivs[0].uid} + Uids(ivs[1..]) by {
      assert forall i :: i in ivs ==> i == ivs[0] || i in ivs[1..];
    }
    forall i | 1 <= i < |ivs|
      ensures fin.interviews[ivs[i].uid] == ivs[i] && ivs[i].uid !in st.interviews
    {
      assert ivs[i] == ivs[1..][i - 1];
    }
  }

  /** Delete a set of slots as one statement: refused when any of them is
      still referenced. An allocation column has no cascade (pkg/type.go
      lines 171-172), so an allocated slot blocks the delete. For a slot that
      is only selected this is an assumption: the selection join table is
      declared with an on-delete cascade, and whether the slot side of that
      key cascades depends on the schema migration, which is not modelled. */
  function RemoveSlots(st: Store, ids: set<string>): (r: Result<Store, Error>)
    ensures r.Ok? <==> forall id :: id in ids ==> !Referenced(st, id)
    ensures r.Ok? ==>
      r.value.recruitments == st.recruitments && r.value.applications == st.applications &&
      r.value.selections == st.selections &&
      r.value.interviews.Keys == st.interviews.Keys - ids &&
      (forall u :: u in r.value.interviews ==> r.value.interviews[u] == st.interviews[u])
  {
    if exists id :: id in ids && Referenced(st, id) then Err(StillReferenced)
    else Ok(st.(interviews := map u | u in st.interviews && u !in ids :: st.interviews[u]))
  }

  /** models.AddAndDeleteInterviews: insert the new slots, then delete the
      listed ones; the two statements are not one transaction, so a refused
      delete leaves the inserted slots in place. Empty lists skip their statement. */
  function AddAndDeleteInterviews(st: Store, toAdd: seq<Interview>, toDel: seq<string>): (r: Report)
    ensures |r.errors| <= 1
    ensures |toAdd| > 0 && InsertAll(st, toAdd).Err? ==> r == Report(st, [InsertAll(st, toAdd).error])
    ensures r.store.recruitments == st.recruitments && r.store.applications == st.applications &&
            r.store.selections == st.selections
    ensures forall u :: u in r.store.interviews && u in st.interviews ==> r.store.interviews[u] == st.interviews[u]
    ensures forall u :: u in st.interviews && u !in r.store.interviews ==> u in toDel
  {
    var added := if |toAdd| != 0 then InsertAll(st, toAdd) else Ok(st);
    match added
    case Err(e) => Report(st, [e])
    case Ok(st1) =>
      if |toDel| == 0 then Report(st1, [])
      else
        match RemoveSlots(st1, Elems(toDel))
        case Err(e) => Report(st1, [e])
        case Ok(st2) => Report(st2, [])
  }

  /** A successful batch stores exactly the old slots and the new ones, less
      the deleted ones, and every new slot that is not deleted as given. */
  lemma AddAndDeleteContents(st: Store, toAdd: seq<Interview>, toDel: seq<string>)
    requires AddAndDeleteInterviews(st, toAdd, toDel).errors == []
    ensures var r := AddAndDeleteInterviews(st, toAdd, toDel);
      r.store.interviews.Keys == (st.interviews.Keys + Uids(toAdd)) - Elems(toDel) &&
      (forall i :: 0 <= i < |toAdd| && toAdd[i].uid !in toDel ==> r.store.interviews[toAdd[i].uid] == toAdd[i])
  {
    if |toAdd| == 0 {
      assert Uids(toAdd) == {};
    } else {
      var st1 := InsertAll(st, toAdd).value;
      assert st1.interviews.Keys == st.interviews.Keys + Uids(toAdd);
    }
  }

  /** The batch fails only when the insert fails or a slot to delete is
      still referenced. */
  lemma AddAndDeleteSucceeds(st: Store, toAdd: seq<Interview>, toDel: seq<string>)
    requires forall id :: id in toDel ==> !Referenced(st, id)
    requires |toAdd| == 0 || InsertAll(st, toAdd).Ok?
    ensures AddAndDeleteInterviews(st, toAdd, toDel).errors == []
  {
    var st1 := if |toAdd| != 0 then InsertAll(st, toAdd).value else st;
    assert st1.selections == st.selections && st1.applications == st.applications;
    if |toDel| != 0 {
      forall id | id in Elems(toDel)
        ensures !Referenced(st1, id)
      {
        assert id in toDel;
      }
    }
  }

  /** A successful batch keeps slot keys unique. */
  lemma AddAndDeleteKeepsUnique(st: Store, toAdd: seq<Interview>, toDel: seq<string>)
    requires UniqueSlots(st.interviews)
    requires AddAndDeleteInterviews(st, toAdd, toDel).errors == []
    ensures UniqueSlots(AddAndDeleteInterviews(st, toAdd, toDel).store.interviews)
  {
  }

  /** models.GetInterviewsByIdsAndName: the listed ids of stored slots with the
      given group name, whatever their recruitment. */
  function GetInterviewsByIdsAndName(st: Store, ids: seq<string>, name: string): (r: set<string>)
    ensures forall u :: u in r <==> u in ids && u in st.interviews && st.interviews[u].name == name
    decreases |ids|
  {
    if |ids| == 0 then {}
    else
      var rest := GetInterviewsByIdsAndName(st, ids[1..], name);
      assert forall u :: u in ids <==> u == ids[0] || u in ids[1..];
      if ids[0] in st.interviews && st.interviews[ids[0]].name == name then {ids[0]} + rest else rest
  }
}

=== FILE: model.dfy ===
/** The records of the recruitment engine and the store that holds them.
    The store is three tables keyed by uid plus the many-to-many selection
    table; an application's two allocation columns point at interviews. */
module Model {
  import opened Wrappers
  import opened Constants
  import TimeUtil

  datatype Recruitment = Recruitment(
    uid: string,
    name: string,
    beginning: int,
    deadline: int,
    end: int,
    stressTestStart: int,
    stressTestEnd: int)

  /** An interview slot. `name` is the group it serves, or "unique" for the
      team-wide interview. */
  datatype Interview = Interview(
    uid: string,
    date: int,
    period: string,
    name: string,
    start: int,
    end: int,
    rid: string)

  datatype Application = Application(
    uid: string,
    grade: string,
    institute: string,
    major: string,
    rank: string,
    group: string,
    intro: string,
    isQuick: bool,
    referrer: string,
    resume: string,
    answer: string,
    abandoned: bool,
    rejected: bool,
    step: Step,
    candidate: string,
    rid: string,
    allocGroup: Option<string>,   // the allocated group-interview slot
    allocTeam: Option<string>)    // the allocated team-interview slot

  /** A row of the selection table: application `aid` selected slot `iid`. */
  datatype Selection = Selection(aid: string, iid: string)

  datatype Store = Store(
    recruitments: map<string, Recruitment>,
    applications: map<string, Application>,
    interviews: map<string, Interview>,
    selections: set<Selection>)

  /** The columns of the unique index on interview slots. */
  datatype SlotKey = SlotKey(date: int, period: string, name: string, start: int, rid: string)

  function SlotKeyOf(i: Interview): SlotKey {
    SlotKey(i.date, i.period, i.name, i.start, i.rid)
  }

  /** No two slots share date, period, name, start and recruitment. */
  ghost predicate UniqueSlots(ivs: map<string, Interview>) {
    forall a, b :: a in ivs && b in ivs && a != b ==> SlotKeyOf(ivs[a]) != SlotKeyOf(ivs[b])
  }

  /** Does some stored slot other than `except` already use `key`? */
  predicate KeyTaken(ivs: map<string, Interview>, key: SlotKey, except: string) {
    exists u :: u in ivs && u != except && SlotKeyOf(ivs[u]) == key
  }

  /** The columns of the unique index on applications. */
  function AppKey(a: Application): (string, string) {
    (a.candidate, a.rid)
  }

  /** A candidate has at most one application per recruitment. */
  ghost predicate UniqueApplications(apps: map<string, Application>) {
    forall a, b :: a in apps && b in apps && a != b ==> AppKey(apps[a]) != AppKey(apps[b])
  }

  predicate AppKeyTaken(apps: map<string, Application>, key: (string, string)) {
    exists u :: u in apps && AppKey(apps[u]) == key
  }

  /** The slot ids application `aid` has selected. */
  function SelectedBy(st: Store, aid: string): set<string> {
    set s | s in st.selections && s.aid == aid :: s.iid
  }

  /** Some application has selected slot `iid`. */
  predicate Selected(st: Store, iid: string) {
    exists s :: s in st.selections && s.iid == iid
  }

  /** Some application has slot `iid` as its group or team allocation. */
  predicate Allocated(st: Store, iid: string) {
    exists aid :: aid in st.applications &&
      (st.applications[aid].allocGroup == Some(iid) || st.applications[aid].allocTeam == Some(iid))
  }

  /** A referenced slot is one a candidate depends on; it must not be
      rescheduled or removed. */
  predicate Referenced(st: Store, iid: string) {
    Selected(st, iid) || Allocated(st, iid)
  }

  /** `a` occurs in `b` in the same order, possibly with gaps. */
  predicate Subsequence<T(==)>(a: seq<T>, b: seq<T>) {
    if |a| == 0 then true
    else if |b| == 0 then false
    else if a[0] == b[0] then Subsequence(a[1..], b[1..])
    else Subsequence(a, b[1..])
  }

  /** Recruitment.GetInterviews: the slots named `name`, in their original order. */
  function GetInterviews(ivs: seq<Interview>, name: string): (r: seq<Interview>)
    ensures forall x :: x in r <==> x in ivs && x.name == name
    ensures Subsequence(r, ivs)
    ensures |r| <= |ivs|
    ensures |r| == |ivs| <==> forall i :: 0 <= i < |ivs| ==> ivs[i].name == name
  {
    if |ivs| == 0 then []
    else if ivs[0].name == name then [ivs[0]] + GetInterviews(ivs[1..], name)
    else GetInterviews(ivs[1..], name)
  }

  /** The record GORM fills in when no row matches: every field zero. */
  const EmptyRecruitment: Recruitment :=
    Recruitment("", "", TimeUtil.ZeroTime, TimeUtil.ZeroTime, TimeUtil.ZeroTime, TimeUtil.ZeroTime, TimeUtil.ZeroTime)

  /** GetRecruitmentById and GetFullRecruitmentById: a missing id is not an
      error, it yields the empty record. */
  function LookupRecruitment(st: Store, rid: string): (r: Recruitment)
    ensures rid in st.recruitments ==> r == st.recruitments[rid]
    ensures rid !in st.recruitments ==>
      r.name == "" && r.beginning == TimeUtil.ZeroTime && r.deadline == TimeUtil.ZeroTime && r.end == TimeUtil.ZeroTime
  {
    if rid in st.recruitments then st.recruitments[rid] else EmptyRecruitment
  }
}

=== FILE: options.dfy ===
/** The Validate methods of the request options: each checks its fields in
    a fixed order and reports the first problem. Fields arrive as the raw
    strings of the request; enumerations are parsed here. */
module Options {
  import opened Wrappers
  import opened Errors
  import opened Constants

  /** CreateRecOpts.Validate: the three instants must be in order; equal
      instants are allowed. */
  function ValidateCreateRec(beginning: int, deadline: int, end: int): (r: Outcome<Error>)
    ensures r.Success? <==> beginning <= deadline <= end
    ensures r.Failure? ==> r.error == BadTime
  {
    if beginning > deadline || deadline > end then Failure(BadTime) else Success
  }

  /** UpdateRecOpts.Validate and SetStressTestTimeOpts.Validate: only the
      recruitment id is required. */
  function ValidateRid(rid: string): (r: Outcome<Error>)
    ensures r.Success? <==> rid != ""
    ensures r.Failure? ==> r.error == MissingRid
  {
    if rid == "" then Failure(MissingRid) else Success
  }

  /** UploadRecruitmentFileOpts.Validate: the type, the group, the file. */
  function ValidateUploadRecFile(typ: string, group: string, hasFile: bool): (r: Outcome<Error>)
    ensures r.Success? <==> typ == StepKey(WrittenTest) && group in Groups && hasFile
    ensures typ != StepKey(WrittenTest) ==> r == Failure(BadFileType)
    ensures typ == StepKey(WrittenTest) && group !in Groups ==> r == Failure(BadGroup)
    ensures r.Failure? ==> r.error in {BadFileType, BadGroup, MissingFile}
  {
    if typ != StepKey(WrittenTest) then Failure(BadFileType)
    else if group !in Groups then Failure(BadGroup)
    else if !hasFile then Failure(MissingFile)
    else Success
  }

  /** DownloadRecruitmentFileOpts.Validate: the type, then the group. */
  function ValidateDownloadRecFile(typ: string, group: string): (r: Outcome<Error>)
    ensures r.Success? <==> typ == StepKey(WrittenTest) && group in Groups
    ensures typ != StepKey(WrittenTest) ==> r == Failure(BadFileType)
    ensures r.Failure? ==> r.error in {BadFileType, BadGroup}
  {
    if typ != StepKey(WrittenTest) then Failure(BadFileType)
    else if group !in Groups then Failure(BadGroup)
    else Success
  }

  /** The download check is the upload check with a file supplied. */
  lemma DownloadIsUploadWithFile(typ: string, group: string)
    ensures ValidateDownloadRecFile(typ, group) == ValidateUploadRecFile(typ, group, true)
  {
  }

  /** CreateAppOpts.Validate: any group of the table, "unique" included. */
  function ValidateCreateApp(group: string): (r: Outcome<Error>)
    ensures r.Success? <==> group in Groups
    ensures r.Failure? ==> r.error == BadGroup
  {
    if group !in Groups then Failure(BadGroup) else Success
  }

  /** UpdateAppOpts.Validate: an empty group means "unchanged"; a given group
      must be in the table; then the application id is required. */
  function ValidateUpdateApp(group: string, aid: string): (r: Outcome<Error>)
    ensures r.Success? <==> (group == "" || group in Groups) && aid != ""
    ensures group != "" && group !in Groups ==> r == Failure(BadGroup)
    ensures r.Failure? ==> r.error in {BadGroup, MissingAid}
  {
    if group != "" && group !in Groups then Failure(BadGroup)
    else if aid == "" then Failure(MissingAid)
    else Success
  }

  /** The update check is laxer than the create check only in accepting the
      empty group. */
  lemma UpdateAcceptsWhatCreateAccepts(group: string, aid: string)
    requires aid != ""
    ensures ValidateCreateApp(group).Success? ==> ValidateUpdateApp(group, aid).Success?
    ensures ValidateUpdateApp(group, aid).Success? && !ValidateCreateApp(group).Success? ==> group == ""
  {
  }

  /** SetAppStepOpts.Validate: `from` must be a ranked step, then `to`, then
      the application id must be given. */
  function ValidateSetAppStep(from: string, to: string, aid: string): (r: Result<(Step, Step), Error>)
    ensures r.Ok? <==> ParseStep(from).Some? && ParseStep(to).Some? && aid != ""
    ensures r.Ok? ==> StepKey(r.value.0) == from && StepKey(r.value.1) == to
    ensures ParseStep(from).None? ==> r == Err(BadFromStep)
    ensures ParseStep(from).Some? && ParseStep(to).None? ==> r == Err(BadToStep)
    ensures r.Err? ==> r.error in {BadFromStep, BadToStep, MissingAid}
  {
    match ParseStep(from)
    case None => Err(BadFromStep)
    case Some(f) =>
      match ParseStep(to)
      case None => Err(BadToStep)
      case Some(t) => if aid == "" then Err(MissingAid) else Ok((f, t))
  }

  /** Every pair of step keys passes the step check, and yields the steps
      back. */
  lemma SetAppStepRoundTrip(f: Step, t: Step, aid: string)
    requires aid != ""
    ensures ValidateSetAppStep(StepKey(f), StepKey(t), aid) == Ok((f, t))
  {
    ParseStepKey(f);
    ParseStepKey(t);
  }

  /** SetAppInterviewTimeOpts.Validate and SelectInterviewSlotsOpts.Validate:
      the type must be group or team, then the application id is required.
      The list of slot ids may be empty. */
  function ValidateKindAndAid(typ: string, aid: string): (r: Result<Kind, Error>)
    ensures r.Ok? <==> ParseKind(typ).Some? && aid != ""
    ensures r.Ok? ==> Some(r.value) == ParseKind(typ)
    ensures ParseKind(typ).None? ==> r == Err(BadType)
    ensures r.Err? ==> r.error in {BadType, MissingAid}
  {
    match ParseKind(typ)
    case None => Err(BadType)
    case Some(k) => if aid == "" then Err(MissingAid) else Ok(k)
  }

  /** GetInterviewsSlotsOpts.Validate: only the type. */
  function ValidateKind(typ: string): (r: Result<Kind, Error>)
    ensures r.Ok? <==> typ == "group" || typ == "team"
    ensures r.Ok? ==> Some(r.value) == ParseKind(typ)
    ensures r.Err? ==> r.error == BadType
  {
    match ParseKind(typ)
    case None => Err(BadType)
    case Some(k) => Ok(k)
  }

  /** UploadAnswerFileOpts.Validate: the type, then the file. */
  function ValidateUploadAnswer(typ: string, hasFile: bool): (r: Outcome<Error>)
    ensures r.Success? <==> typ == StepKey(WrittenTest) && hasFile
    ensures typ != StepKey(WrittenTest) ==> r == Failure(BadFileType)
    ensures r.Failure? ==> r.error in {BadFileType, MissingFile}
  {
    if typ != StepKey(WrittenTest) then Failure(BadFileType)
    else if !hasFile then Failure(MissingFile)
    else Success
  }

  /** DownloadAnswerFileOpts.Validate: only the type. */
  function ValidateDownloadAnswer(typ: string): (r: Outcome<Error>)
    ensures r.Success? <==> typ == StepKey(WrittenTest)
    ensures r.Failure? ==> r.error == BadFileType
  {
    if typ != StepKey(WrittenTest) then Failure(BadFileType) else Success
  }

  /** The evaluations a comment can carry: good, normal, bad. */
  const Evaluations: set<int> := {1, 2, 3}

  /** CreateCommentOpts.Validate: a comment needs an evaluation or some
      content; either one suffices. */
  function ValidateCreateComment(evaluation: int, content: string): (r: Outcome<Error>)
    ensures r.Failure? <==> evaluation !in Evaluations && content == ""
    ensures r.Failure? ==> r.error == EmptyComment
  {
    if evaluation != 1 && evaluation != 2 && evaluation != 3 && content == "" then Failure(EmptyComment)
    else Success
  }

  /** Whether an SMS announces a pass or a rejection. */
  datatype SmsType = Accept | Reject

  /** A validated SendSMSOpts: both steps are known, aids is non-empty. */
  datatype SmsOpts = SmsOpts(
    kind: SmsType,
    current: Step,
    next: Step,
    time: string,
    place: string,
    meetingId: string,
    rest: string,
    aids: seq<string>)

  /** A Chinese step label is replaced by its English key; anything else is
      kept. */
  function Translate(s: string): (t: string)
    ensures ZhToEn(s).Some? ==> t == StepKey(ZhToEn(s).value)
    ensures ZhToEn(s).None? ==> t == s
  {
    match ZhToEn(s)
    case Some(step) => StepKey(step)
    case None => s
  }

  /** SendSMSOpts.Validate: the type must be Accept or Reject; an empty next
      step defaults to the current one; Chinese labels are translated; aids
      must be non-empty; then next, then current must be step keys. */
  function ValidateSendSms(typ: string, current: string, next: string, time: string, place: string,
                           meetingId: string, rest: string, aids: seq<string>): (r: Result<SmsOpts, Error>)
    ensures r.Ok? <==>
      (typ == "Accept" || typ == "Reject") && |aids| > 0 &&
      ParseStep(Translate(if next == "" then current else next)).Some? &&
      ParseStep(Translate(current)).Some?
    ensures r.Ok? ==>
      StepKey(r.value.current) == Translate(current) &&
      StepKey(r.value.next) == Translate(if next == "" then current else next) &&
      (r.value.kind == Accept <==> typ == "Accept") &&
      r.value.aids == aids && r.value.time == time && r.value.place == place &&
      r.value.meetingId == meetingId && r.value.rest == rest
    ensures typ != "Accept" && typ != "Reject" ==> r == Err(BadSmsType)
    ensures (typ == "Accept" || typ == "Reject") && |aids| == 0 ==> r == Err(MissingAids)
    ensures r.Err? ==> r.error in {BadSmsType, MissingAids, BadNextStep, BadCurrentStep}
  {
    if typ != "Accept" && typ != "Reject" then Err(BadSmsType)
    else
      var next' := Translate(if next == "" then current else next);
      var current' := Translate(current);
      if |aids| == 0 then Err(MissingAids)
      else
        match ParseStep(next')
        case None => Err(BadNextStep)
        case Some(n) =>
          match ParseStep(current')
          case None => Err(BadCurrentStep)
          case Some(c) =>
            Ok(SmsOpts(if typ == "Accept" then Accept else Reject, c, n, time, place, meetingId, rest, aids))
  }

  /** Naming the steps by their English keys or by their Chinese labels
      gives the same options, except for the team interview whose label is
      not in the reverse table. */
  lemma SendSmsAcceptsLabels(typ: string, cur: Step, nxt: Step, aids: seq<string>)
    requires typ == "Accept" || typ == "Reject"
    requires |aids| > 0
    requires cur != TeamInterview && nxt != TeamInterview
    ensures var r := ValidateSendSms(typ, EnToZh(cur), EnToZh(nxt), "", "", "", "", aids);
      r.Ok? && r.value.current == cur && r.value.next == nxt
    ensures ValidateSendSms(typ, EnToZh(cur), EnToZh(nxt), "", "", "", "", aids) ==
            ValidateSendSms(typ, StepKey(cur), StepKey(nxt), "", "", "", "", aids)
  {
    ZhRoundTrip(cur);
    ZhRoundTrip(nxt);
    KeysAreNotLabels(cur);
    KeysAreNotLabels(nxt);
    ParseStepKey(cur);
    ParseStepKey(nxt);
  }

  /** An omitted next step is the current one. */
  lemma SendSmsDefaultsNext(typ: string, cur: Step, aids: seq<string>)
    requires typ == "Accept" || typ == "Reject"
    requires |aids| > 0
    ensures var r := ValidateSendSms(typ, StepKey(cur), "", "", "", "", "", aids);
      r.Ok? && r.value.next == cur && r.value.current == cur
  {
    KeysAreNotLabels(cur);
    ParseStepKey(cur);
  }

  /** The label of the team interview is refused as a next step. */
  lemma SendSmsRefusesTeamLabel(typ: string, cur: Step, aids: seq<string>)
    requires typ == "Accept" || typ == "Reject"
    requires |aids| > 0
    ensures ValidateSendSms(typ, StepKey(cur), EnToZh(TeamInterview), "", "", "", "", aids) == Err(BadNextStep)
  {
    ZhRoundTrip(TeamInterview);
  }
}

=== FILE: recname.dfy ===
/** Recruitment titles such as "2023A": a four-byte year followed by a
    season letter (or its Chinese character). */
module RecruitmentName {
  import opened Wrappers
  import opened Errors
  import opened Strings

  const SpringLabel: string := "春季招新"
  const CampLabel: string := "夏令营招新"
  const AutumnLabel: string := "秋季招新"

  /** The season table; keys absent from it read as "" (a Go map's zero value). */
  const Seasons: map<string, string> :=
    map["S" := SpringLabel, "C" := CampLabel, "A" := AutumnLabel,
        "春" := SpringLabel, "夏" := CampLabel, "秋" := AutumnLabel]

  function SeasonLabel(k: string): string {
    if k in Seasons then Seasons[k] else ""
  }

  /** The Latin letter and the Chinese character of each season name the
      same label. */
  lemma SeasonKeysPairwise()
    ensures SeasonLabel("S") == SeasonLabel("春") == SpringLabel
    ensures SeasonLabel("C") == SeasonLabel("夏") == CampLabel
    ensures SeasonLabel("A") == SeasonLabel("秋") == AutumnLabel
    ensures forall k :: k in Seasons ==> Seasons[k] != ""
  {
  }

  /** `title` is a four-byte year followed by a season key. */
  predicate SeasonTitle(title: string, year: string, k: string) {
    title == year + k && ByteLen(year) == 4 && k in Seasons
  }

  /** ConvertRecruitmentName: replace a known season suffix after the first
      four bytes by its label; any other title is returned unchanged.
      Go panics on titles shorter than four bytes. */
  function ConvertRecruitmentName(title: string): (r: string)
    requires ByteLen(title) >= 4
    ensures r == title || exists year, k :: SeasonTitle(title, year, k) && r == year + Seasons[k]
  {
    // None: byte four falls inside a multi-byte character, so the suffix
    // starts with a continuation byte and no key can match
    match SplitAtByte(title, 4)
    case None => title
    case Some(parts) =>
      var suffix := SeasonLabel(parts.1);
      if suffix == "" then title else assert SeasonTitle(title, parts.0, parts.1); parts.0 + suffix
  }

  /** A four-byte year followed by a known key converts to year + label. */
  lemma ConvertKnownSeason(year: string, k: string)
    requires ByteLen(year) == 4 && k in Seasons
    ensures ByteLen(year + k) >= 4
    ensures ConvertRecruitmentName(year + k) == year + Seasons[k]
  {
    ByteLenConcat(year, k);
    SplitAtByteOfConcat(year, k);
  }

  /** A four-byte year followed by anything that is not a key is left alone. */
  lemma ConvertUnknownSeason(year: string, k: string)
    requires ByteLen(year) == 4 && k !in Seasons
    ensures ByteLen(year + k) >= 4
    ensures ConvertRecruitmentName(year + k) == year + k
  {
    ByteLenConcat(year, k);
    SplitAtByteOfConcat(year, k);
  }

  /** CheckNameValid: a name is accepted exactly when it is five bytes long.
      The Go code also runs a format regular expression but discards its
      match result, so the format is never enforced. */
  function CheckNameValid(name: string): (r: Outcome<Error>)
    ensures r.Success? <==> ByteLen(name) == 5
    ensures r.Failure? ==> r.error == BadName
  {
    if ByteLen(name) != 5 then Failure(BadName) else Success
  }

  /** Names the format was meant to refuse are accepted, while a Chinese
      season character makes an otherwise well-formed name too long. */
  lemma NameCheckExamples()
    ensures CheckNameValid("2023A").Success?
    ensures CheckNameValid("hello").Success?
    ensures CheckNameValid("2023秋").Failure?
  {
  }
}

=== FILE: reconcile.dfy ===
/** Reconciling a group's interview slots with the list a member submits:
    requests with a uid update that slot, requests without one create a slot,
    stored slots the list leaves out are deleted — except that a slot some
    candidate has selected or been allocated is never moved or removed. */
module Reconcile {
  import opened Wrappers
  import opened Errors
  import opened Constants
  import opened Model
  import TimeUtil
  import opened InterviewStore
  import Roles

  /** checkInterviewGroupName: the team-wide slots are open to every member;
      a group's slots only to that group's members. */
  function CheckInterviewGroupName(userGroups: seq<string>, name: string): (r: Outcome<Error>)
    ensures r.Success? <==> name == Unique || name in userGroups
    ensures r.Failure? ==> r.error == OtherGroupSlot
  {
    if name != Unique && !Roles.CheckInGroups(userGroups, name) then Failure(OtherGroupSlot) else Success
  }

  /** checkUpdateInterview as written: the stored start and end are compared
      with the requested date instead of the requested start and end. */
  function CheckUpdateInterviewAsWritten(origin: Interview, iv: Interview): (r: bool)
    ensures r <==> origin.date == iv.date && origin.period == iv.period &&
                   origin.start == origin.date && origin.end == origin.date
  {
    origin.date == iv.date && origin.start == iv.date && origin.end == iv.date && origin.period == iv.period
  }

  /** The as-written check never reads the request's start and end. */
  lemma AsWrittenIgnoresRequestTimes(origin: Interview, iv: Interview, start: int, end: int)
    ensures CheckUpdateInterviewAsWritten(origin, iv) == CheckUpdateInterviewAsWritten(origin, iv.(start := start, end := end))
  {
  }

  /** checkUpdateInterview as intended: the request keeps the slot's date,
      start, end and period. */
  function SameTimes(origin: Interview, iv: Interview): (r: bool)
    ensures r <==> origin.(date := iv.date, period := iv.period, start := iv.start, end := iv.end) == origin
  {
    origin.date == iv.date && origin.start == iv.start && origin.end == iv.end && origin.period == iv.period
  }

  /** The discrepancy: a request that repeats a locked slot exactly is
      refused as written whenever the slot does not start and end at its
      date's midnight (every real slot), and accepted as intended. */
  lemma IdenticalRequestRefused(origin: Interview)
    requires origin.start != origin.date
    ensures !CheckUpdateInterviewAsWritten(origin, origin)
    ensures SameTimes(origin, origin)
  {
  }

  /** As written, the check accepts a request that moves a slot's start and
      end, as long as the old slot started and ended at its date. */
  lemma AsWrittenAcceptsMovedSlot(origin: Interview, iv: Interview)
    requires origin.start == origin.end == origin.date
    requires iv.date == origin.date && iv.period == origin.period && iv.start != origin.start
    ensures CheckUpdateInterviewAsWritten(origin, iv)
    ensures !SameTimes(origin, iv)
  {
  }

  /** One element of the submitted list. An empty uid asks for a new slot. */
  datatype SlotRequest = SlotRequest(uid: string, date: int, period: string, start: int, end: int)

  function ToSlot(q: SlotRequest, name: string, rid: string): Interview {
    Interview(q.uid, q.date, q.period, name, q.start, q.end, rid)
  }

  function TimesOf(q: SlotRequest): SlotTimes {
    SlotTimes(q.date, q.period, q.start, q.end)
  }

  /** The index of the last request for uid `u`, or -1 when there is none. */
  function LastWith(reqs: seq<SlotRequest>, u: string): (j: int)
    ensures -1 <= j < |reqs|
    ensures j >= 0 ==> reqs[j].uid == u
    ensures forall k :: j < k < |reqs| ==> reqs[k].uid != u
    decreases |reqs|
  {
    if |reqs| == 0 then -1
    else if reqs[|reqs| - 1].uid == u then |reqs| - 1
    else
      var j := LastWith(reqs[..|reqs| - 1], u);
      assert forall k :: 0 <= k < |reqs| - 1 ==> reqs[..|reqs| - 1][k] == reqs[k];
      j
  }

  /** The update half of the list: requests carrying a uid, keyed by it; a
      later request for the same uid replaces an earlier one. */
  function UpdatesOf(reqs: seq<SlotRequest>, name: string, rid: string): (m: map<string, Interview>)
    ensures forall u :: u in m <==> u != "" && LastWith(reqs, u) >= 0
    ensures forall u :: u in m ==> m[u] == ToSlot(reqs[LastWith(reqs, u)], name, rid)
    ensures forall u :: u in m ==> m[u].uid == u && m[u].name == name && m[u].rid == rid
    decreases |reqs|
  {
    if |reqs| == 0 then map[]
    else
      var prefix := reqs[..|reqs| - 1];
      var q := reqs[|reqs| - 1];
      var m := UpdatesOf(prefix, name, rid);
      assert forall u :: u != q.uid ==> LastWith(reqs, u) == LastWith(prefix, u);
      assert forall i :: 0 <= i < |prefix| ==> prefix[i] == reqs[i];
      if q.uid != "" then m[q.uid := ToSlot(q, name, rid)] else m
  }

  /** The create half of the list: the times of the requests without a uid,
      in order. */
  function CreatesOf(reqs: seq<SlotRequest>): (c: seq<SlotTimes>)
    ensures |c| <= |reqs|
    ensures forall t :: t in c <==>
      exists i :: 0 <= i < |reqs| && reqs[i].uid == "" && t == TimesOf(reqs[i])
    decreases |reqs|
  {
    if |reqs| == 0 then []
    else
      var rest := CreatesOf(reqs[1..]);
      assert forall i :: 1 <= i < |reqs| ==> reqs[i] == reqs[1..][i - 1];
      var q := reqs[0];
      if q.uid == "" then [TimesOf(q)] + rest else rest
  }

  /** The new slots, each with the next fresh uid. */
  function StampAll(c: seq<SlotTimes>, ids: seq<string>, name: string, rid: string): (s: seq<Interview>)
    requires |ids| >= |c|
    ensures |s| == |c|
    ensures forall i :: 0 <= i < |c| ==> s[i] == Stamp(c[i], ids[i], name, rid)
  {
    seq(|c|, i requires 0 <= i < |c| => Stamp(c[i], ids[i], name, rid))
  }

  /** The uids of the query result, in order. */
  function RowIds(rows: seq<Interview>): (r: seq<string>)
    ensures |r| == |rows| && forall i :: 0 <= i < |rows| ==> r[i] == rows[i].uid
    ensures forall u :: u in r <==> u in Uids(rows)
  {
    var r := seq(|rows|, i requires 0 <= i < |rows| => rows[i].uid);
    assert forall u :: u in Uids(rows) ==> u in r by {
      forall u | u in Uids(rows) ensures u in r {
        var x :| x in rows && x.uid == u;
        var i :| 0 <= i < |rows| && rows[i] == x;
        assert r[i] == u;
      }
    }
    r
  }

  /** The stored slots of one recruitment and group, as the query returns
      them: each exactly once, with its stored values. */
  predicate IsGroupQuery(st: Store, rid: string, name: string, rows: seq<Interview>) {
    (forall i :: 0 <= i < |rows| ==>
       rows[i].uid in st.interviews && st.interviews[rows[i].uid] == rows[i] &&
       rows[i].rid == rid && rows[i].name == name) &&
    (forall i, j :: 0 <= i < j < |rows| ==> rows[i].uid != rows[j].uid) &&
    (forall u :: u in st.interviews && st.interviews[u].rid == rid && st.interviews[u].name == name ==>
       u in Uids(rows))
  }

  /** A stored slot belongs to the group being reconciled. */
  predicate InGroup(st: Store, u: string, rid: string, name: string)
    requires u in st.interviews
  {
    st.interviews[u].rid == rid && st.interviews[u].name == name
  }

  /** The state carried through the loop over the stored slots. */
  datatype LoopState = LoopState(store: Store, toDel: seq<string>, errors: seq<Error>)

  /** A slot after an update request is applied to it. */
  function Applied(o: Interview, iv: Interview): (n: Interview)
    ensures n.uid == o.uid && n.rid == o.rid
    ensures SameTimes(o, iv) && iv.name == o.name ==> n == o
  {
    o.(date := iv.date, period := iv.period, start := iv.start, end := iv.end, name := iv.name)
  }

  /** One pass of the loop, for the stored slot `o`. */
  function Visit(acc: LoopState, o: Interview, updates: map<string, Interview>, locked: set<string>,
                 unmoved: (Interview, Interview) -> bool): (r: LoopState)
    requires o.uid in acc.store.interviews
    requires o.uid in updates ==> updates[o.uid].uid == o.uid
    ensures r.store.recruitments == acc.store.recruitments && r.store.applications == acc.store.applications &&
            r.store.selections == acc.store.selections && r.store.interviews.Keys == acc.store.interviews.Keys
    ensures forall k :: k in acc.store.interviews && k != o.uid ==> r.store.interviews[k] == acc.store.interviews[k]
    ensures r.toDel == acc.toDel + (if o.uid !in updates && o.uid !in locked then [o.uid] else [])
    ensures |acc.errors| <= |r.errors| <= |acc.errors| + 1 && r.errors[..|acc.errors|] == acc.errors
    ensures forall e :: e in acc.errors ==> e in r.errors
    ensures forall i :: |acc.errors| <= i < |r.errors| ==>
      (r.errors[i] == SlotLocked(o.uid) && o.uid in locked && (o.uid !in updates || !unmoved(o, updates[o.uid]))) ||
      r.errors[i] == SlotWriteFailed
    ensures o.uid in locked && (o.uid !in updates || !unmoved(o, updates[o.uid])) ==>
      SlotLocked(o.uid) in r.errors && r.store.interviews[o.uid] == acc.store.interviews[o.uid]
    ensures o.uid !in updates ==> r.store.interviews[o.uid] == acc.store.interviews[o.uid]
    ensures o.uid in updates && (o.uid !in locked || unmoved(o, updates[o.uid])) ==>
      r.store.interviews[o.uid] == Applied(acc.store.interviews[o.uid], updates[o.uid]) ||
      (r.store.interviews[o.uid] == acc.store.interviews[o.uid] && SlotWriteFailed in r.errors)
  {
    var u := o.uid;
    if u in updates then
      if u in locked && !unmoved(o, updates[u]) then acc.(errors := acc.errors + [SlotLocked(u)])
      else
        match UpdateInterview(acc.store, updates[u])
        case Err(_) => acc.(errors := acc.errors + [SlotWriteFailed])
        case Ok(s) => acc.(store := s)
    else if u in locked then acc.(errors := acc.errors + [SlotLocked(u)])
    else acc.(toDel := acc.toDel + [u])
  }

  /** Each slot of the query result is stored, with its stored values, once. */
  predicate StoredRows(st: Store, rows: seq<Interview>) {
    (forall i :: 0 <= i < |rows| ==> rows[i].uid in st.interviews && st.interviews[rows[i].uid] == rows[i]) &&
    (forall i, j :: 0 <= i < j < |rows| ==> rows[i].uid != rows[j].uid)
  }

  /** Loop property: only stored slots of the query change, and no table
      other than the slots table. */
  predicate FrameKept(st: Store, rows: seq<Interview>, n: LoopState) {
    n.store.recruitments == st.recruitments && n.store.applications == st.applications &&
    n.store.selections == st.selections && n.store.interviews.Keys == st.interviews.Keys &&
    forall u :: u in st.interviews && u !in Uids(rows) ==> n.store.interviews[u] == st.interviews[u]
  }

  /** Loop property: the slots marked for deletion are exactly the unlocked
      stored slots the list leaves out. */
  ghost predicate ToDelExact(rows: seq<Interview>, updates: map<string, Interview>, locked: set<string>, n: LoopState) {
    forall u :: u in n.toDel <==> u in Uids(rows) && u !in updates && u !in locked
  }

  /** Loop property: every error names a locked stored slot the list moves
      or leaves out, or is a refused update. */
  predicate ErrorsExplained(st: Store, rows: seq<Interview>, updates: map<string, Interview>, locked: set<string>,
                            unmoved: (Interview, Interview) -> bool, n: LoopState) {
    forall e :: e in n.errors ==>
      (e.SlotLocked? && e.iid in locked && e.iid in Uids(rows) && e.iid in st.interviews &&
       (e.iid !in updates || !unmoved(st.interviews[e.iid], updates[e.iid]))) ||
      e == SlotWriteFailed
  }

  /** Loop property: what happened to each stored slot. A locked slot the
      list moves or leaves out is reported and kept; a slot the list leaves
      out is not touched (yet); a slot the list may update is updated, or
      kept with a reported write failure. */
  predicate RowsHandled(rows: seq<Interview>, updates: map<string, Interview>, locked: set<string>,
                       unmoved: (Interview, Interview) -> bool, n: LoopState) {
    (forall i :: 0 <= i < |rows| && rows[i].uid in locked &&
                 (rows[i].uid !in updates || !unmoved(rows[i], updates[rows[i].uid])) ==>
       SlotLocked(rows[i].uid) in n.errors && rows[i].uid in n.store.interviews &&
       n.store.interviews[rows[i].uid] == rows[i]) &&
    (forall i :: 0 <= i < |rows| && rows[i].uid !in updates ==>
       rows[i].uid in n.store.interviews && n.store.interviews[rows[i].uid] == rows[i]) &&
    (forall i :: 0 <= i < |rows| && rows[i].uid in updates &&
                 (rows[i].uid !in locked || unmoved(rows[i], updates[rows[i].uid])) ==>
       rows[i].uid in n.store.interviews &&
       (n.store.interviews[rows[i].uid] == Applied(rows[i], updates[rows[i].uid]) ||
        (n.store.interviews[rows[i].uid] == rows[i] && SlotWriteFailed in n.errors)))
  }

  /** The loop of SetRecruitmentInterviews over the stored slots, in query
      order: each stored slot is updated, refused or marked for deletion. */
  function Loop(st: Store, rows: seq<Interview>, updates: map<string, Interview>, locked: set<string>,
                unmoved: (Interview, Interview) -> bool): (n: LoopState)
    requires StoredRows(st, rows)
    requires forall u :: u in updates ==> updates[u].uid == u
    ensures FrameKept(st, rows, n)
    ensures ToDelExact(rows, updates, locked, n)
    ensures ErrorsExplained(st, rows, updates, locked, unmoved, n)
    ensures RowsHandled(rows, updates, locked, unmoved, n)
    decreases |rows|
  {
    if |rows| == 0 then LoopState(st, [], [])
    else
      var prefix := rows[..|rows| - 1];
      var o := rows[|rows| - 1];
      var prev := Loop(st, prefix, updates, locked, unmoved);
      LoopStepShape(st, rows);
      assert prev.store.interviews[o.uid] == o;
      var n := Visit(prev, o, updates, locked, unmoved);
      LoopStepFrame(st, rows, updates, locked, unmoved, prev, n);
      LoopStepToDel(rows, updates, locked, unmoved, prev, n);
      LoopStepErrors(st, rows, updates, locked, unmoved, prev, n);
      LoopStepRows(st, rows, updates, locked, unmoved, prev, n);
      n
  }

  /** The last query row is new to the loop. */
  lemma LoopStepShape(st: Store, rows: seq<Interview>)
    requires StoredRows(st, rows) && |rows| > 0
    ensures StoredRows(st, rows[..|rows| - 1])
    ensures Uids(rows) == Uids(rows[..|rows| - 1]) + {rows[|rows| - 1].uid}
    ensures rows[|rows| - 1].uid !in Uids(rows[..|rows| - 1])
  {
    var prefix := rows[..|rows| - 1];
    var o := rows[|rows| - 1];
    assert forall x :: x in rows <==> x in prefix || x == o;
    forall x | x in prefix ensures x.uid != o.uid {
      var i :| 0 <= i < |prefix| && prefix[i] == x;
      assert rows[i] == x;
    }
  }

  lemma LoopStepFrame(st: Store, rows: seq<Interview>, updates: map<string, Interview>, locked: set<string>,
                      unmoved: (Interview, Interview) -> bool,
                      prev: LoopState, n: LoopState)
    requires StoredRows(st, rows) && |rows| > 0
    requires forall u :: u in updates ==> updates[u].uid == u
    requires FrameKept(st, rows[..|rows| - 1], prev)
    requires rows[|rows| - 1].uid in prev.store.interviews
    requires n == Visit(prev, rows[|rows| - 1], updates, locked, unmoved)
    ensures FrameKept(st, rows, n)
  {
    LoopStepShape(st, rows);
  }

  lemma LoopStepToDel(rows: seq<Interview>, updates: map<string, Interview>, locked: set<string>,
                      unmoved: (Interview, Interview) -> bool,
                      prev: LoopState, n: LoopState)
    requires |rows| > 0
    requires forall u :: u in updates ==> updates[u].uid == u
    requires Uids(rows) == Uids(rows[..|rows| - 1]) + {rows[|rows| - 1].uid}
    requires ToDelExact(rows[..|rows| - 1], updates, locked, prev)
    requires rows[|rows| - 1].uid in prev.store.interviews
    requires n == Visit(prev, rows[|rows| - 1], updates, locked, unmoved)
    ensures ToDelExact(rows, updates, locked, n)
  {
  }

  lemma LoopStepErrors(st: Store, rows: seq<Interview>, updates: map<string, Interview>, locked: set<string>,
                      unmoved: (Interview, Interview) -> bool,
                       prev: LoopState, n: LoopState)
    requires |rows| > 0
    requires rows[|rows| - 1].uid in st.interviews && st.interviews[rows[|rows| - 1].uid] == rows[|rows| - 1]
    requires forall u :: u in updates ==> updates[u].uid == u
    requires Uids(rows) == Uids(rows[..|rows| - 1]) + {rows[|rows| - 1].uid}
    requires ErrorsExplained(st, rows[..|rows| - 1], updates, locked, unmoved, prev)
    requires rows[|rows| - 1].uid in prev.store.interviews
    requires n == Visit(prev, rows[|rows| - 1], updates, locked, unmoved)
    ensures ErrorsExplained(st, rows, updates, locked, unmoved, n)
  {
    var k := |prev.errors|;
    forall e | e in n.errors
      ensures (e.SlotLocked? && e.iid in locked && e.iid in Uids(rows) && e.iid in st.interviews &&
               (e.iid !in updates || !unmoved(st.interviews[e.iid], updates[e.iid]))) ||
              e == SlotWriteFailed
    {
      var i :| 0 <= i < |n.errors| && n.errors[i] == e;
      if i < k {
        assert n.errors[..k][i] == e;
      }
    }
  }

  lemma LoopStepRows(st: Store, rows: seq<Interview>, updates: map<string, Interview>, locked: set<string>,
                      unmoved: (Interview, Interview) -> bool,
                     prev: LoopState, n: LoopState)
    requires StoredRows(st, rows) && |rows| > 0
    requires forall u :: u in updates ==> updates[u].uid == u
    requires rows[|rows| - 1].uid !in Uids(rows[..|rows| - 1])
    requires RowsHandled(rows[..|rows| - 1], updates, locked, unmoved, prev)
    requires rows[|rows| - 1].uid in prev.store.interviews
    requires prev.store.interviews[rows[|rows| - 1].uid] == rows[|rows| - 1]
    requires n == Visit(prev, rows[|rows| - 1], updates, locked, unmoved)
    ensures RowsHandled(rows, updates, locked, unmoved, n)
  {
    var prefix := rows[..|rows| - 1];
    var o := rows[|rows| - 1];
    forall i | 0 <= i < |prefix|
      ensures rows[i] == prefix[i] && rows[i].uid != o.uid
    {
      assert prefix[i] in prefix;
    }
    forall i | 0 <= i < |rows| && rows[i].uid in locked &&
               (rows[i].uid !in updates || !unmoved(rows[i], updates[rows[i].uid]))
      ensures SlotLocked(rows[i].uid) in n.errors && rows[i].uid in n.store.interviews &&
              n.store.interviews[rows[i].uid] == rows[i]
    {
      if i < |prefix| {
        assert SlotLocked(prefix[i].uid) in prev.errors;
      }
    }
    forall i | 0 <= i < |rows| && rows[i].uid !in updates
      ensures rows[i].uid in n.store.interviews && n.store.interviews[rows[i].uid] == rows[i]
    {
      if i < |prefix| {
        assert prev.store.interviews[prefix[i].uid] == prefix[i];
      }
    }
    forall i | 0 <= i < |rows| && rows[i].uid in updates &&
               (rows[i].uid !in locked || unmoved(rows[i], updates[rows[i].uid]))
      ensures rows[i].uid in n.store.interviews &&
              (n.store.interviews[rows[i].uid] == Applied(rows[i], updates[rows[i].uid]) ||
               (n.store.interviews[rows[i].uid] == rows[i] && SlotWriteFailed in n.errors))
    {
      if i < |prefix| {
        assert prev.store.interviews[prefix[i].uid] == Applied(prefix[i], updates[prefix[i].uid]) ||
               (prev.store.interviews[prefix[i].uid] == prefix[i] && SlotWriteFailed in prev.errors);
      }
    }
  }

  /** The slot index of the query row with uid `u`. */
  lemma RowIndex(rows: seq<Interview>, u: string) returns (i: int)
    requires u in Uids(rows)
    ensures 0 <= i < |rows| && rows[i].uid == u
  {
    var x :| x in rows && x.uid == u;
    i :| 0 <= i < |rows| && rows[i] == x;
  }

  /** No request of the list names slot `u`. */
  predicate Unrequested(reqs: seq<SlotRequest>, u: string) {
    forall i :: 0 <= i < |reqs| ==> reqs[i].uid != u
  }

  /** Some request of the list names stored slot `u`. */
  predicate Requested(reqs: seq<SlotRequest>, u: string) {
    u != "" && LastWith(reqs, u) >= 0
  }

  /** The request for `u` that takes effect: the last one. */
  function LastRequest(reqs: seq<SlotRequest>, u: string): (q: SlotRequest)
    requires Requested(reqs, u)
    ensures q in reqs && q.uid == u
  {
    reqs[LastWith(reqs, u)]
  }

  /** An update check that lets through only requests keeping a slot's
      date, period, start and end. */
  ghost predicate KeepsTimes(unmoved: (Interview, Interview) -> bool) {
    forall a, b :: unmoved(a, b) ==> SameTimes(a, b)
  }

  /** The intended check keeps times; the check as written does not. */
  lemma KeepsTimesOnlyIntended()
    ensures KeepsTimes(SameTimes)
    ensures !KeepsTimes(CheckUpdateInterviewAsWritten)
  {
    var o := Interview("s", 0, "morning", "web", 0, 0, "r");
    var q := o.(start := 1);
    assert CheckUpdateInterviewAsWritten(o, q) && !SameTimes(o, q);
  }

  /** The work of SetRecruitmentInterviews once its guards have passed: the
      loop over the group's stored slots, then one batch that inserts the new
      slots and deletes the left-out ones. A failed batch adds one error.
      `unmoved` is the check that lets a locked slot be rewritten. */
  function Reconciled(st: Store, rid: string, name: string, reqs: seq<SlotRequest>, ids: seq<string>,
                      rows: seq<Interview>, unmoved: (Interview, Interview) -> bool): (r: Report)
    requires |ids| >= |reqs|
    requires IsGroupQuery(st, rid, name, rows)
    ensures r.store.recruitments == st.recruitments && r.store.applications == st.applications &&
            r.store.selections == st.selections
    ensures forall u :: u in st.interviews && !InGroup(st, u, rid, name) ==>
      u in r.store.interviews && r.store.interviews[u] == st.interviews[u]
    ensures forall u :: u in st.interviews && Referenced(st, u) ==> u in r.store.interviews
    ensures KeepsTimes(unmoved) ==>
      forall u :: u in st.interviews && Referenced(st, u) ==> r.store.interviews[u] == st.interviews[u]
    ensures forall u :: u in st.interviews && InGroup(st, u, rid, name) && Referenced(st, u) &&
                        (!Requested(reqs, u) || !unmoved(st.interviews[u], ToSlot(LastRequest(reqs, u), name, rid))) ==>
      SlotLocked(u) in r.errors
    ensures forall u :: u in st.interviews && InGroup(st, u, rid, name) && Requested(reqs, u) &&
                        (!Referenced(st, u) || unmoved(st.interviews[u], ToSlot(LastRequest(reqs, u), name, rid))) ==>
      u in r.store.interviews &&
      (r.store.interviews[u] == Applied(st.interviews[u], ToSlot(LastRequest(reqs, u), name, rid)) ||
       (r.store.interviews[u] == st.interviews[u] && SlotWriteFailed in r.errors))
    ensures forall u :: u in st.interviews && u !in r.store.interviews ==>
      InGroup(st, u, rid, name) && !Requested(reqs, u) && !Referenced(st, u)
    ensures forall e :: e in r.errors ==>
      (e.SlotLocked? && e.iid in st.interviews && InGroup(st, e.iid, rid, name) && Referenced(st, e.iid) &&
       (!Requested(reqs, e.iid) || !unmoved(st.interviews[e.iid], ToSlot(LastRequest(reqs, e.iid), name, rid)))) ||
      e == SlotWriteFailed || e == BatchWriteFailed
  {
    var n := ReconcileLoop(st, rid, name, reqs, rows, unmoved);
    var b := AddAndDeleteInterviews(n.store, StampAll(CreatesOf(reqs), ids, name, rid), n.toDel);
    Report(b.store, n.errors + (if b.errors == [] then [] else [BatchWriteFailed]))
  }

  /** The batch of a reconciliation that reports no batch failure went
      through without error, and its store is the result. */
  lemma ReconciledBatchOk(st: Store, rid: string, name: string, reqs: seq<SlotRequest>, ids: seq<string>,
                          rows: seq<Interview>, unmoved: (Interview, Interview) -> bool)
    requires |ids| >= |reqs|
    requires IsGroupQuery(st, rid, name, rows)
    requires BatchWriteFailed !in Reconciled(st, rid, name, reqs, ids, rows, unmoved).errors
    ensures var n := ReconcileLoop(st, rid, name, reqs, rows, unmoved);
      var b := AddAndDeleteInterviews(n.store, StampAll(CreatesOf(reqs), ids, name, rid), n.toDel);
      b.errors == [] && Reconciled(st, rid, name, reqs, ids, rows, unmoved).store == b.store
  {
    var n := ReconcileLoop(st, rid, name, reqs, rows, unmoved);
    var b := AddAndDeleteInterviews(n.store, StampAll(CreatesOf(reqs), ids, name, rid), n.toDel);
    assert Reconciled(st, rid, name, reqs, ids, rows, unmoved).errors ==
           n.errors + (if b.errors == [] then [] else [BatchWriteFailed]);
  }

  /** When the batch succeeds, the left-out unreferenced slots of the group
      are gone. */
  lemma ReconciledDeletes(st: Store, rid: string, name: string, reqs: seq<SlotRequest>, ids: seq<string>,
                          rows: seq<Interview>, unmoved: (Interview, Interview) -> bool)
    requires |ids| >= |reqs|
    requires IsGroupQuery(st, rid, name, rows)
    requires BatchWriteFailed !in Reconciled(st, rid, name, reqs, ids, rows, unmoved).errors
    ensures var r := Reconciled(st, rid, name, reqs, ids, rows, unmoved);
      forall u :: u in st.interviews && InGroup(st, u, rid, name) && !Requested(reqs, u) && !Referenced(st, u) ==>
        u !in r.store.interviews
  {
    ReconciledBatchOk(st, rid, name, reqs, ids, rows, unmoved);
    var n := ReconcileLoop(st, rid, name, reqs, rows, unmoved);
    var toAdd := StampAll(CreatesOf(reqs), ids, name, rid);
    var b := AddAndDeleteInterviews(n.store, toAdd, n.toDel);
    AddAndDeleteContents(n.store, toAdd, n.toDel);
    forall u | u in st.interviews && InGroup(st, u, rid, name) && !Requested(reqs, u) && !Referenced(st, u)
      ensures u !in b.store.interviews
    {
      assert u in n.toDel;
    }
  }

  /** When the batch succeeds, every new slot is stored under its fresh uid. */
  lemma ReconciledCreates(st: Store, rid: string, name: string, reqs: seq<SlotRequest>, ids: seq<string>,
                          rows: seq<Interview>, unmoved: (Interview, Interview) -> bool)
    requires |ids| >= |reqs|
    requires IsGroupQuery(st, rid, name, rows)
    requires BatchWriteFailed !in Reconciled(st, rid, name, reqs, ids, rows, unmoved).errors
    ensures var r := Reconciled(st, rid, name, reqs, ids, rows, unmoved);
      var c := CreatesOf(reqs);
      forall i :: 0 <= i < |c| ==>
        ids[i] !in st.interviews && ids[i] in r.store.interviews && r.store.interviews[ids[i]] == Stamp(c[i], ids[i], name, rid)
  {
    ReconciledBatchOk(st, rid, name, reqs, ids, rows, unmoved);
    var n := ReconcileLoop(st, rid, name, reqs, rows, unmoved);
    var c := CreatesOf(reqs);
    var toAdd := StampAll(c, ids, name, rid);
    var b := AddAndDeleteInterviews(n.store, toAdd, n.toDel);
    AddAndDeleteContents(n.store, toAdd, n.toDel);
    if |toAdd| > 0 {
      assert InsertAll(n.store, toAdd).Ok?;
      forall i | 0 <= i < |c|
        ensures ids[i] !in st.interviews && ids[i] in b.store.interviews &&
                b.store.interviews[ids[i]] == Stamp(c[i], ids[i], name, rid)
      {
        assert toAdd[i].uid == ids[i];
        assert ids[i] !in n.store.interviews;
        assert ids[i] !in n.toDel;
      }
    }
  }

  /** The loop stage of the reconciliation, stated in terms of the request
      list and of which slots are referenced: what it does to each stored
      slot of the group, and which slots it queues for the batch delete. */
  function ReconcileLoop(st: Store, rid: string, name: string, reqs: seq<SlotRequest>,
                         rows: seq<Interview>, unmoved: (Interview, Interview) -> bool): (n: LoopState)
    requires IsGroupQuery(st, rid, name, rows)
    ensures n.store.recruitments == st.recruitments && n.store.applications == st.applications &&
            n.store.selections == st.selections && n.store.interviews.Keys == st.interviews.Keys
    ensures forall u :: u in st.interviews && (!InGroup(st, u, rid, name) || !Requested(reqs, u)) ==>
      n.store.interviews[u] == st.interviews[u]
    ensures forall u :: u in n.toDel <==>
      u in st.interviews && InGroup(st, u, rid, name) && !Requested(reqs, u) && !Referenced(st, u)
    ensures KeepsTimes(unmoved) ==>
      forall u :: u in st.interviews && Referenced(st, u) ==> n.store.interviews[u] == st.interviews[u]
    ensures forall u :: u in st.interviews && InGroup(st, u, rid, name) && Referenced(st, u) &&
                        (!Requested(reqs, u) || !unmoved(st.interviews[u], ToSlot(LastRequest(reqs, u), name, rid))) ==>
      SlotLocked(u) in n.errors
    ensures forall u :: u in st.interviews && InGroup(st, u, rid, name) && Requested(reqs, u) &&
                        (!Referenced(st, u) || unmoved(st.interviews[u], ToSlot(LastRequest(reqs, u), name, rid))) ==>
      n.store.interviews[u] == Applied(st.interviews[u], ToSlot(LastRequest(reqs, u), name, rid)) ||
      (n.store.interviews[u] == st.interviews[u] && SlotWriteFailed in n.errors)
    ensures forall e :: e in n.errors ==>
      (e.SlotLocked? && e.iid in st.interviews && InGroup(st, e.iid, rid, name) && Referenced(st, e.iid) &&
       (!Requested(reqs, e.iid) || !unmoved(st.interviews[e.iid], ToSlot(LastRequest(reqs, e.iid), name, rid)))) ||
      e == SlotWriteFailed
  {
    var updates := UpdatesOf(reqs, name, rid);
    var locked := LockSet(st, RowIds(rows));
    var n := Loop(st, rows, updates, locked, unmoved);
    ReferencedKept(st, rid, name, rows, updates, locked, unmoved, n);
    n
  }

  /** After the loop, a referenced slot is stored and not marked for
      deletion; with a check that keeps times it is also unchanged. */
  lemma ReferencedKept(st: Store, rid: string, name: string, rows: seq<Interview>,
                       updates: map<string, Interview>, locked: set<string>,
                       unmoved: (Interview, Interview) -> bool, n: LoopState)
    requires IsGroupQuery(st, rid, name, rows)
    requires forall u :: u in updates ==> updates[u].uid == u && updates[u].name == name
    requires forall id :: id in locked <==> id in RowIds(rows) && Referenced(st, id)
    requires FrameKept(st, rows, n) && ToDelExact(rows, updates, locked, n) && RowsHandled(rows, updates, locked, unmoved, n)
    ensures forall u :: u in st.interviews && Referenced(st, u) ==> u in n.store.interviews && u !in n.toDel
    ensures KeepsTimes(unmoved) ==>
      forall u :: u in st.interviews && Referenced(st, u) ==> n.store.interviews[u] == st.interviews[u]
  {
    forall u | u in st.interviews && Referenced(st, u)
      ensures u in n.store.interviews && u !in n.toDel
      ensures KeepsTimes(unmoved) ==> n.store.interviews[u] == st.interviews[u]
    {
      if u in Uids(rows) {
        var i := RowIndex(rows, u);
        assert u in locked;
      }
    }
  }

  /** The guards of SetRecruitmentInterviews, in the order the handler checks
      them. An unknown recruitment reads as the empty record, which has
      ended. */
  function CheckSetInterviews(st: Store, rid: string, name: string, userGroups: seq<string>, now: int): (r: Outcome<Error>)
    ensures r.Success? <==>
      rid != "" && name in Groups && now <= LookupRecruitment(st, rid).end &&
      (name == Unique || name in userGroups)
    ensures rid == "" ==> r == Failure(MissingRid)
    ensures rid != "" && name !in Groups ==> r == Failure(BadGroup)
    ensures rid != "" && name in Groups && LookupRecruitment(st, rid).end < now ==> r == Failure(Ended)
    ensures rid != "" && name in Groups && rid !in st.recruitments && TimeUtil.ZeroTime < now ==> r == Failure(Ended)
    ensures r.Failure? ==> r.error in {MissingRid, BadGroup, Ended, OtherGroupSlot}
  {
    if rid == "" then Failure(MissingRid)
    else if name !in Groups then Failure(BadGroup)
    else if LookupRecruitment(st, rid).end < now then Failure(Ended)
    else CheckInterviewGroupName(userGroups, name)
  }

  /** SetRecruitmentInterviews as written: the guards, then the
      reconciliation with the update check as written. `now` is the clock,
      `userGroups` the caller's groups, `rows` the stored slots of the
      recruitment and group as the query returns them, and `ids` the fresh
      uids for new slots. */
  function SetRecruitmentInterviews(st: Store, rid: string, name: string, userGroups: seq<string>, now: int,
                                    reqs: seq<SlotRequest>, ids: seq<string>, rows: seq<Interview>): (r: Result<Report, Error>)
    requires |ids| >= |reqs|
    requires IsGroupQuery(st, rid, name, rows)
    ensures r.Err? <==> CheckSetInterviews(st, rid, name, userGroups, now).Failure?
    ensures r.Err? ==> r.error == CheckSetInterviews(st, rid, name, userGroups, now).error
    ensures r.Ok? ==> r.value == Reconciled(st, rid, name, reqs, ids, rows, CheckUpdateInterviewAsWritten)
  {
    match CheckSetInterviews(st, rid, name, userGroups, now)
    case Failure(e) => Err(e)
    case Success => Ok(Reconciled(st, rid, name, reqs, ids, rows, CheckUpdateInterviewAsWritten))
  }

  /** SetRecruitmentInterviews with the intended update check: a slot some
      candidate depends on is never moved or removed. */
  function SetRecruitmentInterviewsIntended(st: Store, rid: string, name: string, userGroups: seq<string>, now: int,
                                            reqs: seq<SlotRequest>, ids: seq<string>, rows: seq<Interview>): (r: Result<Report, Error>)
    requires |ids| >= |reqs|
    requires IsGroupQuery(st, rid, name, rows)
    ensures r.Err? <==> CheckSetInterviews(st, rid, name, userGroups, now).Failure?
    ensures r.Ok? ==>
      forall u :: u in st.interviews && Referenced(st, u) ==>
      u in r.value.store.interviews && r.value.store.interviews[u] == st.interviews[u]
    ensures r.Ok? ==> r.value == Reconciled(st, rid, name, reqs, ids, rows, SameTimes)
  {
    KeepsTimesOnlyIntended();
    match CheckSetInterviews(st, rid, name, userGroups, now)
    case Failure(e) => Err(e)
    case Success => Ok(Reconciled(st, rid, name, reqs, ids, rows, SameTimes))
  }

  /** With the intended check, submitting the slots exactly as stored,
      unchanged and none new, leaves every slot in place and reports nothing
      locked. */
  lemma ResubmitKeepsSlots(st: Store, rid: string, name: string, rows: seq<Interview>, ids: seq<string>)
    requires IsGroupQuery(st, rid, name, rows)
    requires forall i :: 0 <= i < |rows| ==> rows[i].uid != ""
    requires |ids| >= |rows|
    ensures var r := Reconciled(st, rid, name, AsRequests(rows), ids, rows, SameTimes);
      r.store.interviews.Keys >= st.interviews.Keys &&
      forall e :: e in r.errors ==> e == SlotWriteFailed || e == BatchWriteFailed
  {
    ResubmitRequestsAll(st, rid, name, rows);
  }

  /** As written, the same resubmission reports every referenced slot of the
      group that does not start at its date's midnight as locked. */
  lemma AsWrittenRefusesResubmit(st: Store, rid: string, name: string, rows: seq<Interview>, ids: seq<string>)
    requires IsGroupQuery(st, rid, name, rows)
    requires forall i :: 0 <= i < |rows| ==> rows[i].uid != ""
    requires |ids| >= |rows|
    ensures var r := Reconciled(st, rid, name, AsRequests(rows), ids, rows, CheckUpdateInterviewAsWritten);
      forall u :: u in st.interviews && InGroup(st, u, rid, name) && Referenced(st, u) &&
                  st.interviews[u].start != st.interviews[u].date ==>
        SlotLocked(u) in r.errors
  {
    ResubmitRequestsAll(st, rid, name, rows);
  }

  /** Written back as requests, every stored slot of the group is requested
      with exactly its stored values. */
  lemma ResubmitRequestsAll(st: Store, rid: string, name: string, rows: seq<Interview>)
    requires IsGroupQuery(st, rid, name, rows)
    requires forall i :: 0 <= i < |rows| ==> rows[i].uid != ""
    ensures forall u :: u in st.interviews && InGroup(st, u, rid, name) ==>
      Requested(AsRequests(rows), u) && ToSlot(LastRequest(AsRequests(rows), u), name, rid) == st.interviews[u]
  {
    var reqs := AsRequests(rows);
    forall u | u in st.interviews && InGroup(st, u, rid, name)
      ensures Requested(reqs, u) && ToSlot(LastRequest(reqs, u), name, rid) == st.interviews[u]
    {
      var i := RowIndex(rows, u);
      assert reqs[i].uid == u;
      var j := LastWith(reqs, u);
      assert rows[j].uid == u;
    }
  }

  /** The stored slots, written back as a request list. */
  function AsRequests(rows: seq<Interview>): (reqs: seq<SlotRequest>)
    ensures |reqs| == |rows|
    ensures forall i :: 0 <= i < |rows| ==>
      reqs[i] == SlotRequest(rows[i].uid, rows[i].date, rows[i].period, rows[i].start, rows[i].end)
  {
    seq(|rows|, i requires 0 <= i < |rows| => SlotRequest(rows[i].uid, rows[i].date, rows[i].period, rows[i].start, rows[i].end))
  }
}

=== FILE: recruitment_flow.dfy ===
/** The recruitment handlers: creation, what a member may see of a
    recruitment, and the object key of a recruitment's files. */
module RecruitmentFlow {
  import opened Wrappers
  import opened Errors
  import opened Constants
  import opened Model
  import opened Strings
  import opened TimeUtil
  import RecruitmentName
  import Options
  import Windows

  /** checkJoinTime: the member joined strictly before the recruitment
      began. The join time comes from the identity service as a year and a
      season letter; Go panics on shorter strings. A join time written as a
      four-digit year and a season passes exactly when the first day of that
      season lies before the beginning. */
  function CheckJoinTime(joinTime: string, beginning: int): (r: bool)
    requires ByteLen(joinTime) >= 4
    ensures forall y, season :: 1000 <= y <= 9999 && joinTime == FourDigits(y) + season ==>
              (r <==> ToUnix(Date(y, SeasonMonth(season), 1)) < beginning)
  {
    JoinTimesOfYears(joinTime);
    ToUnix(GetTimeByString(joinTime)) < beginning
  }

  /** A member who joined in season `season` of year `y` passes the check
      exactly when the first day of that season lies before the beginning. */
  lemma JoinedBeforeBeginning(y: int, season: string, beginning: int)
    requires 1000 <= y <= 9999
    ensures ByteLen(FourDigits(y) + season) >= 4
    ensures CheckJoinTime(FourDigits(y) + season, beginning) <==>
            ToUnix(Date(y, SeasonMonth(season), 1)) < beginning
  {
    JoinTimeOfYear(y, season);
  }

  /** A member who joined in a year's spring sees every recruitment a member
      who joined in the same year's summer camp or autumn sees. */
  lemma {:induction false} EarlierSeasonSeesMore(y: int, beginning: int)
    requires 1000 <= y <= 9999
    ensures ByteLen(FourDigits(y) + "S") >= 4 && ByteLen(FourDigits(y) + "C") >= 4 &&
            ByteLen(FourDigits(y) + "A") >= 4
    ensures CheckJoinTime(FourDigits(y) + "A", beginning) ==> CheckJoinTime(FourDigits(y) + "C", beginning)
    ensures CheckJoinTime(FourDigits(y) + "C", beginning) ==> CheckJoinTime(FourDigits(y) + "S", beginning)
  {
    JoinTimeOfYear(y, "S");
    JoinTimeOfYear(y, "C");
    JoinTimeOfYear(y, "A");
    SeasonStartsOrdered(y);
  }

  /** How much of a recruitment a caller is shown. */
  datatype View = Basic | Full

  /** GetRecruitmentById in the handler: a member who joined before the
      recruitment began sees the full record, anyone else the basic one. The
      join time is only consulted for members. */
  function GetRecruitmentView(st: Store, rid: string, isMember: bool, joinTime: string): (r: (Recruitment, View))
    requires isMember ==> ByteLen(joinTime) >= 4
    ensures r.0 == LookupRecruitment(st, rid)
    ensures r.1 == Full <==> isMember && CheckJoinTime(joinTime, LookupRecruitment(st, rid).beginning)
  {
    var rec := LookupRecruitment(st, rid);
    if isMember && CheckJoinTime(joinTime, rec.beginning) then (rec, Full) else (rec, Basic)
  }

  /** A non-member never sees the full record, and a member who joined later
      than the recruitment began sees only the basic one. */
  lemma VisibilityNeedsMembership(st: Store, rid: string, joinTime: string, y: int, season: string)
    requires ByteLen(joinTime) >= 4
    requires 1000 <= y <= 9999 && rid in st.recruitments
    requires ToUnix(Date(y, SeasonMonth(season), 1)) >= st.recruitments[rid].beginning
    ensures GetRecruitmentView(st, rid, false, joinTime).1 == Basic
    ensures ByteLen(FourDigits(y) + season) >= 4
    ensures GetRecruitmentView(st, rid, true, FourDigits(y) + season).1 == Basic
  {
    JoinTimeOfYear(y, season);
  }

  /** No two recruitments share a name. */
  ghost predicate UniqueNames(st: Store) {
    forall a, b :: a in st.recruitments && b in st.recruitments && st.recruitments[a].name == st.recruitments[b].name
      ==> a == b
  }

  predicate NameTaken(st: Store, name: string) {
    exists u :: u in st.recruitments && st.recruitments[u].name == name
  }

  /** CreateRecruitment: the time order, then the name, then the name's
      uniqueness, then the insert under the fresh uid `rid`. */
  function CreateRecruitment(st: Store, name: string, beginning: int, deadline: int, end: int, rid: string):
    (r: Result<Store, Error>)
    ensures !(beginning <= deadline <= end) ==> r == Err(BadTime)
    ensures beginning <= deadline <= end && ByteLen(name) != 5 ==> r == Err(BadName)
    ensures r.Ok? <==>
      beginning <= deadline <= end && ByteLen(name) == 5 && !NameTaken(st, name) && rid !in st.recruitments
    ensures r.Ok? ==>
      rid in r.value.recruitments && Windows.Ordered(r.value.recruitments[rid]) &&
      r.value.recruitments[rid].name == name && r.value.recruitments[rid].beginning == beginning &&
      r.value.recruitments[rid].deadline == deadline && r.value.recruitments[rid].end == end &&
      (forall u :: u in st.recruitments ==> u in r.value.recruitments && r.value.recruitments[u] == st.recruitments[u]) &&
      r.value.recruitments.Keys == st.recruitments.Keys + {rid} &&
      r.value.applications == st.applications && r.value.interviews == st.interviews &&
      r.value.selections == st.selections
  {
    match Options.ValidateCreateRec(beginning, deadline, end)
    case Failure(e) => Err(e)
    case Success =>
      match RecruitmentName.CheckNameValid(name)
      case Failure(e) => Err(e)
      case Success =>
        if NameTaken(st, name) || rid in st.recruitments then Err(Duplicate)
        else
          var rec := Recruitment(rid, name, beginning, deadline, end, ZeroTime, ZeroTime);
          Ok(st.(recruitments := st.recruitments[rid := rec]))
  }

  /** Creation keeps recruitment names unique. */
  lemma CreateKeepsNamesUnique(st: Store, name: string, beginning: int, deadline: int, end: int, rid: string)
    requires UniqueNames(st)
    requires CreateRecruitment(st, name, beginning, deadline, end, rid).Ok?
    ensures UniqueNames(CreateRecruitment(st, name, beginning, deadline, end, rid).value)
  {
    var st' := CreateRecruitment(st, name, beginning, deadline, end, rid).value;
    forall a, b | a in st'.recruitments && b in st'.recruitments && st'.recruitments[a].name == st'.recruitments[b].name
      ensures a == b
    {
      if a != rid && b != rid {
      } else if a == rid && b != rid {
        assert false;
      } else if a != rid && b == rid {
        assert false;
      }
    }
  }

  /** A created recruitment never reports "ended" from the submission check. */
  lemma CreatedNeverEndsEarly(st: Store, name: string, beginning: int, deadline: int, end: int, rid: string,
                              now: int)
    requires CreateRecruitment(st, name, beginning, deadline, end, rid).Ok?
    ensures Windows.CheckInBtoD(CreateRecruitment(st, name, beginning, deadline, end, rid).value.recruitments[rid], now)
            != Failure(Ended)
  {
    Windows.EndedUnreachable(CreateRecruitment(st, name, beginning, deadline, end, rid).value.recruitments[rid], now);
  }

  /** The object key of a recruitment file: name / group / type ".pdf". */
  function RecFileKey(recName: string, group: string, typ: string): (k: string)
    ensures |k| == |recName| + |group| + |typ| + 6
    ensures k[|k| - 4..] == ".pdf"
  {
    recName + "/" + group + "/" + typ + ".pdf"
  }

  /** UploadRecruitmentFile: the options, then the lookup, then the upload to
      the key; the result is the key written. A missing recruitment is not
      noticed: its empty name makes the key start with "/". */
  function UploadRecruitmentFile(st: Store, rid: string, group: string, typ: string, hasFile: bool, uploadOk: bool):
    (r: Result<string, Error>)
    ensures r.Ok? <==> Options.ValidateUploadRecFile(typ, group, hasFile).Success? && uploadOk
    ensures r.Ok? ==> r.value == RecFileKey(LookupRecruitment(st, rid).name, group, typ)
  {
    match Options.ValidateUploadRecFile(typ, group, hasFile)
    case Failure(e) => Err(e)
    case Success =>
      if !uploadOk then Err(UploadFailed)
      else Ok(RecFileKey(LookupRecruitment(st, rid).name, group, typ))
  }

  /** DownloadRecruitmentFile: the options, then the lookup; the result is the
      key read. */
  function DownloadRecruitmentFile(st: Store, rid: string, group: string, typ: string): (r: Result<string, Error>)
    ensures r.Ok? <==> Options.ValidateDownloadRecFile(typ, group).Success?
    ensures r.Ok? ==> r.value == RecFileKey(LookupRecruitment(st, rid).name, group, typ)
  {
    match Options.ValidateDownloadRecFile(typ, group)
    case Failure(e) => Err(e)
    case Success => Ok(RecFileKey(LookupRecruitment(st, rid).name, group, typ))
  }

  /** What is uploaded for a recruitment and group is what is downloaded
      for them. */
  lemma UploadThenDownloadSameKey(st: Store, rid: string, group: string, typ: string, hasFile: bool, uploadOk: bool)
    requires UploadRecruitmentFile(st, rid, group, typ, hasFile, uploadOk).Ok?
    ensures DownloadRecruitmentFile(st, rid, group, typ) == UploadRecruitmentFile(st, rid, group, typ, hasFile, uploadOk)
  {
    Options.DownloadIsUploadWithFile(typ, group);
  }

  /** Two unknown recruitment ids share their files: both resolve to the
      key of the empty name. */
  lemma MissingRecruitmentsShareKey(st: Store, rid1: string, rid2: string, group: string)
    requires rid1 !in st.recruitments && rid2 !in st.recruitments && group in Groups
    ensures DownloadRecruitmentFile(st, rid1, group, StepKey(WrittenTest)) ==
            DownloadRecruitmentFile(st, rid2, group, StepKey(WrittenTest))
    ensures DownloadRecruitmentFile(st, rid1, group, StepKey(WrittenTest)).Ok?
    ensures DownloadRecruitmentFile(st, rid1, group, StepKey(WrittenTest)).value[0] == '/'
  {
  }
}

=== FILE: roles.dfy ===
/** Membership helpers over the role and group lists the identity service
    returns for a user. */
module Roles {
  import opened Constants

  /** CheckRoles: does any of the user's roles equal any requested role?
      Written with the two nested loops of the Go code. */
  method CheckRoles(userRoles: seq<string>, roles: seq<string>) returns (found: bool)
    ensures found <==> exists i, j :: 0 <= i < |userRoles| && 0 <= j < |roles| && userRoles[i] == roles[j]
  {
    var i := 0;
    while i < |userRoles|
      invariant 0 <= i <= |userRoles|
      invariant forall i', j :: 0 <= i' < i && 0 <= j < |roles| ==> userRoles[i'] != roles[j]
    {
      var j := 0;
      while j < |roles|
        invariant 0 <= j <= |roles|
        invariant forall j' :: 0 <= j' < j ==> userRoles[i] != roles[j']
      {
        if userRoles[i] == roles[j] {
          return true;
        }
        j := j + 1;
      }
      i := i + 1;
    }
    return false;
  }

  /** CheckInGroups: is `group` one of the user's groups? */
  function CheckInGroups(groups: seq<string>, group: string): (r: bool)
    ensures r <==> exists i :: 0 <= i < |groups| && groups[i] == group
  {
    if |groups| == 0 then false
    else groups[0] == group || CheckInGroups(groups[1..], group)
  }

  /** Does some element of `roles` equal `role`? One pass of GetMaxRole. */
  method Scan(roles: seq<string>, role: string) returns (found: bool)
    ensures found <==> role in roles
  {
    var i := 0;
    while i < |roles|
      invariant 0 <= i <= |roles|
      invariant role !in roles[..i]
    {
      if roles[i] == role {
        return true;
      }
      i := i + 1;
    }
    assert roles[..i] == roles;
    return false;
  }

  /** GetMaxRole: the highest of admin > member > candidate present in the
      list, or "" when none of them is. */
  method GetMaxRole(roles: seq<string>) returns (r: string)
    ensures r == Admin <==> Admin in roles
    ensures r == Member <==> Admin !in roles && Member in roles
    ensures r == Candidate <==> Admin !in roles && Member !in roles && Candidate in roles
    ensures r == "" <==> Admin !in roles && Member !in roles && Candidate !in roles
    ensures r == "" || r in roles
  {
    var isAdmin := Scan(roles, Admin);
    if isAdmin {
      return Admin;
    }
    var isMember := Scan(roles, Member);
    if isMember {
      return Member;
    }
    var isCandidate := Scan(roles, Candidate);
    if isCandidate {
      return Candidate;
    }
    return "";
  }
}

=== FILE: sms.dfy ===
/** Notifications: the resolver that turns a step transition into an SMS
    template and its ordered parameters, and the batch that checks every
    candidate before anything is sent. Formatting an instant for people is
    the parameter `format`; the identity service is the map `users`. */
module Sms {
  import opened Wrappers
  import opened Errors
  import opened Constants
  import opened Model
  import opened Strings
  import opened TimeUtil
  import opened Options
  import RecruitmentName
  import Roles

  /** Appended to every pass or rejection message. */
  const Suffix: string := " (请勿回复本短信)"
  /** The default closing of a rejection. */
  const RejectRest: string := "不要灰心，继续学习。期待与更强大的你的相遇！"
  /** The default closing when the next step is a time selection. */
  const SelectRest: string := "，请进入选手dashboard系统选择面试时间"

  /** The default closing of a pass. */
  function PassRest(group: string): string {
    "，你已成功加入" + group + "组"
  }

  /** The default closing before a written or stress test. */
  function TestRest(time: string, place: string, next: Step): string {
    "，请于" + time + "在" + place + "参加" + EnToZh(next) + "，请务必准时到场"
  }

  /** A resolved message: which template, with which parameters. */
  datatype Message = Message(template: Template, params: seq<string>)

  /** A message addressed to a phone number. */
  datatype Sms = Sms(phone: string, message: Message)

  /** A candidate as the identity service describes them. */
  datatype User = User(name: string, phone: string)

  /** The start of the interview allocated to the application for a kind;
      the zero instant when none is allocated. */
  function AllocStart(st: Store, a: Application, kind: Kind): (t: int)
    ensures (if kind == InGroup then a.allocGroup else a.allocTeam).None? ==> t == ZeroTime
  {
    var col := if kind == InGroup then a.allocGroup else a.allocTeam;
    match col
    case None => ZeroTime
    case Some(iid) => if iid in st.interviews then st.interviews[iid].start else ZeroTime
  }

  /** The interview kind an interview step announces. */
  function KindOf(next: Step): Kind {
    if next in {TeamInterview, OnlineTeamInterview} then InTeam else InGroup
  }

  /** What an accepted transition to `next` needs from the request and the
      application: a reference table independent of the resolver's branches. */
  datatype Need = NeedPlace | NeedTime | NeedMeeting | NeedAllocation

  function Needs(next: Step): set<Need> {
    match next
    case GroupInterview => {NeedPlace, NeedAllocation}
    case TeamInterview => {NeedPlace, NeedAllocation}
    case OnlineGroupInterview => {NeedAllocation, NeedMeeting}
    case OnlineTeamInterview => {NeedAllocation, NeedMeeting}
    case WrittenTest => {NeedPlace, NeedTime}
    case StressTest => {NeedPlace, NeedTime}
    case _ => {}
  }

  predicate Provided(n: Need, o: SmsOpts, st: Store, a: Application) {
    match n
    case NeedPlace => o.place != ""
    case NeedTime => o.time != ""
    case NeedMeeting => o.meetingId != ""
    case NeedAllocation => AllocStart(st, a, KindOf(o.next)) != ZeroTime
  }

  /** Every step but sign-up may be announced as the next one. */
  predicate Announceable(next: Step) {
    next != SignUp
  }

  /** The template each outcome uses. */
  function ExpectedTemplate(kind: SmsType, next: Step): Template {
    if kind == Reject then Delay
    else if next in {GroupInterview, TeamInterview} then Interviews
    else if next == OnlineGroupInterview then OnlineGroupInterviewSms
    else if next == OnlineTeamInterview then OnlineTeamInterviewSms
    else PassSms
  }

  /** The closing of a pass or rejection: the request's text when given,
      else the default, always followed by the suffix. */
  function Closing(rest: string, default: string): (c: string)
    ensures |c| >= |Suffix| && c[|c| - |Suffix|..] == Suffix
    ensures rest != "" ==> c == rest + Suffix
    ensures rest == "" ==> c == default + Suffix
  {
    var c := (if rest == "" then default else rest) + Suffix;
    assert c[|c| - |Suffix|..] == Suffix;
    c
  }

  /** The in-person interview message: place first, then the allocation. */
  function InPerson(o: SmsOpts, userName: string, st: Store, a: Application, format: int -> string):
    (r: Result<Message, Error>)
    ensures r.Ok? <==> o.place != "" && AllocStart(st, a, KindOf(o.next)) != ZeroTime
    ensures o.place == "" ==> r == Err(PlaceMissing)
    ensures r.Ok? ==>
      r.value == Message(Interviews, [userName, format(AllocStart(st, a, KindOf(o.next))), o.place, EnToZh(o.next)])
  {
    var start := AllocStart(st, a, KindOf(o.next));
    if o.place == "" then Err(PlaceMissing)
    else if start == ZeroTime then Err(NotAllocated)
    else Ok(Message(Interviews, [userName, format(start), o.place, EnToZh(o.next)]))
  }

  /** The online interview message: the allocation first, then the meeting. */
  function Online(o: SmsOpts, userName: string, recName: string, st: Store, a: Application, format: int -> string):
    (r: Result<Message, Error>)
    ensures r.Ok? <==> o.meetingId != "" && AllocStart(st, a, KindOf(o.next)) != ZeroTime
    ensures AllocStart(st, a, KindOf(o.next)) == ZeroTime ==> r == Err(NotAllocated)
    ensures r.Ok? ==>
      r.value.params == [userName, recName, a.group, format(AllocStart(st, a, KindOf(o.next))), o.meetingId]
    ensures r.Ok? ==> r.value.template == (if o.next == OnlineTeamInterview then OnlineTeamInterviewSms
                                           else OnlineGroupInterviewSms)
  {
    var start := AllocStart(st, a, KindOf(o.next));
    var t := if o.next == OnlineTeamInterview then OnlineTeamInterviewSms else OnlineGroupInterviewSms;
    if start == ZeroTime then Err(NotAllocated)
    else if o.meetingId == "" then Err(MeetingMissing)
    else Ok(Message(t, [userName, recName, a.group, format(start), o.meetingId]))
  }

  /** The pass message with the given default closing. */
  function Passed(o: SmsOpts, userName: string, recName: string, a: Application, default: string): (m: Message)
    ensures m.template == PassSms && |m.params| == 5
    ensures m.params[..4] == [userName, recName, a.group, EnToZh(o.current)]
    ensures m.params[4] == Closing(o.rest, default)
  {
    Message(PassSms, [userName, recName, a.group, EnToZh(o.current), Closing(o.rest, default)])
  }

  /** The written or stress test message: place first, then time. */
  function Test(o: SmsOpts, userName: string, recName: string, a: Application): (r: Result<Message, Error>)
    ensures r.Ok? <==> o.place != "" && o.time != ""
    ensures o.place == "" ==> r == Err(PlaceMissing)
    ensures o.place != "" && o.time == "" ==> r == Err(TimeMissing)
    ensures r.Ok? ==> r.value == Passed(o, userName, recName, a, TestRest(o.time, o.place, o.next))
  {
    if o.place == "" then Err(PlaceMissing)
    else if o.time == "" then Err(TimeMissing)
    else Ok(Passed(o, userName, recName, a, TestRest(o.time, o.place, o.next)))
  }

  /** ApplySMSTemplate. The recruitment's name is converted first (titles
      shorter than four bytes make Go panic). */
  function ApplySmsTemplate(o: SmsOpts, userName: string, a: Application, recName: string, st: Store,
                            format: int -> string): (r: Result<Message, Error>)
    requires ByteLen(recName) >= 4
    ensures r.Ok? <==>
      (o.kind == Accept ==>
         !a.rejected && Announceable(o.next) && forall n :: n in Needs(o.next) ==> Provided(n, o, st, a)) &&
      (o.kind == Reject ==> a.rejected)
    ensures o.kind == Accept && a.rejected ==> r == Err(AppRejected)
    ensures o.kind == Reject && !a.rejected ==> r == Err(NotRejectedYet)
    ensures o.kind == Accept && !a.rejected && !Announceable(o.next) ==> r == Err(InvalidNext)
    ensures r.Ok? ==> r.value.template == ExpectedTemplate(o.kind, o.next)
    ensures r.Ok? ==> |r.value.params| == (if r.value.template == Interviews then 4 else 5) &&
                      r.value.params[0] == userName
    ensures r.Ok? && r.value.template in {PassSms, Delay} ==>
      var p := r.value.params;
      p[1] == RecruitmentName.ConvertRecruitmentName(recName) && p[2] == a.group &&
      p[3] == EnToZh(o.current) && |p[4]| >= |Suffix| && p[4][|p[4]| - |Suffix|..] == Suffix &&
      (o.rest != "" ==> p[4] == o.rest + Suffix)
  {
    var recruitmentName := RecruitmentName.ConvertRecruitmentName(recName);
    match o.kind
    case Accept =>
      if a.rejected then Err(AppRejected)
      else AcceptMessage(o, userName, a, recruitmentName, st, format)
    case Reject =>
      if !a.rejected then Err(NotRejectedYet)
      else Ok(Message(Delay, [userName, recruitmentName, a.group, EnToZh(o.current), Closing(o.rest, RejectRest)]))
  }

  /** The accept branch of ApplySMSTemplate for an application that is not
      rejected, by next step; `recruitmentName` is already converted. */
  function AcceptMessage(o: SmsOpts, userName: string, a: Application, recruitmentName: string, st: Store,
                         format: int -> string): (r: Result<Message, Error>)
    ensures r.Ok? <==> Announceable(o.next) && forall n :: n in Needs(o.next) ==> Provided(n, o, st, a)
    ensures !Announceable(o.next) ==> r == Err(InvalidNext)
    ensures r.Ok? ==> r.value.template == ExpectedTemplate(Accept, o.next)
    ensures r.Ok? ==> |r.value.params| == (if r.value.template == Interviews then 4 else 5) &&
                      r.value.params[0] == userName
    ensures r.Ok? && r.value.template == PassSms ==>
      var p := r.value.params;
      p[1] == recruitmentName && p[2] == a.group &&
      p[3] == EnToZh(o.current) && |p[4]| >= |Suffix| && p[4][|p[4]| - |Suffix|..] == Suffix &&
      (o.rest != "" ==> p[4] == o.rest + Suffix)
  {
    match o.next
    case GroupInterview => assert NeedAllocation in Needs(o.next) && NeedPlace in Needs(o.next);
      InPerson(o, userName, st, a, format)
    case TeamInterview => assert NeedAllocation in Needs(o.next) && NeedPlace in Needs(o.next);
      InPerson(o, userName, st, a, format)
    case OnlineGroupInterview => assert NeedAllocation in Needs(o.next) && NeedMeeting in Needs(o.next);
      Online(o, userName, recruitmentName, st, a, format)
    case OnlineTeamInterview => assert NeedAllocation in Needs(o.next) && NeedMeeting in Needs(o.next);
      Online(o, userName, recruitmentName, st, a, format)
    case SignUp => Err(InvalidNext)
    case WrittenTest => assert NeedPlace in Needs(o.next) && NeedTime in Needs(o.next);
      Test(o, userName, recruitmentName, a)
    case StressTest => assert NeedPlace in Needs(o.next) && NeedTime in Needs(o.next);
      Test(o, userName, recruitmentName, a)
    case Pass => Ok(Passed(o, userName, recruitmentName, a, PassRest(a.group)))
    case GroupTimeSelection => Ok(Passed(o, userName, recruitmentName, a, SelectRest))
    case TeamTimeSelection => Ok(Passed(o, userName, recruitmentName, a, SelectRest))
  }

  /** The default closings: a pass names the group joined, a test repeats
      the time and the place, a time selection points to the dashboard. */
  lemma DefaultClosings(o: SmsOpts, userName: string, a: Application, recName: string, st: Store,
                        format: int -> string)
    requires ByteLen(recName) >= 4
    requires o.rest == "" && o.kind == Accept && !a.rejected
    ensures o.next == Pass ==>
      ApplySmsTemplate(o, userName, a, recName, st, format).value.params[4] == PassRest(a.group) + Suffix
    ensures o.next in {GroupTimeSelection, TeamTimeSelection} ==>
      ApplySmsTemplate(o, userName, a, recName, st, format).value.params[4] == SelectRest + Suffix
    ensures o.next in {WrittenTest, StressTest} && o.place != "" && o.time != "" ==>
      ApplySmsTemplate(o, userName, a, recName, st, format).value.params[4] == TestRest(o.time, o.place, o.next) + Suffix
  {
  }

  /** A pass or a rejection differs between two requests only in its
      closing when only their `rest` texts differ. */
  lemma RestOnlyChangesClosing(o: SmsOpts, rest: string, userName: string, a: Application, recName: string,
                               st: Store, format: int -> string)
    requires ByteLen(recName) >= 4
    requires ApplySmsTemplate(o, userName, a, recName, st, format).Ok?
    requires ApplySmsTemplate(o, userName, a, recName, st, format).value.template in {PassSms, Delay}
    ensures ApplySmsTemplate(o.(rest := rest), userName, a, recName, st, format).Ok?
    ensures var m := ApplySmsTemplate(o, userName, a, recName, st, format).value;
      var m' := ApplySmsTemplate(o.(rest := rest), userName, a, recName, st, format).value;
      m'.template == m.template && m'.params[..4] == m.params[..4]
  {
  }

  /** The recruitment has a slot of the given name. */
  predicate HasSlots(st: Store, rid: string, name: string) {
    exists u | u in st.interviews :: st.interviews[u].rid == rid && st.interviews[u].name == name
  }

  /** The checks one candidate of the batch passes, in order, ending in
      the resolved message addressed to the candidate's phone. */
  function CandidateSms(st: Store, o: SmsOpts, rec: Recruitment, senderGroups: seq<string>,
                        users: map<string, User>, format: int -> string, aid: string): (r: Result<Sms, Error>)
    requires ByteLen(rec.name) >= 4
    ensures r.Ok? <==>
      aid in st.applications && st.applications[aid].candidate in users &&
      st.applications[aid].group in senderGroups && !st.applications[aid].abandoned &&
      (o.kind == Accept && o.next == GroupInterview ==> HasSlots(st, rec.uid, st.applications[aid].group)) &&
      (o.kind == Accept && o.next == TeamInterview ==> HasSlots(st, rec.uid, Unique)) &&
      ApplySmsTemplate(o, users[st.applications[aid].candidate].name, st.applications[aid], rec.name, st, format).Ok?
    ensures r.Ok? ==>
      var u := users[st.applications[aid].candidate];
      r.value == Sms(u.phone, ApplySmsTemplate(o, u.name, st.applications[aid], rec.name, st, format).value)
  {
    if aid !in st.applications then Err(NotFound(aid))
    else
      var a := st.applications[aid];
      if a.candidate !in users then Err(NotFound(a.candidate))
      else if !Roles.CheckInGroups(senderGroups, a.group) then Err(NotSameGroup)
      else if a.abandoned then Err(AppAbandoned)
      else if o.kind == Accept && o.next == GroupInterview && !HasSlots(st, rec.uid, a.group) then
        Err(NoSlotsScheduled(a.group))
      else if o.kind == Accept && o.next == TeamInterview && !HasSlots(st, rec.uid, Unique) then
        Err(NoSlotsScheduled(Unique))
      else
        var u := users[a.candidate];
        match ApplySmsTemplate(o, u.name, a, rec.name, st, format)
        case Err(e) => Err(e)
        case Ok(m) => Ok(Sms(u.phone, m))
  }

  /** The loop over the aids, given each candidate's outcome in aid order:
      every failure is collected and the loop goes on; the messages of the
      candidates that passed are kept in order. */
  function Collect(results: seq<Result<Sms, Error>>): (r: (seq<Error>, seq<Sms>))
    ensures |r.0| + |r.1| == |results|
    ensures (forall i :: 0 <= i < |results| ==> results[i].Ok?) ==> |r.0| == 0
    ensures forall i :: 0 <= i < |results| && results[i].Err? ==> results[i].error in r.0
    ensures |r.0| == 0 ==> forall i :: 0 <= i < |results| ==> results[i].Ok? && r.1[i] == results[i].value
  {
    if |results| == 0 then ([], [])
    else
      var prev := Collect(results[..|results| - 1]);
      assert forall i :: 0 <= i < |results| - 1 ==> results[..|results| - 1][i] == results[i];
      match results[|results| - 1]
      case Err(e) => (prev.0 + [e], prev.1)
      case Ok(m) => (prev.0, prev.1 + [m])
  }

  /** Stored recruitment names are long enough to convert (creation makes
      them five bytes long). */
  ghost predicate NamesConvertible(st: Store) {
    forall u :: u in st.recruitments ==> ByteLen(st.recruitments[u].name) >= 4
  }

  /** The batch proper: messages only when every candidate passed. */
  function SendBatch(st: Store, o: SmsOpts, rec: Recruitment, senderGroups: seq<string>,
                     users: map<string, User>, format: int -> string): (r: Result<seq<Sms>, Error>)
    requires ByteLen(rec.name) >= 4
    ensures r.Ok? <==> forall i :: 0 <= i < |o.aids| ==> CandidateSms(st, o, rec, senderGroups, users, format, o.aids[i]).Ok?
    ensures r.Ok? ==>
      |r.value| == |o.aids| &&
      forall i :: 0 <= i < |o.aids| ==> r.value[i] == CandidateSms(st, o, rec, senderGroups, users, format, o.aids[i]).value
    ensures r.Err? ==>
      r.error.Batch? && |r.error.errors| > 0 &&
      forall i :: 0 <= i < |o.aids| && CandidateSms(st, o, rec, senderGroups, users, format, o.aids[i]).Err? ==>
        CandidateSms(st, o, rec, senderGroups, users, format, o.aids[i]).error in r.error.errors
  {
    var results := seq(|o.aids|, i requires 0 <= i < |o.aids| =>
                         CandidateSms(st, o, rec, senderGroups, users, format, o.aids[i]));
    assert forall i :: 0 <= i < |o.aids| ==> results[i] == CandidateSms(st, o, rec, senderGroups, users, format, o.aids[i]);
    var res := Collect(results);
    if |res.0| != 0 then Err(Batch(res.0)) else Ok(res.1)
  }

  /** GetFullRecruitmentById resolves the candidate of every application of
      the recruitment in the identity service, and fails on the first user it
      cannot resolve: the applications in the request are not the only ones
      looked up. */
  predicate ApplicantsKnown(st: Store, rid: string, users: map<string, User>) {
    forall a :: a in st.applications && st.applications[a].rid == rid ==> st.applications[a].candidate in users
  }

  /** SendSMS up to the dispatch: the options, the first candidate's
      application, that application's recruitment with every applicant
      resolved (used for everyone; an unknown one reads as the empty record,
      which has ended), the end of that recruitment, then the batch. `now`
      lies after Go's zero time. */
  function SendSms(st: Store, typ: string, current: string, next: string, time: string, place: string,
                   meetingId: string, rest: string, aids: seq<string>, senderGroups: seq<string>,
                   users: map<string, User>, now: int, format: int -> string): (r: Result<seq<Sms>, Error>)
    requires NamesConvertible(st) && ZeroTime < now
    ensures ValidateSendSms(typ, current, next, time, place, meetingId, rest, aids).Err? ==>
      r == Err(ValidateSendSms(typ, current, next, time, place, meetingId, rest, aids).error)
    ensures r.Ok? <==>
      ValidateSendSms(typ, current, next, time, place, meetingId, rest, aids).Ok? &&
      aids[0] in st.applications &&
      ApplicantsKnown(st, LookupRecruitment(st, st.applications[aids[0]].rid).uid, users) &&
      now <= LookupRecruitment(st, st.applications[aids[0]].rid).end &&
      SendBatch(st, ValidateSendSms(typ, current, next, time, place, meetingId, rest, aids).value,
                LookupRecruitment(st, st.applications[aids[0]].rid), senderGroups, users, format).Ok?
    ensures r.Ok? ==>
      r == SendBatch(st, ValidateSendSms(typ, current, next, time, place, meetingId, rest, aids).value,
                     LookupRecruitment(st, st.applications[aids[0]].rid), senderGroups, users, format)
    ensures (ValidateSendSms(typ, current, next, time, place, meetingId, rest, aids).Ok? &&
             aids[0] in st.applications &&
             !ApplicantsKnown(st, LookupRecruitment(st, st.applications[aids[0]].rid).uid, users)) ==>
      r == Err(IdentityLookupFailed)
    ensures (ValidateSendSms(typ, current, next, time, place, meetingId, rest, aids).Ok? &&
             aids[0] in st.applications &&
             ApplicantsKnown(st, LookupRecruitment(st, st.applications[aids[0]].rid).uid, users) &&
             LookupRecruitment(st, st.applications[aids[0]].rid).end < now) ==> r == Err(Ended)
  {
    match ValidateSendSms(typ, current, next, time, place, meetingId, rest, aids)
    case Err(e) => Err(e)
    case Ok(o) =>
      if aids[0] !in st.applications then Err(NotFound(aids[0]))
      else
        var rec := LookupRecruitment(st, st.applications[aids[0]].rid);
        if !ApplicantsKnown(st, rec.uid, users) then Err(IdentityLookupFailed)
        else if rec.end < now then Err(Ended)
        else SendBatch(st, o, rec, senderGroups, users, format)
  }

  /** All or nothing: one failing candidate stops every message, and the
      error lists that candidate's failure. */
  lemma OneFailureSendsNothing(st: Store, typ: string, current: string, next: string, time: string, place: string,
                               meetingId: string, rest: string, aids: seq<string>, senderGroups: seq<string>,
                               users: map<string, User>, now: int, format: int -> string, k: int)
    requires NamesConvertible(st) && ZeroTime < now
    requires ValidateSendSms(typ, current, next, time, place, meetingId, rest, aids).Ok?
    requires aids[0] in st.applications && now <= LookupRecruitment(st, st.applications[aids[0]].rid).end
    requires ApplicantsKnown(st, LookupRecruitment(st, st.applications[aids[0]].rid).uid, users)
    requires 0 <= k < |aids|
    requires CandidateSms(st, ValidateSendSms(typ, current, next, time, place, meetingId, rest, aids).value,
                          LookupRecruitment(st, st.applications[aids[0]].rid), senderGroups, users, format, aids[k]).Err?
    ensures var r := SendSms(st, typ, current, next, time, place, meetingId, rest, aids, senderGroups, users, now, format);
      r.Err? && r.error.Batch? &&
      CandidateSms(st, ValidateSendSms(typ, current, next, time, place, meetingId, rest, aids).value,
                   LookupRecruitment(st, st.applications[aids[0]].rid), senderGroups, users, format, aids[k]).error in r.error.errors
  {
  }

  /** An applicant of the recruitment whom the identity service cannot
      resolve fails the whole request, even when the request does not name
      that applicant's application. */
  lemma UnresolvedApplicantBlocksRequest(st: Store, typ: string, current: string, next: string, time: string,
                                         place: string, meetingId: string, rest: string, aids: seq<string>,
                                         senderGroups: seq<string>, users: map<string, User>, now: int,
                                         format: int -> string, other: string)
    requires NamesConvertible(st) && ZeroTime < now
    requires ValidateSendSms(typ, current, next, time, place, meetingId, rest, aids).Ok?
    requires aids[0] in st.applications && other in st.applications && other !in aids
    requires st.applications[other].rid == LookupRecruitment(st, st.applications[aids[0]].rid).uid
    requires st.applications[other].candidate !in users
    ensures SendSms(st, typ, current, next, time, place, meetingId, rest, aids, senderGroups, users, now, format)
            == Err(IdentityLookupFailed)
  {
  }

  /** Every message of a batch names the first candidate's recruitment,
      whichever recruitment the other candidates applied to. */
  lemma BatchNamesFirstRecruitment(st: Store, typ: string, current: string, next: string, time: string, place: string,
                                   meetingId: string, rest: string, aids: seq<string>, senderGroups: seq<string>,
                                   users: map<string, User>, now: int, format: int -> string, k: int)
    requires NamesConvertible(st) && ZeroTime < now
    requires SendSms(st, typ, current, next, time, place, meetingId, rest, aids, senderGroups, users, now, format).Ok?
    requires 0 <= k < |aids|
    requires SendSms(st, typ, current, next, time, place, meetingId, rest, aids, senderGroups, users, now, format)
               .value[k].message.template in {PassSms, Delay}
    ensures SendSms(st, typ, current, next, time, place, meetingId, rest, aids, senderGroups, users, now, format)
              .value[k].message.params[1] ==
            RecruitmentName.ConvertRecruitmentName(LookupRecruitment(st, st.applications[aids[0]].rid).name)
  {
  }
}

=== FILE: strings.dfy ===
/** Go strings are UTF-8 byte sequences: `len`, `s[:4]` and `s[4:]` count
    bytes. The model keeps strings as sequences of characters and measures
    them in UTF-8 bytes where the Go code does. */
module Strings {
  import opened Wrappers

  /** Number of bytes UTF-8 uses for one character. */
  function Utf8Width(c: char): (w: nat)
    ensures 1 <= w <= 4
    ensures w == 1 <==> (c as int) < 0x80
  {
    if (c as int) < 0x80 then 1
    else if (c as int) < 0x800 then 2
    else if (c as int) < 0x10000 then 3
    else 4
  }

  /** Go's `len(s)`: the UTF-8 byte length. */
  function ByteLen(s: string): nat {
    if |s| == 0 then 0 else Utf8Width(s[0]) + ByteLen(s[1..])
  }

  /** ASCII characters are one byte each, so for ASCII text the byte
      length is the character count. */
  predicate IsAscii(s: string) {
    forall i :: 0 <= i < |s| ==> (s[i] as int) < 0x80
  }

  lemma {:induction false} ByteLenAtLeastLength(s: string)
    ensures ByteLen(s) >= |s|
    ensures ByteLen(s) == |s| <==> IsAscii(s)
  {
    if |s| > 0 {
      ByteLenAtLeastLength(s[1..]);
      assert forall i :: 1 <= i < |s| ==> s[i] == s[1..][i - 1];
    }
  }

  lemma {:induction false} ByteLenConcat(a: string, b: string)
    ensures ByteLen(a + b) == ByteLen(a) + ByteLen(b)
  {
    if |a| > 0 {
      assert (a + b)[1..] == a[1..] + b;
      ByteLenConcat(a[1..], b);
    } else {
      assert a + b == b;
    }
  }

  /** Go's `(s[:n], s[n:])` when byte `n` is a character boundary; None when
      `n` falls inside a multi-byte character or past the end. */
  function SplitAtByte(s: string, n: nat): (r: Option<(string, string)>)
    ensures r.Some? ==> r.value.0 + r.value.1 == s && ByteLen(r.value.0) == n
    ensures r.None? ==> ByteLen(s) != n
  {
    if n == 0 then Some(("", s))
    else if |s| == 0 || Utf8Width(s[0]) > n then None
    else
      match SplitAtByte(s[1..], n - Utf8Width(s[0]))
      case None => None
      case Some(p) => Some(([s[0]] + p.0, p.1))
  }

  /** Splitting `p + q` at the byte length of `p` gives back `p` and `q`. */
  lemma {:induction false} SplitAtByteOfConcat(p: string, q: string)
    ensures SplitAtByte(p + q, ByteLen(p)) == Some((p, q))
  {
    if |p| > 0 {
      assert (p + q)[0] == p[0];
      assert (p + q)[1..] == p[1..] + q;
      SplitAtByteOfConcat(p[1..], q);
      assert [p[0]] + p[1..] == p;
    } else {
      assert p + q == q;
    }
  }

  function LowerChar(c: char): char {
    if 'A' <= c <= 'Z' then (c as int + 32) as char else c
  }

  /** strings.ToLower, restricted to the ASCII letters. */
  function ToLower(s: string): (r: string)
    ensures |r| == |s|
    ensures forall i :: 0 <= i < |s| ==> r[i] == LowerChar(s[i])
  {
    if |s| == 0 then "" else [LowerChar(s[0])] + ToLower(s[1..])
  }

  predicate IsLower(s: string) {
    forall i :: 0 <= i < |s| ==> !('A' <= s[i] <= 'Z')
  }

  lemma ToLowerIsLower(s: string)
    ensures IsLower(ToLower(s))
    ensures ToLower(ToLower(s)) == ToLower(s)
  {
  }

  lemma ToLowerKeepsLower(s: string)
    requires IsLower(s)
    ensures ToLower(s) == s
  {
  }
}

=== FILE: timeutil.dfy ===
/** Time helpers. Instants are whole seconds since 1970-01-01T00:00:00Z;
    dates are proleptic Gregorian calendar dates in UTC. */
module TimeUtil {
  import opened Wrappers
  import opened Strings

  const Hour: int := 3600
  const Day: int := 86400

  /** Go's zero `time.Time` (0001-01-01T00:00:00Z), the value `IsZero` tests. */
  const ZeroTime: int := -62135596800

  /** The instant truncated to the hour: Go's `Truncate(time.Hour)`, which
      rounds down (also before 1970). */
  function HourStart(t: int): (h: int)
    ensures h <= t < h + Hour
    ensures h % Hour == 0
  {
    t - t % Hour
  }

  /** ComPareTimeHour: both instants fall in the same clock hour. */
  function ComPareTimeHour(t1: int, t2: int): (r: bool)
    ensures r <==> HourStart(t1) == HourStart(t2)
    ensures r ==> -Hour < t1 - t2 < Hour
  {
    t1 / Hour == t2 / Hour
  }

  /** Same-hour comparison is an equivalence relation. */
  lemma SameHourIsEquivalence(a: int, b: int, c: int)
    ensures ComPareTimeHour(a, a)
    ensures ComPareTimeHour(a, b) == ComPareTimeHour(b, a)
    ensures ComPareTimeHour(a, b) && ComPareTimeHour(b, c) ==> ComPareTimeHour(a, c)
  {
  }

  datatype Date = Date(year: int, month: int, day: int)

  /** Days from 1970-01-01 to the given civil date (valid for every year,
      months 1..12). */
  function DaysFromCivil(y: int, m: int, d: int): int
    requires 1 <= m <= 12
  {
    var y' := if m <= 2 then y - 1 else y;
    var era := y' / 400;
    var yoe := y' - era * 400;
    var mp := if m > 2 then m - 3 else m + 9;
    var doy := (153 * mp + 2) / 5 + d - 1;
    var doe := yoe * 365 + yoe / 4 - yoe / 100 + doy;
    era * 146097 + doe - 719468
  }

  predicate ValidMonth(d: Date) {
    1 <= d.month <= 12
  }

  /** Midnight UTC of the date, as an instant. */
  function ToUnix(d: Date): int
    requires ValidMonth(d)
  {
    DaysFromCivil(d.year, d.month, d.day) * Day
  }

  /** The calendar arithmetic agrees with the two fixed points the model
      relies on: the Unix epoch and Go's zero time. */
  lemma CalendarAnchors()
    ensures ToUnix(Date(1970, 1, 1)) == 0
    ensures ToUnix(Date(1, 1, 1)) == ZeroTime
  {
  }

  /** Within one year the season starts are ordered June < September < December. */
  lemma SeasonStartsOrdered(y: int)
    ensures ToUnix(Date(y, 6, 1)) < ToUnix(Date(y, 9, 1)) < ToUnix(Date(y, 12, 1))
  {
  }

  predicate IsDigit(c: char) {
    '0' <= c <= '9'
  }

  predicate AllDigits(s: string) {
    forall i :: 0 <= i < |s| ==> IsDigit(s[i])
  }

  /** Decimal value of a digit string, accumulated left to right as
      `n = n*10 + d`. */
  function DigitsValue(s: string): nat
    requires AllDigits(s)
  {
    if |s| == 0 then 0
    else DigitsValue(s[..|s| - 1]) * 10 + (s[|s| - 1] as int - '0' as int)
  }

  /** strconv.Atoi on short inputs: an optional sign followed by at least
      one decimal digit and nothing else. */
  function Atoi(s: string): (r: Option<int>)
    ensures r.Some? <==> |s| > 0 && (AllDigits(s) || ((s[0] == '+' || s[0] == '-') && |s| > 1 && AllDigits(s[1..])))
    ensures AllDigits(s) && |s| > 0 ==> r == Some(DigitsValue(s))
    ensures |s| > 1 && s[0] == '+' && AllDigits(s[1..]) ==> r == Some(DigitsValue(s[1..]))
    ensures |s| > 1 && s[0] == '-' && AllDigits(s[1..]) ==> r == Some(-(DigitsValue(s[1..]) as int))
  {
    if |s| == 0 then None
    else if s[0] == '+' || s[0] == '-' then
      var digits := s[1..];
      if |digits| == 0 || !AllDigits(digits) then None
      else
        var v: int := DigitsValue(digits);
        Some(if s[0] == '-' then -v else v)
    else if AllDigits(s) then Some(DigitsValue(s))
    else None
  }

  /** The month a season letter stands for: "C" (summer camp) is
      September, "A" (autumn) December, anything else June. */
  function SeasonMonth(season: string): (m: int)
    ensures m == 9 <==> season == "C"
    ensures m == 12 <==> season == "A"
    ensures m == 6 <==> season != "C" && season != "A"
  {
    if season == "C" then 9 else if season == "A" then 12 else 6
  }

  /** GetTimeByString: the first day of the season month of the year
      written in the first four bytes; 2050-01-01 when those bytes are not
      a number. Go panics on shorter strings, hence the
      precondition. */
  function GetTimeByString(joinTime: string): (d: Date)
    requires ByteLen(joinTime) >= 4
    ensures ValidMonth(d) && d.day == 1
    ensures d.month == 1 <==> d == Date(2050, 1, 1)
    ensures d.month != 1 ==>
      exists y, s :: y + s == joinTime && ByteLen(y) == 4 && Atoi(y) == Some(d.year) && d.month == SeasonMonth(s)
  {
    match SplitAtByte(joinTime, 4)
    case None => Date(2050, 1, 1)
    case Some(parts) =>
      var month := SeasonMonth(parts.1);
      match Atoi(parts.0)
      case None => Date(2050, 1, 1)
      case Some(y) => Date(y, month, 1)
  }

  /** A four-digit year rendered in decimal. */
  function FourDigits(y: int): (s: string)
    requires 1000 <= y <= 9999
    ensures |s| == 4 && AllDigits(s) && IsAscii(s)
  {
    [Digit(y / 1000), Digit(y / 100 % 10), Digit(y / 10 % 10), Digit(y % 10)]
  }

  function Digit(d: int): (c: char)
    requires 0 <= d <= 9
    ensures IsDigit(c) && c as int - '0' as int == d
  {
    ('0' as int + d) as char
  }

  lemma FourDigitsValue(y: int)
    requires 1000 <= y <= 9999
    ensures DigitsValue(FourDigits(y)) == y
  {
    var s := FourDigits(y);
    var q1, q2, q3 := y / 1000, y / 100, y / 10;
    assert q2 / 10 == q1;
    assert q3 / 10 == q2;
    assert q1 * 10 + q2 % 10 == q2;
    assert q2 * 10 + q3 % 10 == q3;
    assert q3 * 10 + y % 10 == y;
    assert s[..3][..2][..1][..0] == [];
    assert DigitsValue(s[..3][..2][..1]) == q1;
    assert DigitsValue(s[..3][..2]) == q2;
    assert DigitsValue(s[..3]) == q3;
  }

  /** A join time written as a four-digit year and a season parses to the
      first day of that season's month in that year. */
  lemma {:induction false} JoinTimeOfYear(y: int, season: string)
    requires 1000 <= y <= 9999
    ensures ByteLen(FourDigits(y) + season) >= 4
    ensures GetTimeByString(FourDigits(y) + season) == Date(y, SeasonMonth(season), 1)
  {
    var s := FourDigits(y);
    ByteLenAtLeastLength(s);
    ByteLenConcat(s, season);
    SplitAtByteOfConcat(s, season);
    FourDigitsValue(y);
  }

  /** Every way of reading a join time as a four-digit year followed by a
      season gives the same date. */
  lemma JoinTimesOfYears(joinTime: string)
    requires ByteLen(joinTime) >= 4
    ensures forall y, season :: 1000 <= y <= 9999 && joinTime == FourDigits(y) + season ==>
              GetTimeByString(joinTime) == Date(y, SeasonMonth(season), 1)
  {
    forall y, season | 1000 <= y <= 9999 && joinTime == FourDigits(y) + season
      ensures GetTimeByString(joinTime) == Date(y, SeasonMonth(season), 1)
    {
      JoinTimeOfYear(y, season);
    }
  }

  /** A join time that does not start with a digit or a sign falls back to
      2050-01-01. */
  lemma NonNumericYearFallsBack(joinTime: string)
    requires ByteLen(joinTime) >= 4 && |joinTime| > 0
    requires !IsDigit(joinTime[0]) && joinTime[0] != '+' && joinTime[0] != '-'
    ensures GetTimeByString(joinTime) == Date(2050, 1, 1)
  {
    match SplitAtByte(joinTime, 4)
    case None =>
    case Some(parts) =>
      assert |parts.0| > 0;
      assert parts.0[0] == joinTime[0];
  }
}

=== FILE: windows.dfy ===
/** The guards the application handlers run before touching the store: the
    recruitment's time windows, the application's status and step, and the
    caller's group. `now` is the clock. */
module Windows {
  import opened Wrappers
  import opened Errors
  import opened Constants
  import opened Model
  import Roles

  /** checkRecruitmentInBtoD: submissions are open from the beginning to the
      deadline. The three cases are checked in order: not started, deadline
      passed, ended. */
  function CheckInBtoD(r: Recruitment, now: int): (o: Outcome<Error>)
    ensures o.Success? <==> r.beginning <= now <= r.deadline && now <= r.end
    ensures now < r.beginning ==> o == Failure(NotStarted)
    ensures r.beginning <= now && r.deadline < now ==> o == Failure(DeadlinePassed)
    ensures o.Failure? ==> o.error in {NotStarted, DeadlinePassed, Ended}
  {
    if r.beginning > now then Failure(NotStarted)
    else if r.deadline < now then Failure(DeadlinePassed)
    else if r.end < now then Failure(Ended)
    else Success
  }

  /** A recruitment whose instants are in order (as its creation enforces). */
  predicate Ordered(r: Recruitment) {
    r.beginning <= r.deadline <= r.end
  }

  /** For an ordered recruitment the "ended" case cannot be reached: any
      instant after the end is already after the deadline. The check then
      succeeds exactly on the closed interval from beginning to deadline. */
  lemma EndedUnreachable(r: Recruitment, now: int)
    requires Ordered(r)
    ensures CheckInBtoD(r, now) != Failure(Ended)
    ensures CheckInBtoD(r, now).Success? <==> r.beginning <= now <= r.deadline
  {
  }

  /** The "ended" case is reached only when the end lies before the deadline. */
  lemma EndedNeedsEndBeforeDeadline(r: Recruitment, now: int)
    requires CheckInBtoD(r, now) == Failure(Ended)
    ensures r.beginning <= now <= r.deadline && r.end < now && r.end < r.deadline
  {
  }

  /** checkRecruitmentTimeInBtoE: an operation on a running recruitment,
      from its beginning to its end; the deadline plays no part. */
  function CheckInBtoE(r: Recruitment, now: int): (o: Outcome<Error>)
    ensures o.Success? <==> r.beginning <= now <= r.end
    ensures now < r.beginning ==> o == Failure(NotStarted)
    ensures o.Failure? ==> o.error in {NotStarted, Ended}
  {
    if r.beginning > now then Failure(NotStarted)
    else if r.end < now then Failure(Ended)
    else Success
  }

  /** For an ordered recruitment the submission window lies inside the
      running window, and moving the deadline does not change the running
      window. */
  lemma SubmissionInsideRunning(r: Recruitment, now: int, deadline: int)
    requires Ordered(r)
    ensures CheckInBtoD(r, now).Success? ==> CheckInBtoE(r, now).Success?
    ensures CheckInBtoE(r.(deadline := deadline), now) == CheckInBtoE(r, now)
  {
  }

  /** checkApplyStatus: a rejection is reported before an abandonment. */
  function CheckApplyStatus(a: Application): (o: Outcome<Error>)
    ensures o.Success? <==> !a.rejected && !a.abandoned
    ensures a.rejected ==> o == Failure(AppRejected)
    ensures !a.rejected && a.abandoned ==> o == Failure(AppAbandoned)
  {
    if a.rejected then Failure(AppRejected)
    else if a.abandoned then Failure(AppAbandoned)
    else Success
  }

  /** The step at which a candidate picks slots of the given kind. */
  function SelectionStep(kind: Kind): (s: Step)
    ensures Rank(s) == (if kind == InGroup then 3 else 6)
  {
    match kind
    case InGroup => GroupTimeSelection
    case InTeam => TeamTimeSelection
  }

  /** checkStepInInterviewSelectStatus: slots of a kind may be picked only at
      that kind's time-selection step. */
  function CheckStepInSelection(kind: Kind, a: Application): (o: Outcome<Error>)
    ensures o.Success? <==> (kind == InGroup && a.step == GroupTimeSelection) ||
                            (kind == InTeam && a.step == TeamTimeSelection)
    ensures o.Failure? ==> o.error == NotSelectionStep
  {
    match kind
    case InGroup => if a.step != GroupTimeSelection then Failure(NotSelectionStep) else Success
    case InTeam => if a.step != TeamTimeSelection then Failure(NotSelectionStep) else Success
  }

  /** No step admits picking both kinds of slot. */
  lemma SelectionStepsExclusive(a: Application)
    ensures !(CheckStepInSelection(InGroup, a).Success? && CheckStepInSelection(InTeam, a).Success?)
    ensures CheckStepInSelection(InGroup, a).Success? <==> a.step == SelectionStep(InGroup)
    ensures CheckStepInSelection(InTeam, a).Success? <==> a.step == SelectionStep(InTeam)
  {
  }

  /** checkMemberGroup: the application must exist and the caller must be a
      member of the group it applies to. */
  function CheckMemberGroup(st: Store, aid: string, memberGroups: seq<string>): (o: Outcome<Error>)
    ensures o.Success? <==> aid in st.applications && st.applications[aid].group in memberGroups
    ensures aid !in st.applications ==> o == Failure(NotFound(aid))
    ensures aid in st.applications && st.applications[aid].group !in memberGroups ==> o == Failure(NotSameGroup)
  {
    if aid !in st.applications then Failure(NotFound(aid))
    else if Roles.CheckInGroups(memberGroups, st.applications[aid].group) then Success
    else Failure(NotSameGroup)
  }
}

=== FILE: wrappers.dfy ===
/** Option, Result and Outcome: the shapes every fallible operation of the
    recruitment engine returns instead of a Go `error`. */
module Wrappers {

  datatype Option<+T> = None | Some(value: T) {
    function GetOr(default: T): T {
      match this
      case Some(v) => v
      case None => default
    }
  }

  /** A value, or the error that stopped the operation. */
  datatype Result<+T, +E> = Ok(value: T) | Err(error: E)

  /** Success without a value (a Go function returning only `error`). */
  datatype Outcome<+E> = Success | Failure(error: E)

  /** The elements of a sequence as a set. */
  function Elems<T>(s: seq<T>): set<T> {
    set x | x in s
  }
}

/** The error conditions the engine can report. Each constructor stands for
    one `errors.New`/`fmt.Errorf` site of the Go handlers and models. */
module Errors {

  datatype Error =
    // request validation
    | BadTime               // "time set up wrong"
    | BadName               // recruitment name not 5 bytes long
    | MissingRid
    | MissingAid
    | BadGroup              // group not in the group table
    | BadType               // type is not group/team
    | BadFileType           // type is not WrittenTest
    | MissingFile
    | BadFromStep
    | BadToStep
    | EmptyComment          // evaluation and content both missing
    | BadSmsType
    | MissingAids
    | BadNextStep
    | BadCurrentStep
    // lookups and storage
    | NotFound(uid: string)
    | Duplicate             // a unique key or primary key already taken
    | UploadFailed
    | IdentityLookupFailed  // the identity service could not resolve a user
    // time windows
    | NotStarted
    | DeadlinePassed
    | Ended
    // application state
    | AppRejected
    | AppAbandoned
    | AppTerminated         // abandoned or rejected, reported together
    | StepMismatch
    | NotOwner
    | NotSameGroup
    | NotSelectionStep
    | OtherGroupSlot        // "you can't set other group's interview time"
    // interview slots
    | SlotSelected(iid: string)
    | SlotAllocated(iid: string)
    | SlotLocked(iid: string)   // "[interview X have been selected]" in the reconcile loop
    | SlotWriteFailed          // a rejected UPDATE inside the reconcile loop
    | BatchWriteFailed         // the create-then-delete batch of the reconcile loop
    | StillReferenced          // a delete refused by a foreign key
    // notifications
    | NotRejectedYet
    | PlaceMissing
    | TimeMissing
    | NotAllocated          // no interview start allocated for the kind named
    | MeetingMissing
    | InvalidNext
    | NoSlotsScheduled(group: string)
    | Batch(errors: seq<Error>)  // several per-candidate errors reported at once
}
